=== FILE: README.md ===
# Matrimony backend core in Dafny

This project models the decision layer of a matrimony web service's route
handlers. It covers:

- the interest-credit ledger: send interest, accept or decline, view a contact, the invitation listing and buying credit;
- the astrology request lifecycle: submission, the delayed job's completion, and the delay it is scheduled with;
- the two one-time-code flows over a cache with expiry: password reset, and e-mail plus mobile verification at registration;
- registration and login;
- the account, profile-discovery, profile-update, broker-registry and moderation routes;
- the authentication middleware;
- the display-id generator.

Each handler is a pure function. It takes the request fields and the state, and returns a response (status and message) together with the new state.

Modelling choices:

- **Users.** The user collection is a `seq<User>` in stored order, so a database lookup is "the first match".
- **Brokers.** The broker registry is a `seq<Broker>`.
- **Cache.** The cache is a map from key to value and expiry instant, in milliseconds.
- **Request fields.** An absent request field is `None`. JavaScript truthiness, `trim`, `toLowerCase`, `split`, `padStart`, `String.fromCharCode` and `JSON.stringify`/`JSON.parse` on the stored one-time-code record are written out in modules `Js` and `Json`.
- **Outside effects as parameters.** Everything the handlers get from outside is a parameter of the function that needs it:
  - the current time;
  - the random draw (a real in [0, 1));
  - generated codes and ids;
  - token verification;
  - the chart and AI calls;
  - image uploads and deletions;
  - the age computed from a date of birth;
  - the referral-id generator;
  - whether the registration codes were delivered (send-otp answers 500 when not).
- **E-mail.** Every other route is modelled as if its notification e-mail is delivered; what a failed send does there is listed under "## Left out".
- **Passwords.** `Hashed(plain)` stands for the bcrypt hash of a password, and `Unhashed(text)` for a password stored as sent. The model treats two hashes as equal exactly when the passwords are equal. That is an abstraction, and "## Left out" says where bcrypt differs.
- **User documents.** The user schema (`src/models/User.js:4-84`) declares only flat registration fields. The routes also read and write nested paths that it does not declare: `basic.*`, `interests.*`, `isHidden`, `hideProfiles`, `transactions`, `astrology` and the moderation flags. The model follows the routes and keeps two separate groups of fields:
  - the top-level `email`, `password` and `images`, which registration writes and login reads;
  - the `basic` section (email, mobile, alternate mobile, password, full name, images), which the reset, send-otp, middleware, contact and update routes use.
- **Unset paths.** A scalar path that no route has written is unset (`None`). Registration sets neither the fields of `basic`, `isHidden` nor `interests.totalNoOfInterest`.
- **Nested sections exist.** The model assumes that the deployed schema declares `basic` and `interests` as nested paths, with the interest lists and the `astrology`, `transactions` and `hideProfiles` arrays defaulting to empty. Under that assumption, a freshly registered user has a `basic` section whose fields are all unset and empty interest lists. So reads such as `currentUser.basic.email` (`src/routes/auth/astrology.js:81`), `user.basic.images` (`src/routes/auth/profiles.js:141`) and `receiver.interests.received.push` (`src/routes/auth/interests.js:45`) never fail in the model. Without such declarations they throw in the source, and the route answers 500. The consequences are stated as lemmas: `Profiles.NewUserNotDiscovered`, `Payments.NoTotalNoPurchase` and `PasswordReset.RegistrantCannotRequestReset`.

Modules follow the source files:

| module | what it models |
|---|---|
| `InterestLedger` | `interests.js` |
| `Payments` | `transactions.js` |
| `AstroSchedule` | `astroHelper.js` |
| `Astrology` | `astrology.js` |
| `DisplayId` | `utils.js` |
| `PasswordReset` | `resetPwd.js` |
| `RegistrationOtp` | `validations.js` |
| `Accounts` | `accounts.js` |
| `Credentials` | `credentials.js` |
| `Profiles` | `profiles.js` |
| `Brokers` | `broker.js` |
| `Admin` | `admin.js` |
| `Auth` | the middleware |

Shared modules: `Store` holds the data model and lookups, `Cache` the key-value store, `Json` the record codec, and `Js` and `Collections` the language-level helpers.

## Behaviour worth knowing


- **buy-interest.** It has no duplicate-order guard: a repeated purchase credits twice (`Payments.BuyInterestTwiceCreditsTwice`). It also appends the transaction rather than prepending it.
- **Astrology submission.** It prepends its entry and its transaction.
- **Accept and decline.** They append without a duplicate check (`InterestLedger.AcceptTwiceDuplicates`).
- **Shared code key.** The password-reset and registration flows share the `otp:<email>` key, so one flow can answer the other (`RegistrationOtp.ResetCodePassesRegistration`).
- **No admin check.** The moderation routes check only that the caller is signed in; no role check appears in them.
- **Two sets of credentials.** Registration and login use the top-level email and password. Password reset looks users up by `basic.email` and writes `basic.password`. A reset therefore never changes what login accepts (`PasswordReset.ResetMissesLogin`). The model also has the flow on the login fields (`PasswordReset.LoginResetFlowReachesLogin`); see "## Findings".
- **Display ids repeat after a deletion.** The display id is computed from the current user count (`src/utils/utils.js:1-13`). After an account is deleted, the next registration receives the id of the newest existing user. `DisplayId.GenerateInjective` is injective only over distinct counts. The user schema declares `uniqueId` unique (`src/models/User.js:70`). Once the unique index is built, that registration fails with a duplicate-key error and answers 500, and so does every later registration while the count stays the same.
- **Self-action.** interest-action has no check against acting on oneself. The route loads the same document twice and assigns a whole new array on each copy. Mongoose saves such an assignment with the document version in the update's filter and increments it, so the first save commits and the second, from the stale copy, fails with a version error; the route answers 500 "Server error" with one entry appended and sends no e-mail (`InterestLedger.SelfAcceptAppendsOnce`).

## Model

| member | source | states |
|---|---|---|
| InterestLedger.SendInterest | src/routes/auth/interests.js:16-66 | guards in order: missing sender or receiver 404, self 400, already sent 400, no credit 400; each failure leaves the state unchanged; success exactly when every guard passes, appending the receiver to the sender's `sent` and the sender to the receiver's `received` |
| InterestLedger.SendInterestDebitsOne | src/routes/auth/interests.js:8-45 | a successful send lowers the sender's remaining credit (total − sent − 5·viewed) by exactly one |
| InterestLedger.SendInterestTwiceFails | src/routes/auth/interests.js:33-35 | sending the same interest again is refused with "Interest already sent" and changes nothing |
| InterestLedger.SendInterestKeepsSentDistinct | src/routes/auth/interests.js:33-44 | no `sent` list ever gains a duplicate |
| InterestLedger.InterestAction | src/routes/auth/interests.js:136-192 | missing id or an action other than accept/decline 400, a missing user 404, both with no change; acting on oneself 500 with only the first save committed, so that user's list gets its own id once and no one else changes; otherwise 200, the message names the action, only the two parties change, and each party's accepted (or declined) list gets the other's id appended |
| InterestLedger.AcceptIsSymmetric | src/routes/auth/interests.js:153-161 | after an accept each party lists the other as accepted |
| InterestLedger.DeclineIsSymmetric | src/routes/auth/interests.js:162-174 | after a decline each party lists the other as declined, neither accepted list nor the credit changes, and an earlier acceptance still shows as accept |
| InterestLedger.SelfAcceptAppendsOnce | src/routes/auth/interests.js:142-192 | accepting oneself passes every guard, answers 500 "Server error" because the second save fails, and leaves one appended entry with every other user unchanged |
| InterestLedger.AcceptTwiceDuplicates | src/routes/auth/interests.js:153-161 | repeating an accept appends a second copy to both lists |
| InterestLedger.ViewContact | src/routes/auth/interests.js:196-217 | missing user or self 404, already viewed 400, fewer than five credits 400, all with no change; otherwise only the viewer's `viewed` list grows by the target |
| InterestLedger.ViewContactDebitsFive | src/routes/auth/interests.js:204-217 | a successful view lowers remaining credit by exactly five |
| InterestLedger.ViewThenSendRunsOutOfCredit | src/routes/auth/interests.js:8-41 | with five credits, one contact view leaves too little credit to send any interest |
| InterestLedger.ViewedContacts | src/routes/auth/interests.js:229-261 | unknown user 404; otherwise exactly the stored users whose id the viewer has viewed, in stored order, never more than there are users, and without repeats when the stored users are distinct however often an id was recorded; the count is the listing's length |
| InterestLedger.ViewThenList | src/routes/auth/interests.js:217-248 | a contact just viewed appears in the viewed listing |
| InterestLedger.Mask | src/routes/auth/interests.js:96-120 | the status is accept exactly for an accepted id, decline for a declined one not accepted, sent for a sent one neither accepted nor declined, received otherwise; the `basic` mobile, alternate mobile and email are shown exactly for an accepted id |
| InterestLedger.Invitations | src/routes/auth/interests.js:79-122 | every entry is the masked view of a stored user involved in one of the four lists, every involved stored user is listed, accept is shown exactly for accepted ids and contact fields only with accept, and a "received" status means the id is in `received`; when stored ids are distinct, each involved user is listed once |
| InterestLedger.FetchInvitationStatus | src/routes/auth/interests.js:68-129 | 404 for a missing user, otherwise the invitation listing for that user's lists |
| Payments.BuyInterest | src/routes/auth/transactions.js:83-123 | 404 for a missing user and 500 for a user without a credit total, both with no change; otherwise the total rises by the purchased number and one record with order id, amount, number and note is appended; other users are unchanged |
| Payments.BuyInterestRaisesRemaining | src/routes/auth/transactions.js:94-103 | the interest lists are untouched, so remaining credit rises by exactly the purchased number |
| Payments.BuyInterestTwiceCreditsTwice | src/routes/auth/transactions.js:94-103 | repeating a purchase with the same order id credits twice and records two transactions |
| Payments.NoTotalNoPurchase | src/routes/auth/transactions.js:94-95 | a user whose credit total was never set cannot buy credit: 500, and no credit remains |
| Payments.CustomerIdMatchesPhone | src/routes/auth/transactions.js:20-24 | customer id is "user_"+phone and customer phone is "+91"+phone, the same phone text behind both prefixes |
| Payments.OrderIdsDistinct | src/routes/auth/transactions.js:15 | different generated ids give different order ids, whatever the customer details |
| Payments.LatestPaymentWins | src/routes/auth/transactions.js:67-68 | a newly listed payment decides the reported status |
| Payments.PaymentStatusAppend | src/routes/auth/transactions.js:67-68 | the status of a listing is that of its later part unless the later part is empty |
| AstroSchedule.RandomInt | src/utils/astrology/astroHelper.js:61-63 | when min ≤ max, the random integer lies in [min, max] inclusive |
| AstroSchedule.AstrologyDelay | src/utils/astrology/astroHelper.js:65-92 | from 08:00 to before 22:00 the delay is 25 to 41 minutes; otherwise it is the minutes up to the night target time, rounded up; it is always positive |
| AstroSchedule.NightWindow | src/utils/astrology/astroHelper.js:75-91 | at night the job fires in the minute starting at 08:MM:00 with MM in [12, 51], the next day from 22:00 on and the same day before 08:00 |
| AstroSchedule.DelayIgnoresMillis | src/utils/astrology/astroHelper.js:84-89 | the delay does not depend on the milliseconds of the clock reading |
| Astrology.JobDelay | src/routes/auth/astrology.js:90-91 | one minute for the fast-track name; for anyone else exactly the scheduler's delay, which is 25 to 41 minutes by day |
| Astrology.Submit | src/routes/auth/astrology.js:19-103 | missing birth details 400, unknown user 404, existing transaction 200 with no change; otherwise a pending entry with the fresh id and the transaction are put first, the pending-payment key is deleted and one job carrying the id and email is scheduled |
| Astrology.SubmitKeepsCredit | src/routes/auth/astrology.js:79-87 | a submission changes neither the remaining credit nor any interest list |
| Astrology.FindEntry | src/routes/auth/astrology.js:146 | the first entry whose id equals the requested one; an absent id matches nothing |
| Astrology.Complete | src/routes/auth/astrology.js:133-205 | unknown user, unknown entry and completed entry each give their own 404; a pending entry gives 500 exactly when the chart or AI call fails and 200 exactly when it yields a reading; every failure leaves the state unchanged, and a success completes only that entry with the reading |
| Astrology.CompleteOnce | src/routes/auth/astrology.js:154-158 | running the callback again, with any external answers, gives 404 and changes nothing |
| Astrology.SubmitThenComplete | src/routes/auth/astrology.js:63-200 | when the submitter is the first user with their `basic.email`, the middleware admits the scheduled job (internal secret, job email) as the submitter, and the callback with the job's id answers 200 and completes exactly the entry the submission created |
| Astrology.PartnerChartOnlyWithPlace | src/routes/auth/astrology.js:174-177 | without a partner place the reading does not depend on the partner chart |
| Astrology.PartnerChartWithPlace | src/routes/auth/astrology.js:174-186 | with a partner place the AI call receives the partner's chart |
| DisplayId.NumberPart | src/utils/utils.js:4-5 | the numeric part lies in [1, 999] |
| DisplayId.NumberText | src/utils/utils.js:10 | the numeric part zero-padded to exactly three digits |
| DisplayId.GenerateUniqueId | src/utils/utils.js:1-13 | five code units; below 999·676 users both letters are capitals |
| DisplayId.ParseGenerate | src/utils/utils.js:4-12 | below the capacity, reading a generated id back gives the count |
| DisplayId.GenerateInjective | src/utils/utils.js:4-12 | below the capacity, distinct counts give distinct ids |
| DisplayId.FirstId | src/utils/utils.js:4-12 | count 0 gives "AA001" |
| DisplayId.LastIdOfFirstBlock | src/utils/utils.js:4-12 | count 998 gives "AA999" |
| DisplayId.FirstIdOfSecondBlock | src/utils/utils.js:4-12 | count 999 gives "AB001" |
| Cache.Get | src/routes/auth/resetPwd.js:58-60 | the stored value while its key is live, and nothing once it has expired or was never set |
| Cache.GetSetEx | src/routes/auth/resetPwd.js:32 | a value written with a time to live reads back until the time runs out and not after; other keys are unaffected |
| Cache.GetDel | src/routes/auth/resetPwd.js:69 | a deleted key reads as nothing; other keys are unaffected |
| Cache.KeysDistinct | src/routes/auth/resetPwd.js:69-70 | the code key and the verified marker never collide, and different emails give different keys |
| Json.ReadEscaped | src/routes/auth/validations.js:46 | reading back a string literal written by `JSON.stringify` gives the text and what follows |
| Json.ParseStringify | src/routes/auth/validations.js:37-80 | parsing the stored record's JSON gives back exactly its fields |
| Json.ParseOfStringify | src/routes/auth/validations.js:46-80 | `JSON.parse` of the record the send route stored gives back that record |
| Json.ParseAcceptsOtherSpellings | src/routes/auth/validations.js:80 | a text other than the one written for a record (an escaped slash) parses to that record, so parsing is not injective |
| PasswordReset.RequestReset | src/routes/auth/resetPwd.js:12-51 | missing email 400, an email no user has as `basic.email` 404, both with no change; otherwise the code is readable under `otp:<email>` for exactly 300 s, replacing any earlier one, and no other key changes |
| PasswordReset.VerifyOtp | src/routes/auth/resetPwd.js:53-77 | no live code 400, wrong code 400 keeping it; the right code is deleted and the verified marker is readable for exactly 600 s from then; no other key changes |
| PasswordReset.ResetPassword | src/routes/auth/resetPwd.js:79-104 | without the marker 400, with it but no new password 500, both with no change; otherwise the first user with that `basic.email` gets the new password's hash as `basic.password`, the marker is consumed and nothing else changes, 200 even when no user matched |
| PasswordReset.ResetFlowSetsPassword | src/routes/auth/resetPwd.js:12-104 | for an email held as `basic.email`: request, verify within 300 s and reset within 600 s set that user's `basic.password`, and the marker cannot be reused |
| PasswordReset.OtpSingleUse | src/routes/auth/resetPwd.js:58-70 | an accepted code cannot be verified a second time |
| PasswordReset.OtpExpires | src/routes/auth/resetPwd.js:32-63 | a code presented 300 s or more after the request is refused as expired |
| PasswordReset.NewCodeReplacesOld | src/routes/auth/resetPwd.js:32 | requesting a new code invalidates the previous one |
| PasswordReset.ResetMissesLogin | src/routes/auth/resetPwd.js:92-95 | the reset as written leaves every login answer as it was |
| PasswordReset.RegistrantCannotRequestReset | src/routes/auth/resetPwd.js:20-22 | a registration does not give an email a `basic.email`, so the reset request for it stays 404 |
| PasswordReset.RequestLoginReset | src/routes/auth/resetPwd.js:12-51 | the request with the lookup on login emails: the same answers, code lifetime and frame |
| PasswordReset.ResetLoginPassword | src/routes/auth/resetPwd.js:79-104 | the reset writing the login password of the first user with that login email, with the same answers, marker and frame |
| PasswordReset.LoginResetFlowReachesLogin | src/routes/auth/resetPwd.js:12-104 | for a normalised login email, request, verify and reset in time make login with the new password succeed |
| RegistrationOtp.SendOtp | src/routes/auth/validations.js:11-67 | both fields required; an email held as `basic.email` is refused before a mobile held as `basic.mobile`; otherwise the JSON record with expiry now+300000 is readable under `otp:<email>` for exactly 300 s, and the reply is 200 or 500 by delivery |
| RegistrationOtp.VerifyRegistration | src/routes/auth/validations.js:69-97 | no live record 400, unparsable record 500; success exactly when both codes equal the record's; a failure keeps the record, a success deletes it |
| RegistrationOtp.SendThenVerify | src/routes/auth/validations.js:37-89 | the codes sent verify within five minutes, and the record is consumed |
| RegistrationOtp.WrongEmailCodeKeepsRecord | src/routes/auth/validations.js:82-83 | a wrong email code is refused and the record survives |
| RegistrationOtp.ResetCodePassesRegistration | src/routes/auth/validations.js:73-89 | a pending digit-only reset code under the shared key lets a verification that sends no codes succeed |
| RegistrationOtp.LeadingZeroResetCodeBreaksRegistration | src/routes/auth/validations.js:80 | a pending reset code with a leading zero makes the verification fail with 500 |
| Accounts.DeleteAccountAsWritten | src/routes/auth/accounts.js:9-51 | unknown user 404; otherwise the user is removed and the image host is left as it was |
| Accounts.ImagesOutliveAccount | src/routes/auth/accounts.js:21-45 | the route reports the images deleted while each of them is still hosted |
| Accounts.DeleteAccount | src/routes/auth/accounts.js:15-33 | unknown user 404 and no change; otherwise the user is removed and each image whose deletion succeeds leaves the host |
| Accounts.DeleteAccountRemovesUser | src/routes/auth/accounts.js:15-33 | whatever the host answers, the user is removed and every other user kept; if every deletion succeeds none of the images remains |
| Accounts.HideProfile | src/routes/auth/accounts.js:53-99 | unknown user 404 and no change; without a user id the own profile is hidden; with one the id is put first in the hidden list unless already there |
| Accounts.HideProfileIdempotent | src/routes/auth/accounts.js:67-88 | repeating a hide, with or without a user id, changes nothing more |
| Accounts.HideProfileKeepsDistinct | src/routes/auth/accounts.js:85-88 | the hidden list never gains a duplicate |
| Accounts.UserAccount | src/routes/auth/accounts.js:101-120 | unknown user 404; otherwise the stored hidden flag |
| Accounts.HideThenReport | src/routes/auth/accounts.js:67-115 | after hiding oneself the account page reports hidden |
| Credentials.NormalizeIdempotent | src/routes/auth/credentials.js:55 | trimming and lower-casing an already normalised email changes nothing |
| Credentials.Age | src/routes/auth/credentials.js:57-63 | a missing date of birth gives age −1 |
| Credentials.RegisterLookingUp | src/routes/auth/credentials.js:29-86 | the four required fields (400), then an existing email (400), then an existing mobile (400); otherwise exactly one new user is appended |
| Credentials.RegisterAsWritten | src/routes/auth/credentials.js:10-103 | the duplicate check uses the raw email while the stored email is normalised and the user name is the raw email |
| Credentials.RegisterAsWrittenShadowed | src/routes/auth/credentials.js:33-119 | a case or space variant of a stored email registers, stored emails stop being unique, and logging in with the new credentials fails when the earlier account has another password |
| Credentials.ShadowedExample | src/routes/auth/credentials.js:33-67 | with "a@b.com" stored, "A@b.com" registers, and its owner cannot log in |
| Credentials.Register | src/routes/auth/credentials.js:10-103 | with the check on the normalised email: duplicate 400 exactly when the normalised email is stored; a new user stores the normalised email, the hash, the display id for the count and −1 age without a date of birth, and leaves `basic`, the discovery profile, the credit total and the visibility flag unset |
| Credentials.RegisterKeepsEmailsUnique | src/routes/auth/credentials.js:33-67 | registration keeps stored emails unique |
| Credentials.RegisterThenLogin | src/routes/auth/credentials.js:55-118 | whoever registers logs in with the same email and password, and reaches the new account |
| Credentials.LoginKey | src/routes/auth/credentials.js:113-124 | success exactly when the email is stored and the password matches; unknown email and wrong password give the same "Invalid credentials" with no change; a hidden user becomes visible and nothing else changes |
| Credentials.Login | src/routes/auth/credentials.js:105-139 | both fields required (400, no change); otherwise the email is normalised before the lookup |
| Credentials.LoginNormalizes | src/routes/auth/credentials.js:113 | login answers an email the same as its normalised form |
| Credentials.LoginSeesOnlyCredentials | src/routes/auth/credentials.js:113-119 | login answers depend only on each user's id, login email and login password |
| Profiles.TargetGender | src/routes/auth/profiles.js:18-19 | "female" exactly when the lower-cased gender is "male", otherwise "male" |
| Profiles.MutualDiscovery | src/routes/auth/profiles.js:18-35 | when a male user is shown a profile, that profile's owner is shown male profiles |
| Profiles.Excluded | src/routes/auth/profiles.js:25-31 | an id is excluded exactly when it is in accepted, declined, hidden, sent or received |
| Profiles.Matches | src/routes/auth/profiles.js:34-77 | the matches are exactly the stored users the discovery query admits |
| Profiles.TotalPages | src/routes/auth/profiles.js:93 | for a positive limit the least n with n·limit ≥ total; for a negative limit the ceiling of total ÷ limit; null for limit 0 |
| Profiles.LastPage | src/routes/auth/profiles.js:22-93 | for a positive limit, page p holds something exactly when p is at most the page count |
| Profiles.Window | src/routes/auth/profiles.js:83-85 | the page starts at the skip and holds limit entries or what is left; limit 0 takes the rest, a negative limit at most its magnitude |
| Profiles.FetchProfiles | src/routes/auth/profiles.js:10-101 | no gender 400, negative skip 500; otherwise the page of matches at skip (page−1)·limit, defaults 1 and 10, with the total and page count |
| Profiles.FetchExcludes | src/routes/auth/profiles.js:25-57 | a listed profile is stored, of the shown gender, neither oneself nor anyone interacted with or hidden, not hidden by its owner, and within the inclusive age bounds given |
| Profiles.FetchFindsEveryMatch | src/routes/auth/profiles.js:21-85 | with a positive limit, the k-th match is entry k mod limit of page k div limit + 1 |
| Profiles.NewUserNotDiscovered | src/routes/auth/profiles.js:37 | a freshly registered user, whose visibility flag is unset, is shown to nobody |
| Profiles.AsArray | src/routes/auth/profiles.js:130-137 | an array is kept, a string becomes the trimmed pieces of its comma split, one per piece, anything else the empty array |
| Profiles.NormalizePartner | src/routes/auth/profiles.js:130-138 | the same keys; each array field holds `AsArray` of the value sent; other keys as sent |
| Profiles.NormalizePartnerIdempotent | src/routes/auth/profiles.js:130-137 | normalising normalised preferences changes nothing |
| Profiles.ListRoundTrip | src/routes/auth/profiles.js:135 | a list without spaces around its pieces is recovered by joining the array it becomes |
| Profiles.FinalImages | src/routes/auth/profiles.js:141 | a non-empty new image list replaces the stored one; an empty or absent one keeps it |
| Profiles.UpdateProfile | src/routes/auth/profiles.js:121-163 | unknown user 404; otherwise each of email, mobile, alternate mobile, full name, gender, age, marital status, sub-caste and qualification becomes the value sent, or stays as stored when none is sent; other `basic` keys sent are added over the stored ones, which are otherwise kept; a non-empty image list replaces the images, a sent `personal` section replaces the stored one, the partner preferences become the normalised ones sent and the profile is marked complete, while the stored password, ledger, payments, astrology, hidden list, login fields and moderation flags are kept; the user differs from the stored one only in `profile`, `basic`, the partner preferences and the completeness flag, so the registration fields (mobile, user name, alternate mobile, full name, registration profile, images, details) stay as stored |
| Profiles.UpdateProfileAsWritten | src/routes/auth/profiles.js:143-155 | a top-level `interests`, `isVerified` or `isCorrupted` in the body is saved over the stored one, and a `basic.password` in the body is stored as sent, unhashed |
| Profiles.PlainPasswordOverwritesReset | src/routes/auth/profiles.js:143-155 | a password sent with a profile update replaces the stored one unhashed |
| Profiles.SelfServiceModeration | src/routes/auth/profiles.js:143-155 | a user can verify themself, clear a corrupted mark and set their own credit through a profile update |
| Profiles.UpdateKeepsLedger | src/routes/auth/profiles.js:143-155 | the intended update keeps remaining credit and both moderation flags |
| Profiles.MyProfile | src/routes/auth/profiles.js:103-119 | unknown user 404; otherwise the signed-in user's stored document |
| Profiles.UpdateThenRead | src/routes/auth/profiles.js:103-163 | after an update the profile page shows a complete profile with the normalised partner preferences |
| Brokers.RegisterBroker | src/routes/auth/broker.js:13-97 | five fields required (not compared), 400; a broker with that email or that phone 409; otherwise one broker without referral id is appended and a completion job is scheduled, one minute for the fast-track name, else 331 minutes |
| Brokers.RegisterBrokerAsWritten | src/routes/auth/broker.js:13-97 | the same 400 and 409 guards; every request past them gets 500, because the broker schema requires the referral id that the create call omits; the registry never changes and no job is scheduled |
| Brokers.ValidatedBrokerNeverRegisters | src/routes/auth/broker.js:41-92 | a request that the availability check passes gets 201 from the intended route but 500 as written, and the completion for its email then finds no broker |
| Brokers.RegisterKeepsBrokersUnique | src/routes/auth/broker.js:41-65 | registration keeps emails and phones unique |
| Brokers.CompleteBroker | src/routes/auth/broker.js:99-150 | no email 400, unknown email 404, both with no change; otherwise that broker's referral id is set from its name and nothing else changes |
| Brokers.CompleteKeepsBrokersUnique | src/routes/auth/broker.js:121-124 | completion keeps emails and phones unique |
| Brokers.ValidateReferral | src/routes/auth/broker.js:193-218 | empty id 400; otherwise valid exactly when some broker holds that referral id |
| Brokers.RegisterCompleteValidate | src/routes/auth/broker.js:99-213 | after a registration and its completion, the new referral id validates |
| Brokers.ValidateBroker | src/routes/auth/broker.js:220-243 | email or mobile required; the email is checked before the phone; otherwise "Valid" |
| Brokers.ValidationPredictsRegistration | src/routes/auth/broker.js:41-50 | for a complete request the availability check passes exactly when registration is accepted |
| Admin.CorruptProfile | src/routes/auth/admin.js:7-26 | unknown id 404 and no change; otherwise the corrupted flag becomes the negation of its truthiness |
| Admin.CorruptTwice | src/routes/auth/admin.js:16 | toggling twice restores the flag's truth value, and the flag itself when it was present |
| Admin.VerifyProfile | src/routes/auth/admin.js:27-46 | unknown id 404 and no change; otherwise only the verified flag is set, the corrupted flag kept |
| Admin.VerifyIdempotent | src/routes/auth/admin.js:36 | verifying twice equals verifying once |
| Auth.Authenticate | src/middleware/auth.js:4-33 | a truthy token decides alone (invalid 401, unknown id 401); else a matching secret looks up the body email among `basic.email` values (404 when missing); else 401 |
| Auth.TokenTakesPrecedence | src/middleware/auth.js:10-18 | with a token the secret header and body email play no part |
| Auth.PassedMeansAuthenticated | src/middleware/auth.js:10-26 | a request passes only for a verified token's user or, with the matching secret, the first user whose `basic.email` is the body email |
| Auth.UnsetSecretAdmitsBodyEmail | src/middleware/auth.js:21-26 | with the secret unset, a request without token or secret header acts as the body email's user |
| Store.FindByEmail | src/routes/auth/credentials.js:115 | the first user whose stored email equals the value; none exactly when nobody has it |
| Store.FindByBasicEmail | src/middleware/auth.js:22 | the first user whose `basic.email` equals the value; none exactly when nobody has it |
| Js.TrimLower | src/routes/auth/credentials.js:55 | trimming and lower-casing commute |
| Js.JoinSplit | src/routes/auth/profiles.js:135 | joining the pieces of a split with the separator gives the input back |
| Js.DecimalRoundTrip | src/utils/utils.js:10 | the decimal text of a number reads back as that number |

## Left out

- I/O is not modelled: database connections, e-mail and WhatsApp sends, QStash publishing, ImageKit and Cloudinary uploads, and the payment gateway. Each becomes a parameter or an output value (the scheduled job).
- Concurrency is not modelled. Each handler is one atomic step, and the two independent saves in send-interest and interest-action are not interleaved. Mongoose's document-version check matters only when one request saves two stale copies of the same document, which happens only in the self case of interest-action; that case is modelled.
- Floating point and real dates are not modelled:
  - the height filter (`parseFloat`);
  - `calculateAge` (the parameter `ageOf`);
  - `dateOfTrans`;
  - daylight-saving effects in the scheduler, whose clock is given as integer hour, minute, second and millisecond.
- Numbers that arrive as strings are not modelled. Page, limit, ages and purchased counts are integers, so `parseInt` on text and string concatenation in `totalNoOfInterest + noOfInterest` are not modelled.
- Fractional pages and limits are not modelled.
- Projections are not modelled: the `select` that hides passwords and contact fields from listings, and the response bodies beyond status and message.
- Mongoose schema validation and unique indexes are not modelled, with one exception: the broker schema's required `referralId` (see "## Findings").
- RegisterBroker: the source never reaches its 201 branch, because the schema rejects a broker without a referral id (`src/models/Broker.js:10-15`). `Brokers.RegisterBroker` models the route as intended, and `Brokers.RegisterBrokerAsWritten` models the route under the schema as it stands. `Brokers.RegisterCompleteValidate` and `Brokers.ValidationPredictsRegistration` are about the intended route.
- A lookup with an absent value matches no document. The database driver's treatment of `undefined` filter values is not modelled.
- Case-insensitive matching and `toLowerCase` are modelled on ASCII letters only. Lone UTF-16 surrogates in JSON escapes are refused.
- `isTransactionExists` is not part of this model. It is the parameter `txExists` of `Astrology.Submit`.
- `generateBrokerId` is not part of this model. It is the parameter `referralFor`.
- `getAstroApiData`, `getPlanetPositions` and `generateAstroInsights` are represented by the chart and reading parameters.
- GET /astro-data only returns the stored astrology list and is not modelled.
- The image-upload routes of profiles and brokers only relay uploads and are not modelled.
- `Astrology.Complete`: on success the handler calls `res.status(200)` and sends nothing (`src/routes/auth/astrology.js:200`). No response ever reaches the scheduler, whose call waits until it times out. The model reports this branch as 200.
- Webhook reconciliation of payments does not appear in the code and is not modelled.
- Partner preferences are modelled as a map from key to array, string or other value. The body's `family` section and the broker's descriptive fields (company, address, caste, ID proofs) are copied verbatim and not modelled.
- `Profiles.UpdateProfileAsWritten`: of the top-level keys the body spread can overwrite, only `interests`, `isVerified` and `isCorrupted` are modelled. The rest (transactions, astrology, hidden list, login email and password) would be overwritten the same way. Inside `basic`, the password is modelled: it is stored unhashed. The other `basic` fields are merged as in `Profiles.UpdateProfile`.
- Failed notification e-mails are not modelled, except in send-otp. `sendEmail` rethrows a failed delivery (`src/config/msg91Email.js:41-46`). Each of the following routes has already saved its change when the send fails, and then answers 500:
  - send-interest (`src/routes/auth/interests.js:51`);
  - accept (`src/routes/auth/interests.js:175-184`);
  - buy-interest (`src/routes/auth/transactions.js:107`);
  - account deletion and hiding (`src/routes/auth/accounts.js:35`, `:71`);
  - the astrology callback (`src/routes/auth/astrology.js:192`);
  - broker registration and completion (`src/routes/auth/broker.js:67`, `:126`).
  The password-reset request answers 500 after the code is stored (`src/routes/auth/resetPwd.js:35`).
- RegisterBroker: the contract clause "a status other than 201 leaves the registry unchanged" holds only when the welcome e-mail is delivered. When the send fails, the broker has already been created and the answer is 500.
- The rate limiter on request-reset and send-otp is not modelled. It answers 429 after three requests from one client within ten minutes (`src/middleware/otpLimiter.js:3-7`), a count kept outside the handlers.
- Malformed ids are not modelled. A user id that is not an ObjectId makes `findById` throw a cast error. The route answers 500, or the middleware 401 "Token or secret is not valid" (`src/middleware/auth.js:29-32`). The model's ids are plain strings, so the lookup answers 404 (or 401 "User not found").
- LoginKey: bcrypt hashes only the first 72 bytes of a password, so two passwords that share those bytes match each other in the source. The model's `Hashed` has no such truncation, and `Credentials.LoginKey` succeeds only on the exact password.
- Mongoose strict mode is not modelled: it would drop the paths the user schema does not declare. The model keeps every path the routes write.
- `Json.JsonParse` covers only the texts the `otp:` keys can hold: the stored record, six-digit codes, `true` and `false`. Every other text is treated as a parse failure. `JSON.parse` also accepts strings, negative numbers, arrays and other objects, none of which a flow stores under these keys.

## Findings

| source | as written | input that shows it | evidently intended | confidence | as-written member | corrected member |
|---|---|---|---|---|---|---|
| src/routes/auth/accounts.js:21-30 | the image loop calls `imagekit.deleteFile`, but the file imports `imageKit`; every call throws and the error is swallowed | any user with hosted images deletes their account | the user's images are deleted from the host before the account is removed. The corrected member deletes each image by its stored string. In the source, the loop reads `image.fileId` from the top-level `images`, which registration fills with plain Cloudinary URL strings (credentials.js:50-52). So the spelling fix alone would still pass `undefined`, and the intended deletion also needs the stored file ids | high, not executed | Accounts.DeleteAccountAsWritten, Accounts.ImagesOutliveAccount | Accounts.DeleteAccount, Accounts.DeleteAccountRemovesUser |
| src/routes/auth/credentials.js:33 | the duplicate check looks up the raw email, while line 55 stores it trimmed and lower-cased | "a@b.com" is registered, then "A@b.com" registers | the duplicate check uses the normalised email that is stored | medium (a unique index on the stored email, if built, turns the duplicate into a server error instead), not executed | Credentials.RegisterAsWritten, Credentials.RegisterAsWrittenShadowed, Credentials.ShadowedExample | Credentials.Register, Credentials.RegisterKeepsEmailsUnique, Credentials.RegisterThenLogin |
| src/routes/auth/resetPwd.js:20 | the reset flow looks the user up by `basic.email` and writes `basic.password`, while registration stores and login reads the top-level `email` and `password` (credentials.js:67-68, 115-118) | a user registers, requests a reset for their email and gets 404; a user who also has a `basic.email` resets, and login still wants the old password | the reset looks up and writes the login email and password | medium (depends on whether another route copies the login fields into `basic`; none in this code does), not executed | PasswordReset.ResetPassword, PasswordReset.ResetMissesLogin, PasswordReset.RegistrantCannotRequestReset | PasswordReset.RequestLoginReset, PasswordReset.ResetLoginPassword, PasswordReset.LoginResetFlowReachesLogin |
| src/models/Broker.js:10-15 | the broker schema requires `referralId`, but broker registration creates the broker without one (broker.js:54-65), so validation fails and the catch answers 500 | any complete registration with a new email and phone | the broker is created without a referral id, and the completion job assigns one later | high, not executed | Brokers.RegisterBrokerAsWritten, Brokers.ValidatedBrokerNeverRegisters | Brokers.RegisterBroker, Brokers.RegisterCompleteValidate, Brokers.RegisterKeepsBrokersUnique |
| src/routes/auth/profiles.js:143-155 | the whole request body is spread into the saved update | a profile update whose body carries `isVerified: true` or an `interests` object | only the profile sections are saved; verification and credit stay with their own routes | medium (depends on the schema accepting those paths), not executed | Profiles.UpdateProfileAsWritten, Profiles.SelfServiceModeration | Profiles.UpdateProfile, Profiles.UpdateKeepsLedger |

=== FILE: accounts.dfy ===
/** Account-level routes of the signed-in user: deleting the account (with
    its hosted images), hiding one's own profile or another user's, and
    reading the hidden flag. The image host is the set of file ids it still
    stores; whether one deletion succeeds is the parameter `deleteOk`. */
module Accounts {
  import opened Wrappers
  import opened Js
  import opened Store
  import opened Collections

  /** The users collection together with the file ids the image host keeps. */
  datatype World = World(users: seq<User>, hosted: set<string>)

  /** The collection without the user at position `i`. */
  function RemoveAt(users: seq<User>, i: nat): (r: seq<User>)
    requires i < |users|
    ensures |r| == |users| - 1
    ensures forall k :: 0 <= k < i ==> r[k] == users[k]
    ensures forall k :: i <= k < |r| ==> r[k] == users[k + 1]
  {
    users[..i] + users[i + 1..]
  }

  /** The files left on the host after trying to delete each of `images`:
      those whose deletion failed stay. */
  function DeleteImages(hosted: set<string>, images: seq<string>, deleteOk: string -> bool): (h: set<string>)
    ensures h <= hosted
    ensures forall f :: f in hosted && f !in images ==> f in h
    ensures forall f :: f in images && deleteOk(f) ==> f !in h
    ensures forall f :: f in images && !deleteOk(f) && f in hosted ==> f in h
  {
    hosted - set f | f in images && deleteOk(f)
  }

  /** DELETE /delete-account as written: the deletion loop reads the
      top-level `images` and calls an `imagekit` binding that the file never
      defines (it imports `imageKit`), so each call throws and is swallowed;
      the user is removed and every image stays hosted. */
  function DeleteAccountAsWritten(w: World, userId: Id): (r: Reply<World>)
    ensures r.resp.status == 404 <==> FindById(w.users, userId).None?
    ensures r.resp.status == 404 ==> r.state == w
    ensures r.resp.status == 200 ==>
              r.state == World(RemoveAt(w.users, FindById(w.users, userId).value), w.hosted)
  {
    match FindById(w.users, userId)
    case None => Reply(Response(404, "User not found"), w)
    case Some(i) => Reply(Response(200, "Account and images deleted successfully"), World(RemoveAt(w.users, i), w.hosted))
  }

  /** The route answers that the images were deleted, yet every image of the
      deleted user is still hosted, even when the host would have accepted
      each deletion. */
  lemma ImagesOutliveAccount(w: World, userId: Id, f: string)
    requires FindById(w.users, userId).Some?
    requires f in w.users[FindById(w.users, userId).value].images && f in w.hosted
    ensures var r := DeleteAccountAsWritten(w, userId);
            && r.resp == Response(200, "Account and images deleted successfully")
            && f in r.state.hosted
  {
  }

  /** DELETE /delete-account as intended: an unknown user gives 404 and no
      change; otherwise each image is deleted from the host (a failure is
      logged and skipped) and the user is removed. */
  function DeleteAccount(w: World, userId: Id, deleteOk: string -> bool): (r: Reply<World>)
    ensures r.resp.status == 404 <==> FindById(w.users, userId).None?
    ensures r.resp.status == 404 ==> r.state == w
    ensures r.resp.status == 200 ==>
              var i := FindById(w.users, userId).value;
              && r.state.users == RemoveAt(w.users, i)
              && r.state.hosted == DeleteImages(w.hosted, w.users[i].images, deleteOk)
  {
    match FindById(w.users, userId)
    case None => Reply(Response(404, "User not found"), w)
    case Some(i) =>
      Reply(Response(200, "Account and images deleted successfully"),
            World(RemoveAt(w.users, i), DeleteImages(w.hosted, w.users[i].images, deleteOk)))
  }

  /** Whatever the image host answers, the account is gone: the first user
      with that id is removed and the others keep their order. When every
      deletion succeeds, none of the user's images is left on the host. */
  lemma DeleteAccountRemovesUser(w: World, userId: Id, deleteOk: string -> bool,
                                 deleteOk2: string -> bool)
    requires FindById(w.users, userId).Some?
    ensures var i := FindById(w.users, userId).value;
            var r := DeleteAccount(w, userId, deleteOk);
            && r.resp.status == 200
            && r.state.users == DeleteAccount(w, userId, deleteOk2).state.users
            && |r.state.users| == |w.users| - 1
            && (forall k :: 0 <= k < |w.users| && k != i ==> w.users[k] in r.state.users)
            && ((forall f :: f in w.users[i].images ==> deleteOk(f)) ==>
                  forall f :: f in w.users[i].images ==> f !in r.state.hosted)
  {
    var i := FindById(w.users, userId).value;
    var r := DeleteAccount(w, userId, deleteOk);
    forall k | 0 <= k < |w.users| && k != i
      ensures w.users[k] in r.state.users
    {
      if k < i {
        assert r.state.users[k] == w.users[k];
      } else {
        assert r.state.users[k - 1] == w.users[k];
      }
    }
  }

  /** POST /hide-profile. An unknown signed-in user gives 404. Without a
      `userId` the user hides their own profile; with one, that id is put
      first in their hidden list unless already there. */
  function HideProfile(users: seq<User>, currentId: Id, userId: Option<string>): (r: Reply<seq<User>>)
    ensures r.resp.status == 404 <==> FindById(users, currentId).None?
    ensures r.resp.status == 404 ==> r.state == users
    ensures SameIds(users, r.state)
    ensures r.resp.status == 200 ==>
              var i := FindById(users, currentId).value;
              && OthersUnchanged(users, r.state, i)
              && (!Truthy(userId) ==> r.state[i] == users[i].(isHidden := Some(true)))
              && (Truthy(userId) ==>
                    && r.state[i] == users[i].(hideProfiles := r.state[i].hideProfiles)
                    && userId.value in r.state[i].hideProfiles
                    && (userId.value in users[i].hideProfiles ==> r.state[i].hideProfiles == users[i].hideProfiles)
                    && (userId.value !in users[i].hideProfiles ==>
                          r.state[i].hideProfiles == [userId.value] + users[i].hideProfiles))
  {
    match FindById(users, currentId)
    case None => Reply(Response(404, "User not found"), users)
    case Some(i) =>
      var u := users[i];
      if !Truthy(userId) then
        Reply(Response(200, "Your profile is now hidden"), users[i := u.(isHidden := Some(true))])
      else if userId.value in u.hideProfiles then
        Reply(Response(200, "User profile hidden successfully"), users)
      else
        Reply(Response(200, "User profile hidden successfully"), users[i := u.(hideProfiles := [userId.value] + u.hideProfiles)])
  }

  /** Hiding is idempotent: repeating the call, with or without a `userId`,
      changes nothing more. */
  lemma HideProfileIdempotent(users: seq<User>, currentId: Id, userId: Option<string>)
    ensures var once := HideProfile(users, currentId, userId).state;
            HideProfile(once, currentId, userId).state == once
  {
    var once := HideProfile(users, currentId, userId).state;
    FindByIdSameIds(users, once, currentId);
  }

  /** The hidden list never gains a duplicate. */
  lemma HideProfileKeepsDistinct(users: seq<User>, currentId: Id, userId: Option<string>)
    requires FindById(users, currentId).Some? && NoDup(users[FindById(users, currentId).value].hideProfiles)
    ensures var r := HideProfile(users, currentId, userId);
            NoDup(r.state[FindById(users, currentId).value].hideProfiles)
  {
    var i := FindById(users, currentId).value;
    var r := HideProfile(users, currentId, userId);
    if Truthy(userId) && userId.value !in users[i].hideProfiles {
      var s := r.state[i].hideProfiles;
      assert s == [userId.value] + users[i].hideProfiles;
      forall a, b | 0 <= a < b < |s| ensures s[a] != s[b] {
        if a == 0 {
          assert s[b] == users[i].hideProfiles[b - 1];
        } else {
          assert s[a] == users[i].hideProfiles[a - 1] && s[b] == users[i].hideProfiles[b - 1];
        }
      }
    }
  }

  /** What GET /user-account reports. */
  datatype AccountView = AccountView(resp: Response, isHidden: Option<bool>)

  /** GET /user-account: the hidden flag of the signed-in user, read only
      (it returns no new state). */
  function UserAccount(users: seq<User>, currentId: Id): (v: AccountView)
    ensures v.resp.status == 404 <==> FindById(users, currentId).None?
    ensures v.resp.status == 200 ==> v.isHidden == users[FindById(users, currentId).value].isHidden
  {
    match FindById(users, currentId)
    case None => AccountView(Response(404, "User not found"), None)
    case Some(i) => AccountView(Response(200, "ok"), users[i].isHidden)
  }

  /** Hiding one's own profile is what the account page then reports. */
  lemma HideThenReport(users: seq<User>, currentId: Id)
    requires FindById(users, currentId).Some?
    ensures UserAccount(HideProfile(users, currentId, None).state, currentId).isHidden == Some(true)
  {
    FindByIdSameIds(users, HideProfile(users, currentId, None).state, currentId);
  }
}

=== FILE: admin.dfy ===
/** The two moderation routes: toggling a profile's corrupted flag and
    marking a profile verified. */
module Admin {
  import opened Wrappers
  import opened Store

  /** `findById(id)` for an id taken from the request body: an absent id
      finds nobody. */
  function FindByBodyId(users: seq<User>, id: Option<Id>): (r: Option<nat>)
    ensures r.Some? ==> id.Some? && r == FindById(users, id.value)
    ensures r.None? <==> id.None? || FindById(users, id.value).None?
  {
    if id.None? then None else FindById(users, id.value)
  }

  /** POST /corrupt-profile: 404 for an unknown id; otherwise the flag becomes
      the negation of its truthiness, so an absent flag becomes `true`. */
  function CorruptProfile(users: seq<User>, corruptedId: Option<Id>): (r: Reply<seq<User>>)
    ensures r.resp.status == 404 <==> FindByBodyId(users, corruptedId).None?
    ensures r.resp.status == 404 ==> r.state == users
    ensures SameIds(users, r.state)
    ensures r.resp.status == 200 ==>
              var i := FindByBodyId(users, corruptedId).value;
              && OthersUnchanged(users, r.state, i)
              && r.state[i] == users[i].(isCorrupted := r.state[i].isCorrupted)
              && r.state[i].isCorrupted.Some?
              && (IsSet(r.state[i].isCorrupted) <==> !IsSet(users[i].isCorrupted))
  {
    match FindByBodyId(users, corruptedId)
    case None => Reply(Response(404, "User not found"), users)
    case Some(i) =>
      Reply(Response(200, "Corruption status updated"), users[i := users[i].(isCorrupted := Some(!IsSet(users[i].isCorrupted)))])
  }

  /** Toggling twice restores the flag's truth value, and restores the flag
      itself exactly when it was present; an absent flag comes back as
      `false`. */
  lemma CorruptTwice(users: seq<User>, corruptedId: Option<Id>)
    requires FindByBodyId(users, corruptedId).Some?
    ensures var twice := CorruptProfile(CorruptProfile(users, corruptedId).state, corruptedId).state;
            var i := FindByBodyId(users, corruptedId).value;
            && IsSet(twice[i].isCorrupted) == IsSet(users[i].isCorrupted)
            && (twice == users <==> users[i].isCorrupted.Some?)
            && (users[i].isCorrupted.None? ==> twice[i].isCorrupted == Some(false))
  {
    var once := CorruptProfile(users, corruptedId).state;
    var twice := CorruptProfile(once, corruptedId).state;
    var i := FindByBodyId(users, corruptedId).value;
    FindByIdSameIds(users, once, corruptedId.value);
    assert FindByBodyId(once, corruptedId) == Some(i);
    assert once[i] == users[i].(isCorrupted := Some(!IsSet(users[i].isCorrupted)));
    assert twice[i] == users[i].(isCorrupted := Some(!IsSet(once[i].isCorrupted)));
    if twice == users {
      assert twice[i].isCorrupted == users[i].isCorrupted;
    } else {
      assert twice[i] == users[i].(isCorrupted := twice[i].isCorrupted);
    }
    if users[i].isCorrupted.Some? {
      var b := users[i].isCorrupted.value;
      assert IsSet(users[i].isCorrupted) == b;
      assert IsSet(once[i].isCorrupted) == !b;
      assert twice[i].isCorrupted == users[i].isCorrupted;
      assert twice[i] == users[i];
      assert twice == users;
    }
  }

  /** POST /verify-profile: 404 for an unknown id; otherwise the profile is
      marked verified and nothing else changes, in particular not its
      corrupted flag. */
  function VerifyProfile(users: seq<User>, verifyUserId: Option<Id>): (r: Reply<seq<User>>)
    ensures r.resp.status == 404 <==> FindByBodyId(users, verifyUserId).None?
    ensures r.resp.status == 404 ==> r.state == users
    ensures SameIds(users, r.state)
    ensures r.resp.status == 200 ==>
              var i := FindByBodyId(users, verifyUserId).value;
              && OthersUnchanged(users, r.state, i)
              && r.state[i].isVerified == Some(true)
              && r.state[i].isCorrupted == users[i].isCorrupted
              && r.state[i] == users[i].(isVerified := Some(true))
  {
    match FindByBodyId(users, verifyUserId)
    case None => Reply(Response(404, "User not found"), users)
    case Some(i) => Reply(Response(200, "Verified status updated"), users[i := users[i].(isVerified := Some(true))])
  }

  /** Verifying a profile twice is the same as verifying it once. */
  lemma VerifyIdempotent(users: seq<User>, verifyUserId: Option<Id>)
    ensures var once := VerifyProfile(users, verifyUserId).state;
            VerifyProfile(once, verifyUserId).state == once
  {
    var once := VerifyProfile(users, verifyUserId).state;
    if verifyUserId.Some? {
      FindByIdSameIds(users, once, verifyUserId.value);
    }
  }
}

=== FILE: astro_schedule.dfy ===
/** When an astrology request is processed: a random delay of 25 to 41
    minutes during the day, or the next 08:12–08:51 morning slot at night.
    `Math.random()` is the parameter `draw` and the local clock reading is the
    parameter `now`; daylight-saving shifts are not modelled. */
module AstroSchedule {

  /** A value `Math.random()` can return. */
  type UnitReal = r: real | 0.0 <= r < 1.0

  type Hour = h: int | 0 <= h < 24
  type Minute = m: int | 0 <= m < 60
  type Second = s: int | 0 <= s < 60
  type Millis = ms: int | 0 <= ms < 1000

  /** A local wall-clock reading. */
  datatype Clock = Clock(hour: Hour, minute: Minute, second: Second, millis: Millis)

  const MsPerMinute := 60_000
  const MsPerHour := 3_600_000
  const MsPerDay := 86_400_000

  /** `getRandomInt(min, max)`: `floor(draw * (max - min + 1)) + min`, which
      lies in `[min, max]` whenever `min <= max`. */
  function RandomInt(min: int, max: int, draw: UnitReal): (r: int)
    ensures min <= max ==> min <= r <= max
  {
    var n := max - min + 1;
    var x := draw * n as real;
    if n > 0 then
      ScaledDrawBounds(draw, n);
      x.Floor + min
    else
      x.Floor + min
  }

  lemma ScaledDrawBounds(draw: UnitReal, n: int)
    requires n > 0
    ensures 0 <= (draw * n as real).Floor < n
  {
    var x := draw * n as real;
    assert 0.0 <= x;
    assert x < n as real by {
      assert draw * n as real < 1.0 * n as real;
    }
  }

  /** `Math.ceil(a / b)` for a positive divisor. */
  function CeilDiv(a: int, b: int): (q: int)
    requires b > 0
    ensures (q - 1) * b < a <= q * b
  {
    -((-a) / b)
  }

  /** Milliseconds since the start of the reading's day. */
  function MsOfDay(c: Clock): int {
    c.hour * MsPerHour + c.minute * MsPerMinute + c.second * 1000 + c.millis
  }

  /** The night-time target relative to the start of today: 08:MM:00 today,
      or tomorrow when the hour is 22 or later. `setSeconds(0)` keeps the
      milliseconds of the current time. */
  function NightTargetMs(now: Clock, targetMinute: int): int {
    var day := if now.hour >= 22 then 1 else 0;
    day * MsPerDay + 8 * MsPerHour + targetMinute * MsPerMinute + now.millis
  }

  /** `getAstrologyDelay()` in minutes (the route renders it as "<n>m"). From
      08:00 to before 22:00 it is a random 25 to 41; otherwise it is the number
      of minutes, rounded up, until 08:MM:00 with MM a random 12 to 51. */
  function AstrologyDelay(now: Clock, draw: UnitReal): (minutes: int)
    ensures 8 <= now.hour < 22 ==> 25 <= minutes <= 41
    ensures !(8 <= now.hour < 22) ==>
              minutes == CeilDiv(NightTargetMs(now, RandomInt(12, 51, draw)) - MsOfDay(now), MsPerMinute)
    ensures minutes > 0
  {
    if 8 <= now.hour < 22 then RandomInt(25, 41, draw)
    else
      var target := NightTargetMs(now, RandomInt(12, 51, draw));
      var delayMs := target - MsOfDay(now);
      assert delayMs > 0;
      CeilDiv(delayMs, MsPerMinute)
  }

  /** At night the job fires within the minute that starts at the chosen
      08:MM:00 (MM between 12 and 51): of the next day from 22:00 on, of the
      same day before 08:00. */
  lemma NightWindow(now: Clock, draw: UnitReal)
    requires !(8 <= now.hour < 22)
    ensures var fire := MsOfDay(now) + AstrologyDelay(now, draw) * MsPerMinute;
            var base := (if now.hour >= 22 then MsPerDay else 0) + 8 * MsPerHour;
            && base + 12 * MsPerMinute <= fire - now.millis < base + 52 * MsPerMinute
  {
    var mm := RandomInt(12, 51, draw);
    var target := NightTargetMs(now, mm);
    var q := AstrologyDelay(now, draw);
    assert (q - 1) * MsPerMinute < target - MsOfDay(now) <= q * MsPerMinute;
  }

  /** The delay does not depend on the milliseconds of the reading. */
  lemma DelayIgnoresMillis(now: Clock, ms: Millis, draw: UnitReal)
    ensures AstrologyDelay(now, draw) == AstrologyDelay(now.(millis := ms), draw)
  {
  }
}

=== FILE: astrology.dfy ===
/** The astrology request lifecycle: a paid submission prepends a pending
    entry and its transaction and schedules a delayed job; the job later
    completes the entry with the AI reading, exactly once. Chart lookups, the
    AI call, `nanoid()`, `isTransactionExists` and the pending-payment key
    prefix are parameters. */
module Astrology {
  import opened Wrappers
  import opened Js
  import opened Store
  import opened Collections
  import opened Cache
  import opened AstroSchedule
  import Auth

  /** The payload of the delayed job: which entry, for which user (the
      user's `basic.email`, possibly unset). */
  datatype AstroJob = AstroJob(uniqueId: string, email: Option<string>)

  /** A job published to the queue: endpoint, payload and delay in minutes. */
  datatype Job = Job(endpoint: string, payload: AstroJob, delayMinutes: int)

  /** The answer to a submission, the users and pending-payment store after
      it, and the job it published, if any. */
  datatype SubmitReply = SubmitReply(resp: Response, users: seq<User>, pending: Kv, job: Option<Job>)

  /** The full name whose requests are processed after one minute. */
  const FastTrackName := "Suresh TR"

  /** The delay the submission schedules for a user. */
  function JobDelay(fullName: Option<string>, now: Clock, draw: UnitReal): (minutes: int)
    ensures fullName == Some(FastTrackName) ==> minutes == 1
    ensures fullName != Some(FastTrackName) ==> minutes == AstrologyDelay(now, draw)
    ensures fullName != Some(FastTrackName) && 8 <= now.hour < 22 ==> 25 <= minutes <= 41
    ensures minutes > 0
  {
    if fullName == Some(FastTrackName) then 1 else AstrologyDelay(now, draw)
  }

  /** The four birth details a submission must carry. */
  predicate HasBirthDetails(req: AstroRequest) {
    Truthy(req.name) && Truthy(req.dob) && Truthy(req.place) && Truthy(req.gender)
  }

  /** POST /astro-data. In order: missing birth details give 400; an unknown
      user 404; a transaction already recorded for the order gives 200 with
      `success: false`. Otherwise (201) a pending entry with the fresh id and
      the order's transaction are put first in their lists, the user's
      pending-payment key (the prefix followed by `basic.email`, "undefined"
      when unset) is removed and a job for the entry is published. */
  function Submit(users: seq<User>, pending: Kv, userId: Id, req: AstroRequest,
                  orderId: Option<string>, amount: Option<int>, note: Option<string>, paymentId: Option<string>,
                  txExists: (seq<Transaction>, Option<string>) -> bool, nanoId: string, pendingPrefix: string,
                  now: Clock, draw: UnitReal): (r: SubmitReply)
    ensures r.resp.status == 400 <==> !HasBirthDetails(req)
    ensures r.resp.status == 404 <==> HasBirthDetails(req) && FindById(users, userId).None?
    ensures r.resp == Response(200, "Transaction data already exists") <==>
              && HasBirthDetails(req) && FindById(users, userId).Some?
              && txExists(users[FindById(users, userId).value].transactions, orderId)
    ensures r.resp.status != 201 ==> r.users == users && r.pending == pending && r.job.None?
    ensures r.resp.status == 201 ==>
              var i := FindById(users, userId).value;
              var u := users[i];
              && OthersUnchanged(users, r.users, i)
              && r.users[i].astrology == [AstroEntry(nanoId, req, Pending, None)] + u.astrology
              && r.users[i].transactions == [Transaction(orderId, paymentId, amount, None, note)] + u.transactions
              && r.users[i] == u.(astrology := r.users[i].astrology, transactions := r.users[i].transactions)
              && (forall t :: Get(r.pending, pendingPrefix + Text(u.basic.email), t).None?)
              && (forall k, t :: k != pendingPrefix + Text(u.basic.email) ==> Get(r.pending, k, t) == Get(pending, k, t))
              && r.job == Some(Job("astrology", AstroJob(nanoId, u.basic.email), JobDelay(u.basic.fullName, now, draw)))
  {
    if !HasBirthDetails(req) then
      SubmitReply(Response(400, "Name, dob, gender and place are required"), users, pending, None)
    else match FindById(users, userId)
      case None => SubmitReply(Response(404, "User not found"), users, pending, None)
      case Some(i) =>
        var u := users[i];
        if txExists(u.transactions, orderId) then
          SubmitReply(Response(200, "Transaction data already exists"), users, pending, None)
        else
          var u' := u.(astrology := [AstroEntry(nanoId, req, Pending, None)] + u.astrology,
                       transactions := [Transaction(orderId, paymentId, amount, None, note)] + u.transactions);
          SubmitReply(Response(201, "Astrology data saved successfully"), users[i := u'],
                      Del(pending, pendingPrefix + Text(u.basic.email)),
                      Some(Job("astrology", AstroJob(nanoId, u.basic.email), JobDelay(u.basic.fullName, now, draw))))
  }

  /** A submission buys a reading, not interest credit: the remaining credit
      and every interest list are as before. */
  lemma SubmitKeepsCredit(users: seq<User>, pending: Kv, userId: Id, req: AstroRequest,
                          orderId: Option<string>, amount: Option<int>, note: Option<string>, paymentId: Option<string>,
                          txExists: (seq<Transaction>, Option<string>) -> bool, nanoId: string, pendingPrefix: string,
                          now: Clock, draw: UnitReal, k: nat)
    requires k < |users|
    ensures var r := Submit(users, pending, userId, req, orderId, amount, note, paymentId, txExists, nanoId, pendingPrefix, now, draw);
            && |r.users| == |users|
            && r.users[k].interests == users[k].interests
            && Remaining(r.users[k].interests) == Remaining(users[k].interests)
  {
  }

  /** The entry whose `uId` equals the requested id, as `Array.find` picks
      it; an absent id matches no entry. */
  function FindEntry(entries: seq<AstroEntry>, uniqueId: Option<string>): (r: Option<nat>)
    ensures r.Some? ==> r.value < |entries| && Some(entries[r.value].uId) == uniqueId
    ensures r.Some? ==> forall k :: 0 <= k < r.value ==> Some(entries[k].uId) != uniqueId
    ensures r.None? <==> forall k :: 0 <= k < |entries| ==> Some(entries[k].uId) != uniqueId
  {
    FirstIndex(entries, (e: AstroEntry) => Some(e.uId) == uniqueId)
  }

  /** Lookups by id see only the ids: entries with the same ids in the same
      places give the same answer. */
  lemma FindEntrySameIds(before: seq<AstroEntry>, after: seq<AstroEntry>, uniqueId: Option<string>)
    requires |before| == |after| && forall k :: 0 <= k < |before| ==> after[k].uId == before[k].uId
    ensures FindEntry(after, uniqueId) == FindEntry(before, uniqueId)
  {
  }

  /** What the AI call is given. The partner chart is absent unless the entry
      names a partner birth place. */
  datatype InsightInput = InsightInput(
    kundli1: string,
    kundli2: Option<string>,
    query: Option<string>,
    gender1: Option<string>,
    gender2: Option<string>,
    consultationMode: Option<string>)

  /** The chart computation (geocoding, time zone and planet positions) and
      the AI reading for one entry; nothing when one of the calls throws. The
      partner chart is requested only when `mPlace` is truthy. */
  function Reading(e: AstroRequest, chart: (Option<string>, Option<string>) -> Option<string>,
                   insight: InsightInput -> Option<string>): Option<string>
  {
    match chart(e.dob, e.place)
    case None => None
    case Some(k1) =>
      if Truthy(e.mPlace) then
        match chart(e.mDob, e.mPlace)
        case None => None
        case Some(k2) => insight(InsightInput(k1, Some(k2), e.query, e.gender, e.mGender, e.consultationMode))
      else insight(InsightInput(k1, None, e.query, e.gender, e.mGender, e.consultationMode))
  }

  /** Without a partner place the reading depends on the chart computation
      only through the user's own birth details. */
  lemma PartnerChartOnlyWithPlace(e: AstroRequest, chart1: (Option<string>, Option<string>) -> Option<string>,
                                  chart2: (Option<string>, Option<string>) -> Option<string>,
                                  insight: InsightInput -> Option<string>)
    requires !Truthy(e.mPlace) && chart1(e.dob, e.place) == chart2(e.dob, e.place)
    ensures Reading(e, chart1, insight) == Reading(e, chart2, insight)
    ensures chart1(e.dob, e.place).Some? ==>
              Reading(e, chart1, insight) ==
                insight(InsightInput(chart1(e.dob, e.place).value, None, e.query, e.gender, e.mGender, e.consultationMode))
  {
  }

  /** With a partner place, the AI call receives the partner's chart. */
  lemma PartnerChartWithPlace(e: AstroRequest, chart: (Option<string>, Option<string>) -> Option<string>,
                              insight: InsightInput -> Option<string>)
    requires Truthy(e.mPlace) && chart(e.dob, e.place).Some? && chart(e.mDob, e.mPlace).Some?
    ensures Reading(e, chart, insight) ==
              insight(InsightInput(chart(e.dob, e.place).value, chart(e.mDob, e.mPlace), e.query, e.gender, e.mGender,
                                   e.consultationMode))
  {
  }

  /** POST /astrology, the delayed job's callback. An unknown user, an
      unknown entry and an entry already completed each give 404 and change
      nothing; a failing chart or AI call gives 500 and changes nothing.
      Otherwise exactly that entry becomes completed with the reading, and
      the handler sets status 200 without sending an answer. */
  function Complete(users: seq<User>, userId: Id, uniqueId: Option<string>,
                    chart: (Option<string>, Option<string>) -> Option<string>,
                    insight: InsightInput -> Option<string>): (r: Reply<seq<User>>)
    ensures r.resp == Response(404, "User not found") <==> FindById(users, userId).None?
    ensures r.resp == Response(404, "Astrology record not found for this uId") <==>
              FindById(users, userId).Some? && FindEntry(users[FindById(users, userId).value].astrology, uniqueId).None?
    ensures r.resp == Response(404, "Astrology already updated for this") <==>
              && FindById(users, userId).Some?
              && var es := users[FindById(users, userId).value].astrology;
              && FindEntry(es, uniqueId).Some? && es[FindEntry(es, uniqueId).value].status == Completed
    ensures r.resp.status == 500 <==>
              && FindById(users, userId).Some?
              && var es := users[FindById(users, userId).value].astrology;
              && FindEntry(es, uniqueId).Some? && es[FindEntry(es, uniqueId).value].status == Pending
              && Reading(es[FindEntry(es, uniqueId).value].request, chart, insight).None?
    ensures r.resp.status == 200 <==>
              && FindById(users, userId).Some?
              && var es := users[FindById(users, userId).value].astrology;
              && FindEntry(es, uniqueId).Some? && es[FindEntry(es, uniqueId).value].status == Pending
              && Reading(es[FindEntry(es, uniqueId).value].request, chart, insight).Some?
    ensures r.resp.status != 200 ==> r.state == users
    ensures SameIds(users, r.state)
    ensures r.resp.status == 200 ==>
              var i := FindById(users, userId).value;
              var es := users[i].astrology;
              var j := FindEntry(es, uniqueId).value;
              && es[j].status == Pending
              && Reading(es[j].request, chart, insight).Some?
              && OthersUnchanged(users, r.state, i)
              && r.state[i] == users[i].(astrology := r.state[i].astrology)
              && |r.state[i].astrology| == |es|
              && r.state[i].astrology[j] == es[j].(status := Completed, aiResponse := Reading(es[j].request, chart, insight))
              && (forall k :: 0 <= k < |es| && k != j ==> r.state[i].astrology[k] == es[k])
  {
    match FindById(users, userId)
    case None => Reply(Response(404, "User not found"), users)
    case Some(i) =>
      var es := users[i].astrology;
      match FindEntry(es, uniqueId)
      case None => Reply(Response(404, "Astrology record not found for this uId"), users)
      case Some(j) =>
        if es[j].status == Completed then Reply(Response(404, "Astrology already updated for this"), users)
        else match Reading(es[j].request, chart, insight)
          case None => Reply(Response(500, "Server error"), users)
          case Some(text) =>
            var e' := es[j].(status := Completed, aiResponse := Some(text));
            Reply(Response(200, "completed"), users[i := users[i].(astrology := es[j := e'])])
  }

  /** A completed entry stays as it is: running the callback again, with
      any chart or AI answers, gives 404 and changes nothing. */
  lemma CompleteOnce(users: seq<User>, userId: Id, uniqueId: Option<string>,
                     chart: (Option<string>, Option<string>) -> Option<string>, insight: InsightInput -> Option<string>,
                     chart2: (Option<string>, Option<string>) -> Option<string>, insight2: InsightInput -> Option<string>)
    requires Complete(users, userId, uniqueId, chart, insight).resp.status == 200
    ensures var once := Complete(users, userId, uniqueId, chart, insight).state;
            Complete(once, userId, uniqueId, chart2, insight2) ==
              Reply(Response(404, "Astrology already updated for this"), once)
  {
    var once := Complete(users, userId, uniqueId, chart, insight).state;
    FindByIdSameIds(users, once, userId);
    var i := FindById(users, userId).value;
    FindEntrySameIds(users[i].astrology, once[i].astrology, uniqueId);
  }

  /** The entry a submission creates is the one its job completes. The job
      is delivered with the internal secret and the submitter's
      `basic.email`; when the submitter is the first user with that email,
      the middleware admits the submitter, and the callback finds the new
      entry, which was put first, even if an older entry shares its id. */
  lemma SubmitThenComplete(users: seq<User>, pending: Kv, userId: Id, req: AstroRequest,
                           orderId: Option<string>, amount: Option<int>, note: Option<string>, paymentId: Option<string>,
                           txExists: (seq<Transaction>, Option<string>) -> bool, nanoId: string, pendingPrefix: string,
                           now: Clock, draw: UnitReal, secret: Option<string>, verify: string -> Auth.JwtOutcome,
                           chart: (Option<string>, Option<string>) -> Option<string>, insight: InsightInput -> Option<string>)
    requires Submit(users, pending, userId, req, orderId, amount, note, paymentId, txExists, nanoId, pendingPrefix, now, draw).resp.status == 201
    requires FindByBasicEmail(users, users[FindById(users, userId).value].basic.email) == FindById(users, userId)
    requires Reading(req, chart, insight).Some?
    ensures var s := Submit(users, pending, userId, req, orderId, amount, note, paymentId, txExists, nanoId, pendingPrefix, now, draw);
            var job := s.job.value.payload;
            var a := Auth.Authenticate(s.users, None, secret, secret, job.email, verify);
            var i := FindById(users, userId).value;
            && a == Auth.Next(i)
            && var r := Complete(s.users, s.users[a.user].id, Some(job.uniqueId), chart, insight);
            && r.resp.status == 200
            && r.state[i].astrology[0] == AstroEntry(nanoId, req, Completed, Reading(req, chart, insight))
  {
    var s := Submit(users, pending, userId, req, orderId, amount, note, paymentId, txExists, nanoId, pendingPrefix, now, draw);
    var i := FindById(users, userId).value;
    assert SameBasicEmails(users, s.users);
    FindByBasicEmailSame(users, s.users, users[i].basic.email);
    FindByIdSameIds(users, s.users, userId);
    assert FindEntry(s.users[i].astrology, Some(nanoId)) == Some(0);
  }
}

=== FILE: auth.dfy ===
/** The authentication middleware in front of the signed-in routes: a JWT
    from the browser, or the internal secret a delayed job forwards. Token
    verification is the parameter `verify`; the configured secret is the
    parameter `configured` (absent when the environment variable is unset). */
module Auth {
  import opened Wrappers
  import opened Js
  import opened Store

  /** What `jwt.verify` does with a token: it throws, or yields a payload
      whose `id` may be missing. */
  datatype JwtOutcome = Invalid | Decoded(id: Option<Id>)

  /** The middleware lets the request through for the user at a position,
      or answers it. */
  datatype AuthResult = Next(user: nat) | Reject(resp: Response)

  /** `auth`. A truthy `x-auth-token` decides alone: a token that does not
      verify gives 401 "Token or secret is not valid", and a decoded id
      nobody has gives 401 "User not found". Otherwise, an `x-internal-secret`
      equal to the configured one (both absent counts as equal) looks the
      user up by the body's email among `basic.email`s, 404 when missing. Anything else is 401
      "Unauthorized". */
  function Authenticate(users: seq<User>, token: Option<string>, secretHeader: Option<string>,
                        configured: Option<string>, bodyEmail: Option<string>,
                        verify: string -> JwtOutcome): (r: AuthResult)
    ensures Truthy(token) ==>
              match verify(token.value)
              case Invalid => r == Reject(Response(401, "Token or secret is not valid"))
              case Decoded(id) =>
                (id.Some? && FindById(users, id.value).Some? ==> r == Next(FindById(users, id.value).value))
                && (id.None? || FindById(users, id.value).None? ==> r == Reject(Response(401, "User not found")))
    ensures !Truthy(token) && secretHeader == configured ==>
              (FindByBasicEmail(users, bodyEmail).Some? ==> r == Next(FindByBasicEmail(users, bodyEmail).value))
              && (FindByBasicEmail(users, bodyEmail).None? ==> r == Reject(Response(404, "User not found")))
    ensures !Truthy(token) && secretHeader != configured ==> r == Reject(Response(401, "Unauthorized"))
    ensures r.Next? ==> r.user < |users|
  {
    if Truthy(token) then
      match verify(token.value)
      case Invalid => Reject(Response(401, "Token or secret is not valid"))
      case Decoded(id) =>
        if id.None? then Reject(Response(401, "User not found"))
        else match FindById(users, id.value)
          case None => Reject(Response(401, "User not found"))
          case Some(i) => Next(i)
    else if secretHeader == configured then
      match FindByBasicEmail(users, bodyEmail)
      case None => Reject(Response(404, "User not found"))
      case Some(i) => Next(i)
    else Reject(Response(401, "Unauthorized"))
  }

  /** With a token present the secret header plays no part. */
  lemma TokenTakesPrecedence(users: seq<User>, token: Option<string>, s1: Option<string>, s2: Option<string>,
                             configured: Option<string>, e1: Option<string>, e2: Option<string>,
                             verify: string -> JwtOutcome)
    requires Truthy(token)
    ensures Authenticate(users, token, s1, configured, e1, verify) == Authenticate(users, token, s2, configured, e2, verify)
  {
  }

  /** Only a verified token or the matching secret lets a request through,
      and the user let through is the first one with the token's id or,
      under the secret, the first one with the body email as `basic.email`. */
  lemma PassedMeansAuthenticated(users: seq<User>, token: Option<string>, secretHeader: Option<string>,
                                 configured: Option<string>, bodyEmail: Option<string>, verify: string -> JwtOutcome)
    requires Authenticate(users, token, secretHeader, configured, bodyEmail, verify).Next?
    ensures var i := Authenticate(users, token, secretHeader, configured, bodyEmail, verify).user;
            || (Truthy(token) && verify(token.value) == Decoded(Some(users[i].id))
                && FindById(users, users[i].id) == Some(i))
            || (!Truthy(token) && secretHeader == configured && bodyEmail == users[i].basic.email
                && FindByBasicEmail(users, bodyEmail) == Some(i))
  {
  }

  /** When the secret is not configured, a request carrying neither a token
      nor the secret header passes the internal check and acts as the user
      whose email the body names. */
  lemma UnsetSecretAdmitsBodyEmail(users: seq<User>, bodyEmail: Option<string>, verify: string -> JwtOutcome)
    requires FindByBasicEmail(users, bodyEmail).Some?
    ensures Authenticate(users, None, None, None, bodyEmail, verify) == Next(FindByBasicEmail(users, bodyEmail).value)
  {
  }
}

=== FILE: brokers.dfy ===
/** The broker registry: registration with email and phone uniqueness, the
    delayed completion that assigns a referral id, referral validation and
    the pre-registration availability check. Password hashing is the
    `Hashed` abstraction, the referral id generator is the parameter
    `referralFor`, and e-mail delivery is left out. */
module Brokers {
  import opened Wrappers
  import opened Js
  import opened Store
  import opened Collections
  import Astrology

  datatype Broker = Broker(
    id: Id,
    name: string,
    email: string,
    phone: string,
    password: Hash,
    referralId: Option<string>)

  /** The fields of a broker registration the route checks. */
  datatype BrokerRequest = BrokerRequest(
    name: Option<string>,
    email: Option<string>,
    phone: Option<string>,
    password: Option<string>,
    confirmPassword: Option<string>)

  /** The delayed completion job: its endpoint, the email it carries and
      its delay in minutes. */
  datatype CompletionJob = CompletionJob(endpoint: string, email: string, delayMinutes: int)

  /** "1m" for the fast-track name, "5h31m" for everyone else. */
  const FastDelay := 1
  const CompletionDelay := 5 * 60 + 31

  /** `Broker.findOne({ email })` for a present value. */
  function FindBrokerByEmail(bs: seq<Broker>, email: Option<string>): (r: Option<nat>)
    ensures r.Some? ==> r.value < |bs| && email == Some(bs[r.value].email)
    ensures r.None? <==> forall k :: 0 <= k < |bs| ==> email != Some(bs[k].email)
  {
    if email.None? then None else FirstIndex(bs, (b: Broker) => b.email == email.value)
  }

  /** `Broker.findOne({ phone })` for a present value. */
  function FindBrokerByPhone(bs: seq<Broker>, phone: Option<string>): (r: Option<nat>)
    ensures r.Some? ==> r.value < |bs| && phone == Some(bs[r.value].phone)
    ensures r.None? <==> forall k :: 0 <= k < |bs| ==> phone != Some(bs[k].phone)
  {
    if phone.None? then None else FirstIndex(bs, (b: Broker) => b.phone == phone.value)
  }

  /** No two brokers share an email or a phone. */
  predicate BrokersUnique(bs: seq<Broker>) {
    forall a, b :: 0 <= a < b < |bs| ==> bs[a].email != bs[b].email && bs[a].phone != bs[b].phone
  }

  /** The answer of POST /broker-register with the registry it leaves and
      the completion job it schedules. */
  datatype Registered = Registered(resp: Response, brokers: seq<Broker>, job: Option<CompletionJob>)

  predicate HasRequired(req: BrokerRequest) {
    Truthy(req.name) && Truthy(req.email) && Truthy(req.phone) && Truthy(req.password) && Truthy(req.confirmPassword)
  }

  /** POST /broker-register: 400 unless name, email, phone, password and
      its confirmation are all given (they are not compared); 409 when a
      broker already has that email or that phone; otherwise a broker
      without a referral id is added and its completion is scheduled. This
      is the route as intended, with the referral id left to the completion
      job; `RegisterBrokerAsWritten` is the route under the schema as it
      stands. */
  function RegisterBroker(bs: seq<Broker>, req: BrokerRequest, newId: Id): (r: Registered)
    ensures r.resp == Response(400, "Missing required fields") <==> !HasRequired(req)
    ensures r.resp.status == 409 <==>
              HasRequired(req) && (FindBrokerByEmail(bs, req.email).Some? || FindBrokerByPhone(bs, req.phone).Some?)
    ensures r.resp.status != 201 ==> r.brokers == bs && r.job.None?
    ensures r.resp.status == 201 ==>
              && HasRequired(req)
              && r.brokers == bs + [Broker(newId, req.name.value, req.email.value, req.phone.value,
                                           Hashed(req.password.value), None)]
              && r.job == Some(CompletionJob("broker-completion", req.email.value,
                                             if req.name.value == Astrology.FastTrackName then FastDelay else CompletionDelay))
  {
    if !HasRequired(req) then Registered(Response(400, "Missing required fields"), bs, None)
    else if FindBrokerByEmail(bs, req.email).Some? || FindBrokerByPhone(bs, req.phone).Some? then
      Registered(Response(409, "Broker already registered with this email or phone"), bs, None)
    else
      var b := Broker(newId, req.name.value, req.email.value, req.phone.value, Hashed(req.password.value), None);
      var delay := if req.name.value == Astrology.FastTrackName then FastDelay else CompletionDelay;
      Registered(Response(201, "Broker registered successfully"), bs + [b],
                 Some(CompletionJob("broker-completion", req.email.value, delay)))
  }

  /** POST /broker-register as written. The broker schema requires a
      referral id, and the create call passes none, so schema validation
      rejects every broker that gets past the 400 and 409 guards: the
      answer is 500, nothing is stored and no completion is scheduled. */
  function RegisterBrokerAsWritten(bs: seq<Broker>, req: BrokerRequest, newId: Id): (r: Registered)
    ensures r.resp == Response(400, "Missing required fields") <==> !HasRequired(req)
    ensures r.resp.status == 409 <==>
              HasRequired(req) && (FindBrokerByEmail(bs, req.email).Some? || FindBrokerByPhone(bs, req.phone).Some?)
    ensures r.resp.status == 500 <==>
              HasRequired(req) && FindBrokerByEmail(bs, req.email).None? && FindBrokerByPhone(bs, req.phone).None?
    ensures r.brokers == bs && r.job.None?
  {
    var r := RegisterBroker(bs, req, newId);
    if r.resp.status == 201 then Registered(Response(500, "Something went wrong while registering broker"), bs, None)
    else r
  }

  /** As written, a request the availability check passes is refused with
      500 where the intended route registers it, and the completion for its
      email then finds no broker. */
  lemma ValidatedBrokerNeverRegisters(bs: seq<Broker>, req: BrokerRequest, newId: Id, referralFor: string -> string)
    requires HasRequired(req) && ValidateBroker(bs, req.email, req.phone).status == 200
    ensures RegisterBroker(bs, req, newId).resp.status == 201
    ensures var r := RegisterBrokerAsWritten(bs, req, newId);
            && r.resp.status == 500
            && CompleteBroker(r.brokers, req.email, referralFor).resp.status == 404
  {
    ValidationPredictsRegistration(bs, req, newId);
  }

  /** Registration keeps emails and phones unique. */
  lemma RegisterKeepsBrokersUnique(bs: seq<Broker>, req: BrokerRequest, newId: Id)
    requires BrokersUnique(bs)
    ensures BrokersUnique(RegisterBroker(bs, req, newId).brokers)
  {
    var r := RegisterBroker(bs, req, newId);
    if r.resp.status == 201 {
      var s := r.brokers;
      forall a, b | 0 <= a < b < |s| ensures s[a].email != s[b].email && s[a].phone != s[b].phone {
        assert s[a] == bs[a];
        if b < |bs| {
          assert s[b] == bs[b];
        } else {
          assert req.email != Some(bs[a].email) && req.phone != Some(bs[a].phone);
        }
      }
    }
  }

  /** POST /broker-completion: 400 without an email, 404 for an unknown
      one; otherwise the first broker with that email gets the referral id
      generated from its name, and nothing else changes. */
  function CompleteBroker(bs: seq<Broker>, email: Option<string>, referralFor: string -> string): (r: Reply<seq<Broker>>)
    ensures r.resp == Response(400, "Email is required") <==> !Truthy(email)
    ensures r.resp.status == 404 <==> Truthy(email) && FindBrokerByEmail(bs, email).None?
    ensures r.resp.status != 200 ==> r.state == bs
    ensures r.resp.status == 200 ==>
              var i := FindBrokerByEmail(bs, email).value;
              && |r.state| == |bs|
              && (forall k :: 0 <= k < |bs| && k != i ==> r.state[k] == bs[k])
              && r.state[i] == bs[i].(referralId := Some(referralFor(bs[i].name)))
  {
    if !Truthy(email) then Reply(Response(400, "Email is required"), bs)
    else match FindBrokerByEmail(bs, email)
      case None => Reply(Response(404, "Broker not found"), bs)
      case Some(i) =>
        Reply(Response(200, "Broker profile completed successfully"),
              bs[i := bs[i].(referralId := Some(referralFor(bs[i].name)))])
  }

  /** Completion keeps emails and phones unique. */
  lemma CompleteKeepsBrokersUnique(bs: seq<Broker>, email: Option<string>, referralFor: string -> string)
    requires BrokersUnique(bs)
    ensures BrokersUnique(CompleteBroker(bs, email, referralFor).state)
  {
    var s := CompleteBroker(bs, email, referralFor).state;
    forall a, b | 0 <= a < b < |s| ensures s[a].email != s[b].email && s[a].phone != s[b].phone {
      assert s[a].email == bs[a].email && s[a].phone == bs[a].phone;
      assert s[b].email == bs[b].email && s[b].phone == bs[b].phone;
    }
  }

  /** What GET /validate-referral answers. */
  datatype Validity = Validity(status: int, valid: bool, msg: string)

  /** GET /validate-referral/:referralId: 400 for an empty id; otherwise
      valid exactly when some broker holds that referral id. */
  function ValidateReferral(bs: seq<Broker>, referralId: string): (v: Validity)
    ensures v.status == 400 <==> referralId == ""
    ensures v.valid <==> referralId != "" && exists k :: 0 <= k < |bs| && bs[k].referralId == Some(referralId)
    ensures referralId != "" ==> v.status == 200
  {
    if referralId == "" then Validity(400, false, "Referral ID required")
    else match FirstIndex(bs, (b: Broker) => b.referralId == Some(referralId))
      case None => Validity(200, false, "Invalid referral ID")
      case Some(k) => Validity(200, true, "Valid referral ID")
  }

  /** Once a registered broker's completion has run, the referral id it was
      given validates. */
  lemma RegisterCompleteValidate(bs: seq<Broker>, req: BrokerRequest, newId: Id, referralFor: string -> string)
    requires RegisterBroker(bs, req, newId).resp.status == 201
    requires referralFor(req.name.value) != ""
    ensures var after := CompleteBroker(RegisterBroker(bs, req, newId).brokers, req.email, referralFor);
            && after.resp.status == 200
            && ValidateReferral(after.state, referralFor(req.name.value)).valid
  {
    var s := RegisterBroker(bs, req, newId).brokers;
    assert s[|bs|].email == req.email.value;
    var after := CompleteBroker(s, req.email, referralFor);
    var i := FindBrokerByEmail(s, req.email).value;
    assert i == |bs|;
    assert after.state[i].referralId == Some(referralFor(req.name.value));
  }

  /** GET /broker-validation: 400 unless an email or a mobile is given;
      then the email is checked before the phone, each giving its own 400;
      otherwise "Valid". An absent value matches no broker. */
  function ValidateBroker(bs: seq<Broker>, email: Option<string>, mobile: Option<string>): (r: Response)
    ensures r == Response(400, "Email or Mobile is required") <==> !Truthy(email) && !Truthy(mobile)
    ensures r == Response(400, "Email already exists") <==>
              (Truthy(email) || Truthy(mobile)) && FindBrokerByEmail(bs, email).Some?
    ensures r == Response(400, "Mobile number already registered") <==>
              (Truthy(email) || Truthy(mobile)) && FindBrokerByEmail(bs, email).None? && FindBrokerByPhone(bs, mobile).Some?
    ensures r.status == 200 || r.status == 400
  {
    if !Truthy(email) && !Truthy(mobile) then Response(400, "Email or Mobile is required")
    else if FindBrokerByEmail(bs, email).Some? then Response(400, "Email already exists")
    else if FindBrokerByPhone(bs, mobile).Some? then Response(400, "Mobile number already registered")
    else Response(200, "Valid")
  }

  /** For a complete request, the availability check passes exactly when the
      registration with the same email and phone is accepted. */
  lemma ValidationPredictsRegistration(bs: seq<Broker>, req: BrokerRequest, newId: Id)
    requires HasRequired(req)
    ensures ValidateBroker(bs, req.email, req.phone).status == 200 <==> RegisterBroker(bs, req, newId).resp.status == 201
  {
  }
}

=== FILE: cache.dfy ===
/** The Redis key-value store the OTP routes use: string values with a time
    to live, read with `get`, written with `setEx` (or `set` with `EX`) and
    removed with `del`. Time is a millisecond clock reading passed in by the
    caller. */
module Cache {
  import opened Wrappers
  import opened Js

  /** A stored value and the instant (in ms) from which it is gone. */
  datatype Entry = Entry(value: string, expiresAt: int)

  /** The whole key space. */
  type Kv = map<string, Entry>

  /** A key holds a value at time `now` until its expiry instant. */
  predicate Live(kv: Kv, key: string, now: int) {
    key in kv && now < kv[key].expiresAt
  }

  /** `get(key)`: the value while it lives, nothing (`null`) afterwards. */
  function Get(kv: Kv, key: string, now: int): (v: Option<string>)
    ensures v.Some? <==> Live(kv, key, now)
    ensures v.Some? ==> v.value == kv[key].value
  {
    if Live(kv, key, now) then Some(kv[key].value) else None
  }

  /** `setEx(key, ttlSeconds, value)` at time `now`; an earlier value under the
      key is replaced along with its expiry. */
  function SetEx(kv: Kv, key: string, ttlSeconds: nat, value: string, now: int): Kv {
    kv[key := Entry(value, now + ttlSeconds * 1000)]
  }

  /** `del(key)`. */
  function Del(kv: Kv, key: string): Kv {
    kv - {key}
  }

  /** A value written with a time to live reads back until the time runs out
      and not from then on; other keys read as before. */
  lemma GetSetEx(kv: Kv, key: string, ttlSeconds: nat, value: string, now: int, later: int, other: string)
    requires now <= later && other != key
    ensures Get(SetEx(kv, key, ttlSeconds, value, now), key, later) ==
              (if later < now + ttlSeconds * 1000 then Some(value) else None)
    ensures Get(SetEx(kv, key, ttlSeconds, value, now), other, later) == Get(kv, other, later)
  {
  }

  /** A deleted key reads as nothing at every time; other keys read as
      before. */
  lemma GetDel(kv: Kv, key: string, later: int, other: string)
    requires other != key
    ensures Get(Del(kv, key), key, later).None?
    ensures Get(Del(kv, key), other, later) == Get(kv, other, later)
  {
  }

  /** `otp:<email>`: the key both OTP flows (password reset and registration)
      keep their code under. */
  function OtpKey(email: Option<string>): string {
    "otp:" + Text(email)
  }

  /** `otp_verified:<email>`: the marker a verified reset code leaves. */
  function VerifiedKey(email: Option<string>): string {
    "otp_verified:" + Text(email)
  }

  /** No email value makes the code key and the marker key collide, and
      different emails give different keys. */
  lemma KeysDistinct(a: Option<string>, b: Option<string>)
    ensures OtpKey(a) != VerifiedKey(b)
    ensures Text(a) != Text(b) ==> OtpKey(a) != OtpKey(b) && VerifiedKey(a) != VerifiedKey(b)
  {
    assert OtpKey(a)[3] == ':' && VerifiedKey(b)[3] == '_';
    if Text(a) != Text(b) {
      assert OtpKey(a)[4..] == Text(a) && OtpKey(b)[4..] == Text(b);
      assert VerifiedKey(a)[13..] == Text(a) && VerifiedKey(b)[13..] == Text(b);
    }
  }
}

=== FILE: collections.dfy ===
/** Sequence helpers shared by the handlers: `Array.prototype.find`-style
    first-match search and duplicate freedom. */
module Collections {
  import opened Wrappers

  /** The index of the first element satisfying `p`, as `findIndex` (or
      `findOne` over a collection in its natural order) would pick it. */
  function FirstIndex<T>(s: seq<T>, p: T -> bool): (r: Option<nat>)
    ensures r.Some? ==> r.value < |s| && p(s[r.value])
    ensures r.Some? ==> forall k :: 0 <= k < r.value ==> !p(s[k])
    ensures r.None? <==> forall k :: 0 <= k < |s| ==> !p(s[k])
  {
    if |s| == 0 then None
    else if p(s[0]) then Some(0)
    else
      match FirstIndex(s[1..], p)
      case None => None
      case Some(k) => Some(k + 1)
  }

  /** No element occurs twice. */
  predicate NoDup<T(==)>(s: seq<T>) {
    forall i, j :: 0 <= i < j < |s| ==> s[i] != s[j]
  }

  /** `array.filter(p)`: the elements satisfying `p`, in their order; a
      sequence without repetitions keeps none. */
  function Filter<T(==,!new)>(s: seq<T>, p: T -> bool): (r: seq<T>)
    ensures |r| <= |s|
    ensures forall x :: x in r <==> x in s && p(x)
    ensures NoDup(s) ==> NoDup(r)
  {
    if |s| == 0 then []
    else
      assert s == [s[0]] + s[1..];
      var rest := Filter(s[1..], p);
      assert NoDup(s) ==> NoDup(s[1..]) && s[0] !in s[1..];
      (if p(s[0]) then [s[0]] else []) + rest
  }
}

=== FILE: credentials.dfy ===
/** Registration and login. The stored email is the input trimmed and
    lower-cased, and login normalises the same way before its lookup. The
    image uploads are the parameter `imageUrls`, the new document id is
    `newId`, and the date arithmetic of the age is the parameter `ageOf`. */
module Credentials {
  import opened Wrappers
  import opened Js
  import opened Store
  import opened DisplayId

  /** The fields of a registration request. */
  datatype Registration = Registration(
    email: Option<string>,
    password: Option<string>,
    fullName: Option<string>,
    mobile: Option<string>,
    alternateMob: Option<string>,
    dob: Option<string>,
    gender: Option<string>,
    motherTongue: Option<string>,
    martialStatus: Option<string>,
    profileCreatedBy: Option<string>,
    subCaste: Option<string>,
    qualification: Option<string>,
    gotra: Option<string>)

  /** `email.trim().toLowerCase()`. */
  function Normalize(email: string): string {
    Lower(Trim(email))
  }

  /** Normalising an already normalised email changes nothing. */
  lemma NormalizeIdempotent(email: string)
    ensures Normalize(Normalize(email)) == Normalize(email)
  {
    var t := Trim(email);
    TrimLower(t);
    TrimIdempotent(email);
    LowerIdempotent(t);
  }

  /** The age stored at registration: -1 without a date of birth. */
  const MissingAge := -1

  function Age(dob: Option<string>, ageOf: string -> int): (age: int)
    ensures !Truthy(dob) ==> age == MissingAge
    ensures Truthy(dob) ==> age == ageOf(dob.value)
  {
    if !Truthy(dob) then MissingAge else ageOf(dob.value)
  }

  /** Adds a present optional field to a map of profile details. */
  function Put(m: map<string, string>, key: string, v: Option<string>): map<string, string> {
    if v.Some? then m[key := v.value] else m
  }

  /** The four fields registration cannot do without. */
  predicate Required(req: Registration) {
    Truthy(req.email) && Truthy(req.password) && Truthy(req.fullName) && Truthy(req.mobile)
  }

  /** The document registration creates: normalised email, the raw email as
      user name, the password's hash and the other request fields at the top
      level, the display id for the current count, an empty `basic` section
      and no discovery attributes, no interests, credit total, transactions
      or astrology, and no flags. */
  function NewUser(req: Registration, newId: Id, count: nat, imageUrls: seq<string>, ageOf: string -> int): (u: User)
    requires Required(req)
    ensures u.email == Normalize(req.email.value) && u.username == req.email.value
    ensures u.password == Hashed(req.password.value) && u.uniqueId == GenerateUniqueId(count)
    ensures u.registered.gender == req.gender && (!Truthy(req.dob) ==> u.registered.age == Some(MissingAge))
    ensures u.basic == NoBasic && u.profile == NoProfile
    ensures u.interests == Interests([], [], [], [], [], None) && u.isHidden.None?
  {
    User(newId, Normalize(req.email.value), req.email.value, req.mobile, req.alternateMob, Hashed(req.password.value),
         req.fullName,
         Profile(req.gender, Some(Age(req.dob, ageOf)), req.martialStatus, req.subCaste, req.qualification, None, None),
         imageUrls,
         Put(Put(Put(Put(map[], "dob", req.dob), "motherTongue", req.motherTongue), "profileCreatedBy", req.profileCreatedBy), "gotra", req.gotra),
         NoBasic, NoProfile, map[], GenerateUniqueId(count),
         Interests([], [], [], [], [], None), [], [], [], None, None, None, None)
  }

  /** The registration steps, with the email value the duplicate check looks
      up as a parameter. */
  function RegisterLookingUp(users: seq<User>, req: Registration, lookup: Option<string>, newId: Id,
                             imageUrls: seq<string>, ageOf: string -> int): (r: Reply<seq<User>>)
    ensures r.resp == Response(400, "Please fill all required fields") <==> !Required(req)
    ensures r.resp == Response(400, "User already exists") <==> Required(req) && FindByEmail(users, lookup).Some?
    ensures r.resp == Response(400, "Mobile number already registered") <==>
              Required(req) && FindByEmail(users, lookup).None? && FindByMobile(users, req.mobile).Some?
    ensures r.resp.status != 200 ==> r.state == users
    ensures r.resp.status == 200 ==>
              && Required(req) && FindByEmail(users, lookup).None? && FindByMobile(users, req.mobile).None?
              && r.state == users + [NewUser(req, newId, |users|, imageUrls, ageOf)]
  {
    if !Required(req) then Reply(Response(400, "Please fill all required fields"), users)
    else if FindByEmail(users, lookup).Some? then Reply(Response(400, "User already exists"), users)
    else if FindByMobile(users, req.mobile).Some? then Reply(Response(400, "Mobile number already registered"), users)
    else Reply(Response(200, Normalize(req.email.value)), users + [NewUser(req, newId, |users|, imageUrls, ageOf)])
  }

  /** POST /user-register as written: the duplicate check looks up the raw
      email, although the email stored is the normalised one. */
  function RegisterAsWritten(users: seq<User>, req: Registration, newId: Id, imageUrls: seq<string>,
                             ageOf: string -> int): (r: Reply<seq<User>>)
    ensures r.resp.status == 200 ==>
              && Required(req) && FindByEmail(users, req.email).None? && |r.state| == |users| + 1
              && r.state[|users|].email == Normalize(req.email.value)
              && r.state[|users|].username == req.email.value
  {
    RegisterLookingUp(users, req, req.email, newId, imageUrls, ageOf)
  }

  /** POST /user-register with the duplicate check on the normalised email,
      the value that is stored. */
  function Register(users: seq<User>, req: Registration, newId: Id, imageUrls: seq<string>,
                    ageOf: string -> int): (r: Reply<seq<User>>)
    ensures r.resp == Response(400, "User already exists") <==>
              Required(req) && FindByEmail(users, Some(Normalize(req.email.value))).Some?
    ensures r.resp.status == 200 ==>
              && Required(req) && |r.state| == |users| + 1 && r.state[..|users|] == users
              && var u := r.state[|users|];
              && u.email == Normalize(req.email.value) && u.username == req.email.value
              && u.password == Hashed(req.password.value)
              && u.uniqueId == GenerateUniqueId(|users|)
              && u.registered.gender == req.gender
              && (!Truthy(req.dob) ==> u.registered.age == Some(MissingAge))
              && u.basic == NoBasic && u.profile == NoProfile
              && u.interests == Interests([], [], [], [], [], None) && u.isHidden.None?
  {
    RegisterLookingUp(users, req, if req.email.Some? then Some(Normalize(req.email.value)) else None, newId, imageUrls, ageOf)
  }

  /** No two users share a stored email. */
  predicate EmailsUnique(users: seq<User>) {
    forall a, b :: 0 <= a < b < |users| ==> users[a].email != users[b].email
  }

  /** With unique emails, looking up a stored email finds its owner. */
  lemma FindUniqueEmail(users: seq<User>, j: nat)
    requires EmailsUnique(users) && j < |users|
    ensures FindByEmail(users, Some(users[j].email)) == Some(j)
  {
    var r := FindByEmail(users, Some(users[j].email));
    assert r.Some?;
    if r.value != j {
      assert false;
    }
  }

  /** The login steps after the fields have been checked, for a normalised
      email: an email nobody has and a wrong password give the same 400
      "Invalid credentials" and change nothing; a hidden user who logs in
      becomes visible again and nothing else changes. */
  function LoginKey(users: seq<User>, key: string, password: string): (r: Reply<seq<User>>)
    ensures r.resp.status == 200 <==>
              FindByEmail(users, Some(key)).Some? && users[FindByEmail(users, Some(key)).value].password == Hashed(password)
    ensures r.resp.status != 200 ==> r == Reply(Response(400, "Invalid credentials"), users)
    ensures SameIds(users, r.state)
    ensures r.resp.status == 200 ==>
              var i := FindByEmail(users, Some(key)).value;
              && users[i].password == Hashed(password)
              && OthersUnchanged(users, r.state, i)
              && r.state[i] == users[i].(isHidden := r.state[i].isHidden)
              && (IsSet(users[i].isHidden) ==> r.state[i].isHidden == Some(false))
              && (!IsSet(users[i].isHidden) ==> r.state[i].isHidden == users[i].isHidden)
  {
    match FindByEmail(users, Some(key))
    case None => Reply(Response(400, "Invalid credentials"), users)
    case Some(i) =>
      if users[i].password != Hashed(password) then Reply(Response(400, "Invalid credentials"), users)
      else if IsSet(users[i].isHidden) then
        Reply(Response(200, users[i].id), users[i := users[i].(isHidden := Some(false))])
      else Reply(Response(200, users[i].id), users)
  }

  /** Both collections agree on every user's id, login email and login
      password, position by position. */
  predicate SameLogins(before: seq<User>, after: seq<User>) {
    && |before| == |after|
    && forall k :: 0 <= k < |before| ==>
         after[k].id == before[k].id && after[k].email == before[k].email && after[k].password == before[k].password
  }

  /** POST /login: both fields are required (400), then the email is
      normalised before the lookup. */
  function Login(users: seq<User>, email: Option<string>, password: Option<string>): (r: Reply<seq<User>>)
    ensures r.resp == Response(400, "Email and password are required") <==> !Truthy(email) || !Truthy(password)
    ensures Truthy(email) && Truthy(password) ==> r == LoginKey(users, Normalize(email.value), password.value)
    ensures !Truthy(email) || !Truthy(password) ==> r.state == users
  {
    if !Truthy(email) || !Truthy(password) then Reply(Response(400, "Email and password are required"), users)
    else LoginKey(users, Normalize(email.value), password.value)
  }

  lemma NormalizeEmpty()
    ensures Normalize("") == ""
  {
    assert Trim("") == "";
  }

  /** Login answers an email the same way as its normalised form. */
  lemma LoginNormalizes(users: seq<User>, email: string, password: Option<string>)
    requires Normalize(email) != ""
    ensures Login(users, Some(email), password) == Login(users, Some(Normalize(email)), password)
  {
    NormalizeEmpty();
    NormalizeIdempotent(email);
  }

  /** With the check on the normalised email, registration keeps stored
      emails unique. */
  lemma RegisterKeepsEmailsUnique(users: seq<User>, req: Registration, newId: Id, imageUrls: seq<string>,
                                  ageOf: string -> int)
    requires EmailsUnique(users)
    ensures EmailsUnique(Register(users, req, newId, imageUrls, ageOf).state)
  {
    var r := Register(users, req, newId, imageUrls, ageOf);
    if r.resp.status == 200 {
      forall a, b | 0 <= a < b < |r.state| ensures r.state[a].email != r.state[b].email {
        if b == |users| {
          assert r.state[a] == users[a];
        } else {
          assert r.state[a] == users[a] && r.state[b] == users[b];
        }
      }
    }
  }

  /** With the check on the normalised email, whoever registers can log in
      with the same email and password, and it is the new account that
      logs in. */
  lemma RegisterThenLogin(users: seq<User>, req: Registration, newId: Id, imageUrls: seq<string>,
                          ageOf: string -> int)
    requires Register(users, req, newId, imageUrls, ageOf).resp.status == 200
    ensures var s := Register(users, req, newId, imageUrls, ageOf).state;
            && Login(s, req.email, req.password).resp.status == 200
            && FindByEmail(s, Some(Normalize(req.email.value))) == Some(|users|)
  {
    var key := Normalize(req.email.value);
    var u := NewUser(req, newId, |users|, imageUrls, ageOf);
    assert Register(users, req, newId, imageUrls, ageOf).state == users + [u];
    assert u.email == key && u.password == Hashed(req.password.value);
    FindByEmailAppend(users, u, key);
    var s := users + [u];
    assert FindByEmail(s, Some(key)) == Some(|users|);
    assert s[|users|] == u;
    assert Login(s, req.email, req.password) == LoginKey(s, key, req.password.value);
  }

  /** As written, an email differing from a registered one only in case or
      surrounding spaces passes the duplicate check: the new account stores
      the same email as the old one, so stored emails stop being unique, and
      logging in with the new credentials reaches the old account and
      fails. */
  lemma RegisterAsWrittenShadowed(users: seq<User>, req: Registration, newId: Id, imageUrls: seq<string>,
                                  ageOf: string -> int, j: nat)
    requires Required(req) && FindByEmail(users, req.email).None? && FindByMobile(users, req.mobile).None?
    requires EmailsUnique(users) && j < |users| && users[j].email == Normalize(req.email.value)
    requires users[j].password != Hashed(req.password.value)
    ensures var r := RegisterAsWritten(users, req, newId, imageUrls, ageOf);
            && r.resp.status == 200
            && !EmailsUnique(r.state)
            && Login(r.state, req.email, req.password).resp == Response(400, "Invalid credentials")
  {
    var key := Normalize(req.email.value);
    var u := NewUser(req, newId, |users|, imageUrls, ageOf);
    var s := users + [u];
    assert RegisterAsWritten(users, req, newId, imageUrls, ageOf).state == s;
    assert u.email == key;
    assert RegisterAsWritten(users, req, newId, imageUrls, ageOf).resp.status == 200;
    assert s[j] == users[j] && s[|users|] == u;
    assert s[j].email == s[|users|].email;
    assert !EmailsUnique(s);
    FindByEmailAppend(users, u, key);
    FindUniqueEmail(users, j);
    assert FindByEmail(s, Some(key)) == Some(j);
    assert Login(s, req.email, req.password) == LoginKey(s, key, req.password.value);
  }

  lemma TrimExample()
    ensures Trim("A@b.com") == "A@b.com"
  {
    var e := "A@b.com";
    assert !IsSpace(e[0]) && !IsSpace(e[|e| - 1]);
    TrimStartOfTrimmed(e);
    TrimEndOfTrimmed(e);
  }

  lemma LowerExample()
    ensures Lower("A@b.com") == "a@b.com"
  {
    var e := "A@b.com";
    var l := Lower(e);
    assert l[0] == 'a';
    forall i | 1 <= i < |e| ensures l[i] == e[i] { }
    assert l == ['a'] + e[1..];
  }

  /** An email differing from "a@b.com" only in case normalises to it. */
  lemma NormalizeExample()
    ensures Normalize("A@b.com") == "a@b.com"
  {
    TrimExample();
    LowerExample();
  }

  /** A concrete instance: "a@b.com" is registered, "A@b.com" registers. */
  lemma ShadowedExample(prior: User, ageOf: string -> int)
    requires prior.email == "a@b.com" && prior.mobile == Some("111") && prior.password == Hashed("secret")
    ensures var req := Registration(Some("A@b.com"), Some("other"), Some("B"), Some("222"),
                                    None, None, None, None, None, None, None, None, None);
            && RegisterAsWritten([prior], req, "id2", [], ageOf).resp.status == 200
            && Login(RegisterAsWritten([prior], req, "id2", [], ageOf).state, req.email, req.password).resp ==
                 Response(400, "Invalid credentials")
  {
    var req := Registration(Some("A@b.com"), Some("other"), Some("B"), Some("222"),
                            None, None, None, None, None, None, None, None, None);
    NormalizeExample();
    RegisterAsWrittenShadowed([prior], req, "id2", [], ageOf, 0);
  }

  /** What login answers depends on the users' ids, login emails and login
      passwords only: an update keeping those answers every login as before. */
  lemma LoginSeesOnlyCredentials(before: seq<User>, after: seq<User>, email: Option<string>, password: Option<string>)
    requires SameLogins(before, after)
    ensures Login(after, email, password).resp == Login(before, email, password).resp
  {
    if Truthy(email) && Truthy(password) {
      assert SameEmails(before, after);
      FindByEmailSame(before, after, Some(Normalize(email.value)));
    }
  }
}

=== FILE: interests.dfy ===
/** The interest-credit ledger: sending interest (costs one credit), accepting
    or declining, viewing a contact (costs five credits) and the invitation
    listing with its contact masking. Each handler is one atomic step over the
    user collection. */
module InterestLedger {
  import opened Wrappers
  import opened Js
  import opened Collections
  import opened Store

  const LimitMsg := "You have reached your limit of interests. Please purchase more to continue sending."
  const ViewLimitMsg := "You need at least 5 remaining interests to perform this action."

  /** Every guard of send-interest passes. */
  predicate CanSendInterest(users: seq<User>, senderId: Id, receiverId: Id) {
    && FindById(users, senderId).Some?
    && FindById(users, receiverId).Some?
    && senderId != receiverId
    && receiverId !in users[FindById(users, senderId).value].interests.sent
    && Remaining(users[FindById(users, senderId).value].interests) >= 1
  }

  /** POST /send-interest. The guards run in this order: a missing sender or
      receiver (404), sending to oneself (400), an interest already sent (400),
      no credit left (400). Only when all pass are the receiver appended to the
      sender's `sent` list and the sender to the receiver's `received` list. */
  function SendInterest(users: seq<User>, senderId: Id, receiverId: Id): (r: Reply<seq<User>>)
    ensures r.resp.status != 200 ==> r.state == users
    ensures SameIds(users, r.state)
    ensures r.resp.status == 404 <==> FindById(users, senderId).None? || FindById(users, receiverId).None?
    ensures r.resp == Response(400, "Cannot send interest to yourself") <==>
              FindById(users, senderId).Some? && FindById(users, receiverId).Some? && senderId == receiverId
    ensures r.resp == Response(400, "Interest already sent") <==>
              && FindById(users, senderId).Some? && FindById(users, receiverId).Some? && senderId != receiverId
              && receiverId in users[FindById(users, senderId).value].interests.sent
    ensures r.resp == Response(400, LimitMsg) <==>
              && FindById(users, senderId).Some? && FindById(users, receiverId).Some? && senderId != receiverId
              && receiverId !in users[FindById(users, senderId).value].interests.sent
              && Remaining(users[FindById(users, senderId).value].interests) < 1
    ensures r.resp.status == 200 <==> CanSendInterest(users, senderId, receiverId)
    ensures r.resp.status == 200 ==>
              var i := FindById(users, senderId).value;
              var j := FindById(users, receiverId).value;
              && OthersUnchanged2(users, r.state, i, j)
              && r.state[i].interests.sent == users[i].interests.sent + [receiverId]
              && r.state[j].interests.received == users[j].interests.received + [senderId]
  {
    var si := FindById(users, senderId);
    var ri := FindById(users, receiverId);
    if si.None? || ri.None? then Reply(Response(404, "User not found"), users)
    else if senderId == receiverId then Reply(Response(400, "Cannot send interest to yourself"), users)
    else
      var sender := users[si.value];
      var receiver := users[ri.value];
      if receiver.id in sender.interests.sent then Reply(Response(400, "Interest already sent"), users)
      else if Remaining(sender.interests) < 1 then Reply(Response(400, LimitMsg), users)
      else
        var sender' := sender.(interests := sender.interests.(sent := sender.interests.sent + [receiver.id]));
        var receiver' := receiver.(interests := receiver.interests.(received := receiver.interests.received + [sender.id]));
        Reply(Response(200, "Interest sent successfully"), users[si.value := sender'][ri.value := receiver'])
  }

  /** A successful send-interest costs the sender exactly one credit, touches no
      list but the sender's `sent` and the receiver's `received`, and leaves
      every other user as it was. */
  lemma SendInterestDebitsOne(users: seq<User>, senderId: Id, receiverId: Id)
    requires CanSendInterest(users, senderId, receiverId)
    ensures var r := SendInterest(users, senderId, receiverId);
            var i := FindById(users, senderId).value;
            var j := FindById(users, receiverId).value;
            && Remaining(r.state[i].interests) == Remaining(users[i].interests) - 1
            && r.state[i] == users[i].(interests := users[i].interests.(sent := users[i].interests.sent + [receiverId]))
            && r.state[j] == users[j].(interests := users[j].interests.(received := users[j].interests.received + [senderId]))
            && Remaining(r.state[j].interests) == Remaining(users[j].interests)
            && forall k :: 0 <= k < |users| && k != i && k != j ==> r.state[k] == users[k]
  {
  }

  /** Sending the same interest twice fails the second time and leaves the
      state of the first success in place, so the credit is taken once. */
  lemma SendInterestTwiceFails(users: seq<User>, senderId: Id, receiverId: Id)
    requires CanSendInterest(users, senderId, receiverId)
    ensures var once := SendInterest(users, senderId, receiverId).state;
            SendInterest(once, senderId, receiverId) == Reply(Response(400, "Interest already sent"), once)
  {
    var once := SendInterest(users, senderId, receiverId).state;
    FindByIdSameIds(users, once, senderId);
    FindByIdSameIds(users, once, receiverId);
  }

  /** send-interest never puts a duplicate into anyone's `sent` list. */
  lemma SendInterestKeepsSentDistinct(users: seq<User>, senderId: Id, receiverId: Id)
    requires forall k :: 0 <= k < |users| ==> NoDup(users[k].interests.sent)
    ensures var r := SendInterest(users, senderId, receiverId).state;
            forall k :: 0 <= k < |r| ==> NoDup(r[k].interests.sent)
  {
  }

  /** POST /interest-action. A missing `userId` or an action other than
      "accept"/"decline" is rejected (400) before any lookup; a missing user
      gives 404. Otherwise each id is appended to the other's `accepted` (or
      `declined`) list, with no duplicate check. There is no check against
      acting on oneself: the two loaded copies of the same document are saved
      one after the other, each with a whole new array. The first save
      commits one appended entry and bumps the document's version; the
      second, from the stale copy, fails the version check, and the route
      answers 500 with the first save in place. */
  function InterestAction(users: seq<User>, currentUserId: Id, userId: Option<string>, action: Option<string>)
    : (r: Reply<seq<User>>)
    ensures r.resp.status in {400, 404} ==> r.state == users
    ensures SameIds(users, r.state)
    ensures r.resp.status == 400 <==> !Truthy(userId) || action !in {Some("accept"), Some("decline")}
    ensures r.resp.status == 404 <==>
              && Truthy(userId) && action in {Some("accept"), Some("decline")}
              && (FindById(users, currentUserId).None? || FindById(users, userId.value).None?)
    ensures r.resp == Response(500, "Server error") <==>
              && Truthy(userId) && action in {Some("accept"), Some("decline")}
              && FindById(users, currentUserId).Some? && currentUserId == userId.value
    ensures r.resp.status == 200 <==>
              && Truthy(userId) && action in {Some("accept"), Some("decline")}
              && FindById(users, currentUserId).Some? && FindById(users, userId.value).Some?
              && currentUserId != userId.value
    ensures r.resp.status == 200 ==>
              && r.resp.msg == (if action == Some("accept") then "Interest accepted successfully" else "Interest declined successfully")
              && OthersUnchanged2(users, r.state, FindById(users, currentUserId).value, FindById(users, userId.value).value)
    ensures r.resp.status == 200 && action == Some("accept") ==>
              var i := FindById(users, currentUserId).value;
              var j := FindById(users, userId.value).value;
              && r.state[i] == users[i].(interests := users[i].interests.(accepted := users[i].interests.accepted + [userId.value]))
              && r.state[j] == users[j].(interests := users[j].interests.(accepted := users[j].interests.accepted + [currentUserId]))
    ensures r.resp.status == 200 && action == Some("decline") ==>
              var i := FindById(users, currentUserId).value;
              var j := FindById(users, userId.value).value;
              && r.state[i] == users[i].(interests := users[i].interests.(declined := users[i].interests.declined + [userId.value]))
              && r.state[j] == users[j].(interests := users[j].interests.(declined := users[j].interests.declined + [currentUserId]))
    ensures r.resp.status == 500 ==>
              var i := FindById(users, currentUserId).value;
              && OthersUnchanged(users, r.state, i)
              && (action == Some("accept") ==>
                    r.state[i] == users[i].(interests := users[i].interests.(accepted := users[i].interests.accepted + [currentUserId])))
              && (action == Some("decline") ==>
                    r.state[i] == users[i].(interests := users[i].interests.(declined := users[i].interests.declined + [currentUserId])))
  {
    if !Truthy(userId) || action !in {Some("accept"), Some("decline")} then
      Reply(Response(400, "Invalid request data"), users)
    else
      var ci := FindById(users, currentUserId);
      var oi := FindById(users, userId.value);
      if ci.None? || oi.None? then Reply(Response(404, "User not found"), users)
      else if currentUserId == userId.value then
        Reply(Response(500, "Server error"), Append(users, ci.value, userId.value, action == Some("accept")))
      else
        var accept := action == Some("accept");
        Reply(Response(200, if accept then "Interest accepted successfully" else "Interest declined successfully"),
              Append(Append(users, ci.value, userId.value, accept), oi.value, currentUserId, accept))
  }

  /** One save of interest-action: `id` appended to the `accepted` (or
      `declined`) list of the user at `i`. */
  function Append(users: seq<User>, i: nat, id: Id, accept: bool): (s: seq<User>)
    requires i < |users|
    ensures |s| == |users| && SameIds(users, s) && OthersUnchanged(users, s, i)
    ensures accept ==> s[i] == users[i].(interests := users[i].interests.(accepted := users[i].interests.accepted + [id]))
    ensures !accept ==> s[i] == users[i].(interests := users[i].interests.(declined := users[i].interests.declined + [id]))
  {
    var u := users[i];
    if accept then users[i := u.(interests := u.interests.(accepted := u.interests.accepted + [id]))]
    else users[i := u.(interests := u.interests.(declined := u.interests.declined + [id]))]
  }

  /** Accepting is symmetric: afterwards each party lists the other as
      accepted, nothing but the two `accepted` lists changed, and no credit
      moved. */
  lemma AcceptIsSymmetric(users: seq<User>, a: Id, b: Id)
    requires a != b && FindById(users, a).Some? && FindById(users, b).Some? && b != ""
    ensures var r := InterestAction(users, a, Some(b), Some("accept"));
            var i := FindById(users, a).value;
            var j := FindById(users, b).value;
            && r.resp.status == 200
            && b in r.state[i].interests.accepted && a in r.state[j].interests.accepted
            && r.state[i] == users[i].(interests := users[i].interests.(accepted := users[i].interests.accepted + [b]))
            && r.state[j] == users[j].(interests := users[j].interests.(accepted := users[j].interests.accepted + [a]))
            && Remaining(r.state[i].interests) == Remaining(users[i].interests)
            && Remaining(r.state[j].interests) == Remaining(users[j].interests)
            && forall k :: 0 <= k < |users| && k != i && k != j ==> r.state[k] == users[k]
  {
  }

  /** Declining is recorded on both sides as well: each party lists the
      other as declined, nothing but the two `declined` lists changed, and an
      earlier acceptance stays, so the listing still shows it as accepted. */
  lemma DeclineIsSymmetric(users: seq<User>, a: Id, b: Id)
    requires a != b && FindById(users, a).Some? && FindById(users, b).Some? && b != ""
    ensures var r := InterestAction(users, a, Some(b), Some("decline"));
            var i := FindById(users, a).value;
            var j := FindById(users, b).value;
            && r.resp == Response(200, "Interest declined successfully")
            && b in r.state[i].interests.declined && a in r.state[j].interests.declined
            && r.state[i].interests.accepted == users[i].interests.accepted
            && r.state[j].interests.accepted == users[j].interests.accepted
            && Remaining(r.state[i].interests) == Remaining(users[i].interests)
            && (b in users[i].interests.accepted ==> StatusOf(r.state[i].interests, b) == Accept)
            && (b !in users[i].interests.accepted ==> StatusOf(r.state[i].interests, b) == Decline)
  {
  }

  /** Acting on oneself passes every guard, but only the first of the two
      saves commits: the route answers 500 with one entry appended. */
  lemma SelfAcceptAppendsOnce(users: seq<User>, a: Id)
    requires FindById(users, a).Some? && a != ""
    ensures var r := InterestAction(users, a, Some(a), Some("accept"));
            var i := FindById(users, a).value;
            && r.resp == Response(500, "Server error")
            && r.state[i].interests.accepted == users[i].interests.accepted + [a]
            && forall k :: 0 <= k < |users| && k != i ==> r.state[k] == users[k]
  {
  }

  /** Repeating an accept appends a second copy: the lists grow on every call. */
  lemma AcceptTwiceDuplicates(users: seq<User>, a: Id, b: Id)
    requires a != b && FindById(users, a).Some? && FindById(users, b).Some? && b != ""
    ensures var once := InterestAction(users, a, Some(b), Some("accept")).state;
            var twice := InterestAction(once, a, Some(b), Some("accept")).state;
            var i := FindById(users, a).value;
            twice[i].interests.accepted == users[i].interests.accepted + [b, b]
  {
    var once := InterestAction(users, a, Some(b), Some("accept")).state;
    AcceptAppends(users, a, b);
    FindByIdSameIds(users, once, a);
    FindByIdSameIds(users, once, b);
    AcceptAppends(once, a, b);
  }

  /** One accept appends the other party's id to the current user's list. */
  lemma AcceptAppends(users: seq<User>, a: Id, b: Id)
    requires a != b && FindById(users, a).Some? && FindById(users, b).Some? && b != ""
    ensures var r := InterestAction(users, a, Some(b), Some("accept"));
            var i := FindById(users, a).value;
            && SameIds(users, r.state)
            && r.state[i].interests.accepted == users[i].interests.accepted + [b]
  {
  }

  /** Every guard of view-contact passes. */
  predicate CanViewContact(users: seq<User>, viewerId: Id, targetId: Id) {
    && FindById(users, viewerId).Some?
    && FindById(users, targetId).Some?
    && viewerId != targetId
    && targetId !in users[FindById(users, viewerId).value].interests.viewed
    && Remaining(users[FindById(users, viewerId).value].interests) >= 5
  }

  /** POST /view-contact. A missing user or viewing oneself gives 404, an
      already viewed contact 400, fewer than five credits 400; otherwise only
      the viewer's `viewed` list grows. */
  function ViewContact(users: seq<User>, viewerId: Id, targetId: Id): (r: Reply<seq<User>>)
    ensures r.resp.status != 200 ==> r.state == users
    ensures SameIds(users, r.state)
    ensures r.resp.status == 404 <==>
              FindById(users, viewerId).None? || FindById(users, targetId).None? || viewerId == targetId
    ensures r.resp == Response(400, "Contact already viewed") <==>
              && FindById(users, viewerId).Some? && FindById(users, targetId).Some? && viewerId != targetId
              && targetId in users[FindById(users, viewerId).value].interests.viewed
    ensures r.resp == Response(400, ViewLimitMsg) <==>
              && FindById(users, viewerId).Some? && FindById(users, targetId).Some? && viewerId != targetId
              && targetId !in users[FindById(users, viewerId).value].interests.viewed
              && Remaining(users[FindById(users, viewerId).value].interests) < 5
    ensures r.resp.status == 200 <==> CanViewContact(users, viewerId, targetId)
    ensures r.resp.status == 200 ==>
              var i := FindById(users, viewerId).value;
              && OthersUnchanged(users, r.state, i)
              && r.state[i] == users[i].(interests := users[i].interests.(viewed := users[i].interests.viewed + [targetId]))
  {
    var vi := FindById(users, viewerId);
    var ti := FindById(users, targetId);
    if vi.None? || ti.None? || viewerId == targetId then Reply(Response(404, "User not found"), users)
    else
      var viewer := users[vi.value];
      var target := users[ti.value];
      if target.id in viewer.interests.viewed then Reply(Response(400, "Contact already viewed"), users)
      else if Remaining(viewer.interests) < 5 then Reply(Response(400, ViewLimitMsg), users)
      else
        var viewer' := viewer.(interests := viewer.interests.(viewed := viewer.interests.viewed + [target.id]));
        Reply(Response(200, "Contact Viewed successfully"), users[vi.value := viewer'])
  }

  /** A successful contact view costs exactly five credits. */
  lemma ViewContactDebitsFive(users: seq<User>, viewerId: Id, targetId: Id)
    requires CanViewContact(users, viewerId, targetId)
    ensures var r := ViewContact(users, viewerId, targetId);
            var i := FindById(users, viewerId).value;
            Remaining(r.state[i].interests) == Remaining(users[i].interests) - 5
  {
  }

  /** A user holding five credits and nothing spent can view one contact, after
      which no interest can be sent for lack of credit. */
  lemma ViewThenSendRunsOutOfCredit(users: seq<User>, a: Id, b: Id, c: Id)
    requires a != b && a != c
    requires FindById(users, a).Some? && FindById(users, b).Some? && FindById(users, c).Some?
    requires var u := users[FindById(users, a).value].interests;
             u.totalNoOfInterest == Some(5) && u.sent == [] && u.viewed == []
    ensures var v := ViewContact(users, a, b);
            && v.resp.status == 200
            && SendInterest(v.state, a, c).resp == Response(400, LimitMsg)
  {
    var v := ViewContact(users, a, b).state;
    FindByIdSameIds(users, v, a);
    FindByIdSameIds(users, v, c);
  }

  /** What GET /view-contact answers. */
  datatype ViewedList = ViewedList(resp: Response, count: nat, viewed: seq<User>)

  /** GET /view-contact: the stored users whose id the signed-in user has
      viewed, in collection order and each once however often the id was
      recorded, with their number. */
  function ViewedContacts(users: seq<User>, currentUserId: Id): (r: ViewedList)
    ensures r.resp.status == 404 <==> FindById(users, currentUserId).None?
    ensures r.count == |r.viewed|
    ensures r.resp.status == 404 ==> r.viewed == []
    ensures r.resp.status == 200 ==>
              forall u :: u in r.viewed <==>
                u in users && u.id in users[FindById(users, currentUserId).value].interests.viewed
    ensures r.resp.status == 200 && NoDup(users) ==> NoDup(r.viewed)
    ensures r.resp.status == 200 ==> |r.viewed| <= |users|
  {
    match FindById(users, currentUserId)
    case None => ViewedList(Response(404, "User not found"), 0, [])
    case Some(i) =>
      var ids := users[i].interests.viewed;
      var vs := Filter(users, (u: User) => u.id in ids);
      ViewedList(Response(200, "ok"), |vs|, vs)
  }

  /** A contact just paid for is listed among the viewed contacts. */
  lemma ViewThenList(users: seq<User>, viewerId: Id, targetId: Id)
    requires CanViewContact(users, viewerId, targetId)
    ensures var s := ViewContact(users, viewerId, targetId).state;
            var t := FindById(users, targetId).value;
            s[t] in ViewedContacts(s, viewerId).viewed
  {
    var s := ViewContact(users, viewerId, targetId).state;
    FindByIdSameIds(users, s, viewerId);
    var i := FindById(users, viewerId).value;
    var t := FindById(users, targetId).value;
    assert s[i].interests.viewed == users[i].interests.viewed + [targetId];
    assert s[t].id == targetId;
  }

  // ---------------------------------------------------------------------------
  // Invitation listing
  // ---------------------------------------------------------------------------

  datatype InvitationStatus = Accept | Decline | Sent | Received

  /** The status shown for another user: accepted wins over declined, declined
      over sent, sent over received. */
  function StatusOf(me: Interests, other: Id): InvitationStatus {
    if other in me.accepted then Accept
    else if other in me.declined then Decline
    else if other in me.sent then Sent
    else Received
  }

  /** One listed user with the contact fields as shown: present only for an
      accepted invitation. */
  datatype Invitation = Invitation(
    id: Id,
    status: InvitationStatus,
    mobile: Option<string>,
    alternateMob: Option<string>,
    email: Option<string>)

  /** Whether a user id appears in any of the four interest lists. */
  predicate Involved(me: Interests, id: Id) {
    id in me.sent || id in me.received || id in me.accepted || id in me.declined
  }

  /** One listed user: the status by the precedence of the lists, and the
      `basic` contact fields only for an accepted user. */
  function Mask(me: Interests, u: User): (inv: Invitation)
    ensures inv.id == u.id && inv.status == StatusOf(me, u.id)
    ensures inv.status == Accept <==> u.id in me.accepted
    ensures inv.status == Decline <==> u.id !in me.accepted && u.id in me.declined
    ensures inv.status == Sent <==> u.id !in me.accepted && u.id !in me.declined && u.id in me.sent
    ensures inv.status == Received <==> u.id !in me.accepted && u.id !in me.declined && u.id !in me.sent
    ensures u.id in me.accepted ==>
              inv.mobile == u.basic.mobile && inv.alternateMob == u.basic.alternateMob && inv.email == u.basic.email
    ensures u.id !in me.accepted ==> inv.mobile.None? && inv.alternateMob.None? && inv.email.None?
  {
    var st := StatusOf(me, u.id);
    if st == Accept then Invitation(u.id, st, u.basic.mobile, u.basic.alternateMob, u.basic.email)
    else Invitation(u.id, st, None, None, None)
  }

  /** GET /fetch-invitation-status: every user of the collection involved in
      one of the current user's lists, once each, in collection order. */
  function Invitations(me: Interests, users: seq<User>): (r: seq<Invitation>)
    ensures |r| <= |users|
    ensures forall k :: 0 <= k < |r| ==> Involved(me, r[k].id)
    ensures forall k :: 0 <= k < |r| ==> exists m :: 0 <= m < |users| && r[k] == Mask(me, users[m])
    ensures forall k :: 0 <= k < |r| ==> (r[k].status == Accept <==> r[k].id in me.accepted)
    ensures forall k :: 0 <= k < |r| ==> r[k].status != Accept ==> r[k].email.None? && r[k].mobile.None?
    ensures forall k :: 0 <= k < |r| ==> r[k].status == Received ==> r[k].id in me.received
    ensures forall k :: 0 <= k < |users| ==> Involved(me, users[k].id) ==> exists m :: 0 <= m < |r| && r[m].id == users[k].id
    ensures DistinctIds(users) ==> forall a, b :: 0 <= a < b < |r| ==> r[a].id != r[b].id
  {
    var listed := Filter(users, (u: User) => Involved(me, u.id));
    var r := seq(|listed|, k requires 0 <= k < |listed| => Mask(me, listed[k]));
    assert forall k :: 0 <= k < |r| ==> r[k] == Mask(me, listed[k]) && listed[k] in listed;
    assert forall k :: 0 <= k < |users| && Involved(me, users[k].id) ==> users[k] in listed;
    if DistinctIds(users) then
      DistinctIdsSubset(users, listed);
      r
    else r
  }

  /** No two users of the collection share an id. */
  predicate DistinctIds(users: seq<User>) {
    forall a, b :: 0 <= a < b < |users| ==> users[a].id != users[b].id
  }

  /** A repetition-free selection from a collection with distinct ids has
      distinct ids too. */
  lemma DistinctIdsSubset(users: seq<User>, listed: seq<User>)
    requires DistinctIds(users)
    requires (forall x :: x in listed ==> x in users) && (NoDup(users) ==> NoDup(listed))
    ensures DistinctIds(listed)
  {
    forall a, b | 0 <= a < b < |listed|
      ensures listed[a].id != listed[b].id
    {
      assert NoDup(users);
      assert listed[a] in listed && listed[b] in listed;
      var p :| 0 <= p < |users| && users[p] == listed[a];
      var q :| 0 <= q < |users| && users[q] == listed[b];
      assert p != q;
    }
  }

  /** GET /fetch-invitation-status for the authenticated user. */
  function FetchInvitationStatus(users: seq<User>, currentUserId: Id): (r: (Response, seq<Invitation>))
    ensures r.0.status == 404 <==> FindById(users, currentUserId).None?
    ensures r.0.status == 200 ==> r.1 == Invitations(users[FindById(users, currentUserId).value].interests, users)
    ensures r.0.status == 404 ==> r.1 == []
  {
    match FindById(users, currentUserId)
    case None => (Response(404, "User not found"), [])
    case Some(i) => (Response(200, "success"), Invitations(users[i].interests, users))
  }
}

=== FILE: js.dfy ===
/** The few JavaScript string and value semantics the route handlers rely on:
    truthiness of request fields, template-literal rendering of `undefined`,
    `trim`, `toLowerCase`, `split(",")`, `Number.prototype.toString`,
    `padStart` and UTF-16 code units. */
module Js {
  import opened Wrappers

  /** JavaScript truthiness of an optional string field: `undefined` and `""`
      are falsy, every other string is truthy. */
  predicate Truthy(f: Option<string>) {
    f.Some? && f.value != ""
  }

  /** How a template literal renders an optional string: `undefined` prints as
      the text "undefined". */
  function Text(f: Option<string>): string {
    if f.Some? then f.value else "undefined"
  }

  lemma TextOfPresent(s: string)
    ensures Text(Some(s)) == s
  {
  }

  // ---------------------------------------------------------------------------
  // trim
  // ---------------------------------------------------------------------------

  /** The characters `String.prototype.trim` removes: ECMAScript WhiteSpace and
      LineTerminator code points. */
  predicate IsSpace(c: char) {
    || c == ' ' || c == '\t' || c == '\n' || c == '\r'
    || c == '\U{000B}' || c == '\U{000C}' || c == '\U{00A0}' || c == '\U{FEFF}'
    || c == '\U{1680}' || ('\U{2000}' <= c <= '\U{200A}')
    || c == '\U{2028}' || c == '\U{2029}' || c == '\U{202F}' || c == '\U{205F}'
    || c == '\U{3000}'
  }

  /** Drops leading white space. */
  function TrimStart(s: string): (r: string)
    ensures |r| <= |s| && r == s[|s| - |r|..]
    ensures forall i :: 0 <= i < |s| - |r| ==> IsSpace(s[i])
    ensures r == [] || !IsSpace(r[0])
  {
    if |s| > 0 && IsSpace(s[0]) then TrimStart(s[1..]) else s
  }

  /** Drops trailing white space. */
  function TrimEnd(s: string): (r: string)
    ensures |r| <= |s| && r == s[..|r|]
    ensures forall i :: |r| <= i < |s| ==> IsSpace(s[i])
    ensures r == [] || !IsSpace(r[|r| - 1])
  {
    if |s| > 0 && IsSpace(s[|s| - 1]) then TrimEnd(s[..|s| - 1]) else s
  }

  /** `s.trim()`: the longest infix of `s` that neither starts nor ends with
      white space, obtained by removing only white space. */
  function Trim(s: string): (r: string)
    ensures r == [] || (!IsSpace(r[0]) && !IsSpace(r[|r| - 1]))
    ensures |s| - |TrimStart(s)| + |r| <= |s|
    ensures r == s[|s| - |TrimStart(s)|..|s| - |TrimStart(s)| + |r|]
  {
    var t := TrimStart(s);
    var r := TrimEnd(t);
    assert r == s[|s| - |t|..|s| - |t| + |r|];
    if r == [] then r
    else
      assert r[0] == t[0];
      r
  }

  lemma {:induction false} TrimStartOfTrimmed(s: string)
    requires s == [] || !IsSpace(s[0])
    ensures TrimStart(s) == s
  {
  }

  lemma {:induction false} TrimEndOfTrimmed(s: string)
    requires s == [] || !IsSpace(s[|s| - 1])
    ensures TrimEnd(s) == s
  {
  }

  /** Trimming twice is trimming once. */
  lemma {:induction false} TrimIdempotent(s: string)
    ensures Trim(Trim(s)) == Trim(s)
  {
    var r := Trim(s);
    TrimStartOfTrimmed(r);
    TrimEndOfTrimmed(r);
  }

  // ---------------------------------------------------------------------------
  // toLowerCase (ASCII letters only)
  // ---------------------------------------------------------------------------

  function LowerChar(c: char): char {
    if 'A' <= c <= 'Z' then (c as int + 32) as char else c
  }

  /** `s.toLowerCase()` on the ASCII letters; every other character is kept. */
  function Lower(s: string): (r: string)
    ensures |r| == |s|
  {
    seq(|s|, i requires 0 <= i < |s| => LowerChar(s[i]))
  }

  /** Lower-casing leaves no upper-case ASCII letter behind and does not
      change what counts as white space. */
  lemma LowerChars(s: string)
    ensures forall i :: 0 <= i < |s| ==> !('A' <= Lower(s)[i] <= 'Z')
    ensures forall i :: 0 <= i < |s| ==> (IsSpace(Lower(s)[i]) <==> IsSpace(s[i]))
  {
  }

  lemma LowerIdempotent(s: string)
    ensures Lower(Lower(s)) == Lower(s)
  {
  }

  lemma LowerSlice(s: string, a: int, b: int)
    requires 0 <= a <= b <= |s|
    ensures Lower(s[a..b]) == Lower(s)[a..b]
  {
  }

  lemma {:induction false} TrimStartLower(s: string)
    ensures TrimStart(Lower(s)) == Lower(TrimStart(s))
    decreases |s|
  {
    LowerChars(s);
    var l := Lower(s);
    if |s| > 0 && IsSpace(s[0]) {
      assert IsSpace(l[0]);
      LowerSlice(s, 1, |s|);
      TrimStartLower(s[1..]);
      calc {
        TrimStart(l);
        TrimStart(l[1..]);
        { assert l[1..] == Lower(s[1..]); }
        Lower(TrimStart(s[1..]));
      }
    } else {
      assert l == [] || !IsSpace(l[0]);
      TrimStartOfTrimmed(l);
    }
  }

  lemma {:induction false} TrimEndLower(s: string)
    ensures TrimEnd(Lower(s)) == Lower(TrimEnd(s))
    decreases |s|
  {
    LowerChars(s);
    var l := Lower(s);
    if |s| > 0 && IsSpace(s[|s| - 1]) {
      assert IsSpace(l[|l| - 1]);
      LowerSlice(s, 0, |s| - 1);
      TrimEndLower(s[..|s| - 1]);
      calc {
        TrimEnd(l);
        TrimEnd(l[..|l| - 1]);
        { assert l[..|l| - 1] == Lower(s[..|s| - 1]); }
        Lower(TrimEnd(s[..|s| - 1]));
      }
    } else {
      assert l == [] || !IsSpace(l[|l| - 1]);
      TrimEndOfTrimmed(l);
    }
  }

  /** Trimming and lower-casing commute. */
  lemma TrimLower(s: string)
    ensures Trim(Lower(s)) == Lower(Trim(s))
  {
    TrimStartLower(s);
    TrimEndLower(TrimStart(s));
  }

  // ---------------------------------------------------------------------------
  // split(",")
  // ---------------------------------------------------------------------------

  /** `s.split(sep)` for a one-character separator: the maximal pieces between
      separators, empty pieces included, so "" splits into [""]. */
  function Split(s: string, sep: char): (parts: seq<string>)
    ensures |parts| >= 1
    ensures forall k :: 0 <= k < |parts| ==> sep !in parts[k]
    decreases |s|
  {
    if sep !in s then [s]
    else
      var i := FirstIndexOf(s, sep);
      [s[..i]] + Split(s[i + 1..], sep)
  }

  function FirstIndexOf(s: string, c: char): (i: nat)
    requires c in s
    ensures i < |s| && s[i] == c && c !in s[..i]
  {
    if s[0] == c then 0 else 1 + FirstIndexOf(s[1..], c)
  }

  /** `parts.join(sep)`. */
  function Join(parts: seq<string>, sep: char): string
    requires |parts| >= 1
  {
    if |parts| == 1 then parts[0] else parts[0] + [sep] + Join(parts[1..], sep)
  }

  /** Splitting and joining back with the same separator gives the input. */
  lemma {:induction false} JoinSplit(s: string, sep: char)
    ensures Join(Split(s, sep), sep) == s
    decreases |s|
  {
    if sep in s {
      var i := FirstIndexOf(s, sep);
      var rest := Split(s[i + 1..], sep);
      JoinSplit(s[i + 1..], sep);
      assert Split(s, sep) == [s[..i]] + rest;
      assert (([s[..i]] + rest)[1..]) == rest;
      assert s == s[..i] + [sep] + s[i + 1..];
    }
  }

  /** `parts.map(v => v.trim())`. */
  function TrimAll(parts: seq<string>): (r: seq<string>)
    ensures |r| == |parts|
    ensures forall k :: 0 <= k < |r| ==> r[k] == Trim(parts[k])
  {
    seq(|parts|, k requires 0 <= k < |parts| => Trim(parts[k]))
  }

  // ---------------------------------------------------------------------------
  // Numbers as text, padStart, UTF-16 code units
  // ---------------------------------------------------------------------------

  predicate IsDigit(c: char) {
    '0' <= c <= '9'
  }

  function DigitChar(d: nat): (c: char)
    requires d < 10
    ensures IsDigit(c) && c as int - '0' as int == d
  {
    ('0' as int + d) as char
  }

  /** `n.toString()` for a non-negative integer: decimal digits with no leading
      zero. */
  function NatToDecimal(n: nat): (s: string)
    ensures |s| >= 1 && forall i :: 0 <= i < |s| ==> IsDigit(s[i])
    ensures n < 10 ==> |s| == 1
    ensures n < 100 ==> |s| <= 2
    ensures n < 1000 ==> |s| <= 3
  {
    if n < 10 then [DigitChar(n)] else NatToDecimal(n / 10) + [DigitChar(n % 10)]
  }

  function DigitValue(c: char): nat
    requires IsDigit(c)
  {
    c as int - '0' as int
  }

  /** The value of a string of decimal digits. */
  function DecimalValue(s: string): nat
    requires forall i :: 0 <= i < |s| ==> IsDigit(s[i])
  {
    if s == [] then 0
    else 10 * DecimalValue(s[..|s| - 1]) + DigitValue(s[|s| - 1])
  }

  /** Reading the decimal text of `n` back gives `n`. */
  lemma {:induction false} DecimalRoundTrip(n: nat)
    ensures DecimalValue(NatToDecimal(n)) == n
    decreases n
  {
    if n >= 10 {
      var s := NatToDecimal(n);
      assert s[..|s| - 1] == NatToDecimal(n / 10);
      DecimalRoundTrip(n / 10);
    }
  }

  /** Leading zeros do not change a decimal value. */
  lemma {:induction false} DecimalLeadingZeros(z: nat, s: string)
    requires forall i :: 0 <= i < |s| ==> IsDigit(s[i])
    ensures forall i :: 0 <= i < z + |s| ==> IsDigit((Repeat('0', z) + s)[i])
    ensures DecimalValue(Repeat('0', z) + s) == DecimalValue(s)
    decreases |s|
  {
    var t := Repeat('0', z) + s;
    if s == [] {
      assert t == Repeat('0', z);
      ZerosValue(z);
    } else {
      assert t[..|t| - 1] == Repeat('0', z) + s[..|s| - 1];
      DecimalLeadingZeros(z, s[..|s| - 1]);
    }
  }

  lemma {:induction false} ZerosValue(z: nat)
    ensures forall i :: 0 <= i < z ==> IsDigit(Repeat('0', z)[i])
    ensures DecimalValue(Repeat('0', z)) == 0
    decreases z
  {
    if z > 0 {
      assert Repeat('0', z)[..z - 1] == Repeat('0', z - 1);
      ZerosValue(z - 1);
    }
  }

  function Repeat(c: char, n: nat): (r: string)
    ensures |r| == n && forall i :: 0 <= i < n ==> r[i] == c
  {
    if n == 0 then [] else [c] + Repeat(c, n - 1)
  }

  /** `s.padStart(n, fill)` for a one-character fill: `s` itself when it is
      already `n` long, otherwise fill characters in front up to length `n`. */
  function PadStart(s: string, n: nat, fill: char): (r: string)
    ensures |r| == if |s| >= n then |s| else n
    ensures r[|r| - |s|..] == s
    ensures forall i :: 0 <= i < |r| - |s| ==> r[i] == fill
  {
    if |s| >= n then s else Repeat(fill, n - |s|) + s
  }

  /** A UTF-16 code unit, the element type of a JavaScript string. */
  type CodeUnit = x: int | 0 <= x < 0x1_0000

  /** `String.fromCharCode(n)` for an integer `n >= 0`: the code unit is `n`
      reduced modulo 2^16 (ToUint16). */
  function FromCharCode(n: nat): (u: CodeUnit)
    ensures n < 0x1_0000 ==> u == n
  {
    n % 0x1_0000
  }

  /** The code units of a string of Basic-Multilingual-Plane characters. */
  function Units(s: string): (r: seq<CodeUnit>)
    requires forall i :: 0 <= i < |s| ==> s[i] as int < 0x1_0000
    ensures |r| == |s| && forall i :: 0 <= i < |s| ==> r[i] == s[i] as int
  {
    seq(|s|, i requires 0 <= i < |s| => s[i] as int)
  }
}

=== FILE: json.dfy ===
/** The JSON text of the registration OTP record as `JSON.stringify` writes
    it, and the part of `JSON.parse` the verification route relies on: the
    record's own shape, plain numbers and booleans. */
module Json {
  import opened Wrappers
  import opened Js

  // ---------------------------------------------------------------------------
  // String literals
  // ---------------------------------------------------------------------------

  function HexDigit(d: nat): char
    requires d < 16
  {
    "0123456789abcdef"[d]
  }

  function HexValue(c: char): Option<nat> {
    if '0' <= c <= '9' then Some(c as int - '0' as int)
    else if 'a' <= c <= 'f' then Some(c as int - 'a' as int + 10)
    else if 'A' <= c <= 'F' then Some(c as int - 'A' as int + 10)
    else None
  }

  lemma HexRoundTrip(d: nat)
    requires d < 16
    ensures HexValue(HexDigit(d)) == Some(d)
  {
  }

  /** How `JSON.stringify` writes one character inside a string literal. */
  function EscapeChar(c: char): string {
    if c == '"' then "\\\""
    else if c == '\\' then "\\\\"
    else if c == '\U{0008}' then "\\b"
    else if c == '\t' then "\\t"
    else if c == '\n' then "\\n"
    else if c == '\U{000C}' then "\\f"
    else if c == '\r' then "\\r"
    else if (c as int) < 0x20 then "\\u00" + [HexDigit(c as int / 16), HexDigit(c as int % 16)]
    else [c]
  }

  function Escape(s: string): string {
    if s == [] then [] else EscapeChar(s[0]) + Escape(s[1..])
  }

  /** A string literal: the escaped text between double quotes. */
  function Quote(s: string): string {
    "\"" + Escape(s) + "\""
  }

  /** Decodes the escape sequence after a backslash: the character it stands
      for and the text after it. A `\u` escape naming a lone surrogate has no
      counterpart among the model's characters and is refused. */
  function Unescape(u: string): (r: Option<(char, string)>)
    ensures r.Some? ==> |r.value.1| < |u|
  {
    if u == [] then None
    else if u[0] == '"' then Some(('"', u[1..]))
    else if u[0] == '\\' then Some(('\\', u[1..]))
    else if u[0] == '/' then Some(('/', u[1..]))
    else if u[0] == 'b' then Some(('\U{0008}', u[1..]))
    else if u[0] == 't' then Some(('\t', u[1..]))
    else if u[0] == 'n' then Some(('\n', u[1..]))
    else if u[0] == 'f' then Some(('\U{000C}', u[1..]))
    else if u[0] == 'r' then Some(('\r', u[1..]))
    else if u[0] == 'u' && |u| >= 5 then
      match (HexValue(u[1]), HexValue(u[2]), HexValue(u[3]), HexValue(u[4]))
      case (Some(a), Some(b), Some(c), Some(d)) =>
        var code := ((a * 16 + b) * 16 + c) * 16 + d;
        if 0xD800 <= code < 0xE000 || code >= 0x11_0000 then None
        else Some((code as char, u[5..]))
      case _ => None
    else None
  }

  /** Reads the rest of a string literal whose opening quote has been
      consumed: the decoded text and what follows the closing quote. */
  function ReadString(t: string): (r: Option<(string, string)>)
    ensures r.Some? ==> |r.value.1| < |t|
    decreases |t|
  {
    if t == [] then None
    else if t[0] == '"' then Some(([], t[1..]))
    else if t[0] == '\\' then
      match Unescape(t[1..])
      case None => None
      case Some((c, u)) =>
        match ReadString(u)
        case None => None
        case Some((s, rest)) => Some(([c] + s, rest))
    else if (t[0] as int) < 0x20 then None
    else
      match ReadString(t[1..])
      case None => None
      case Some((s, rest)) => Some(([t[0]] + s, rest))
  }

  /** Each written character is decoded back to itself. */
  lemma UnescapeEscapeChar(c: char, more: string)
    requires EscapeChar(c)[0] == '\\'
    ensures Unescape(EscapeChar(c)[1..] + more) == Some((c, more))
  {
    if c != '"' && c != '\\' && c != '\U{0008}' && c != '\t' && c != '\n' && c != '\U{000C}' && c != '\r' {
      var e := EscapeChar(c);
      assert (c as int) < 0x20;
      var u := e[1..] + more;
      assert u[0] == 'u' && u[1] == '0' && u[2] == '0';
      assert u[3] == HexDigit(c as int / 16) && u[4] == HexDigit(c as int % 16);
      HexRoundTrip(c as int / 16);
      HexRoundTrip(c as int % 16);
      assert u[5..] == more;
    }
  }

  /** A literal's text read back after its closing quote: `JSON.parse`
      inverts `JSON.stringify` on strings. */
  lemma {:induction false} ReadEscaped(s: string, rest: string)
    ensures ReadString(Escape(s) + "\"" + rest) == Some((s, rest))
    decreases |s|
  {
    if s != [] {
      var tail := Escape(s[1..]) + "\"" + rest;
      assert Escape(s) + "\"" + rest == EscapeChar(s[0]) + tail;
      ReadEscaped(s[1..], rest);
      ReadOneChar(s[0], tail, s[1..], rest);
      assert [s[0]] + s[1..] == s;
    }
  }

  /** One written character in front of a literal's remaining text is read
      back as itself. */
  lemma ReadOneChar(c: char, tail: string, s: string, rest: string)
    requires ReadString(tail) == Some((s, rest))
    ensures ReadString(EscapeChar(c) + tail) == Some(([c] + s, rest))
  {
    var t := EscapeChar(c) + tail;
    if EscapeChar(c)[0] == '\\' {
      UnescapeEscapeChar(c, tail);
      assert t[1..] == EscapeChar(c)[1..] + tail;
    } else {
      assert EscapeChar(c) == [c];
      assert t[1..] == tail;
    }
  }

  // ---------------------------------------------------------------------------
  // The OTP record
  // ---------------------------------------------------------------------------

  /** `{ emailOtp, mobileOtp, mobile, expires }` as stored under `otp:<email>`
      by the registration flow. */
  datatype OtpRecord = OtpRecord(emailOtp: string, mobileOtp: string, mobile: string, expires: nat)

  const EmailKey := "{\"emailOtp\":\""
  const MobileOtpKey := ",\"mobileOtp\":\""
  const MobileKey := ",\"mobile\":\""
  const ExpiresKey := ",\"expires\":"

  /** `JSON.stringify(record)`: the fields in declaration order, no spaces. */
  function Stringify(r: OtpRecord): string {
    EmailKey + (Escape(r.emailOtp) + "\"" +
      (MobileOtpKey + (Escape(r.mobileOtp) + "\"" +
        (MobileKey + (Escape(r.mobile) + "\"" +
          (ExpiresKey + (NatToDecimal(r.expires) + "}")))))))
  }

  function StripPrefix(s: string, p: string): (r: Option<string>)
    ensures r.Some? ==> s == p + r.value
  {
    if |p| <= |s| && s[..|p|] == p then Some(s[|p|..]) else None
  }

  lemma StripPrefixOf(p: string, rest: string)
    ensures StripPrefix(p + rest, p) == Some(rest)
  {
    assert (p + rest)[..|p|] == p;
  }

  /** Digits as `JSON.parse` accepts them for a number: no leading zero
      unless the number is 0. */
  predicate IsJsonNat(s: string) {
    |s| >= 1 && (forall i :: 0 <= i < |s| ==> IsDigit(s[i])) && (|s| > 1 ==> s[0] != '0')
  }

  /** A key followed by a string literal: the literal's text and what follows
      its closing quote. */
  function Field(t: string, key: string): Option<(string, string)> {
    match StripPrefix(t, key)
    case None => None
    case Some(u) => ReadString(u)
  }

  lemma FieldOf(key: string, s: string, rest: string)
    ensures Field(key + (Escape(s) + "\"" + rest), key) == Some((s, rest))
  {
    StripPrefixOf(key, Escape(s) + "\"" + rest);
    ReadEscaped(s, rest);
  }

  /** The number closing the record: digits, then the closing brace. */
  function ClosingNumber(t: string): Option<nat> {
    if |t| >= 2 && t[|t| - 1] == '}' && IsJsonNat(t[..|t| - 1]) then Some(DecimalValue(t[..|t| - 1]))
    else None
  }

  /** Parses a record written by `Stringify`; any other text gives nothing. */
  function ParseRecord(s: string): Option<OtpRecord> {
    match Field(s, EmailKey)
    case None => None
    case Some((e, s1)) =>
      match Field(s1, MobileOtpKey)
      case None => None
      case Some((m, s2)) =>
        match Field(s2, MobileKey)
        case None => None
        case Some((mob, s3)) =>
          match StripPrefix(s3, ExpiresKey)
          case None => None
          case Some(s4) =>
            match ClosingNumber(s4)
            case None => None
            case Some(n) => Some(OtpRecord(e, m, mob, n))
  }

  /** `n.toString()` is the text `JSON.parse` reads as the number `n`. */
  lemma DecimalIsJsonNat(n: nat)
    ensures IsJsonNat(NatToDecimal(n))
    decreases n
  {
    if n >= 10 {
      DecimalIsJsonNat(n / 10);
      assert NatToDecimal(n)[0] == NatToDecimal(n / 10)[0];
    }
  }

  lemma ClosingNumberOf(n: nat)
    ensures ClosingNumber(NatToDecimal(n) + "}") == Some(n)
  {
    var t := NatToDecimal(n) + "}";
    assert t[..|t| - 1] == NatToDecimal(n);
    DecimalIsJsonNat(n);
    DecimalRoundTrip(n);
  }

  /** Reading a stored record back yields exactly the stored fields. */
  lemma ParseStringify(r: OtpRecord)
    ensures ParseRecord(Stringify(r)) == Some(r)
  {
    var tail4 := NatToDecimal(r.expires) + "}";
    var tail3 := ExpiresKey + tail4;
    var tail2 := MobileKey + (Escape(r.mobile) + "\"" + tail3);
    var tail1 := MobileOtpKey + (Escape(r.mobileOtp) + "\"" + tail2);
    FieldOf(EmailKey, r.emailOtp, tail1);
    FieldOf(MobileOtpKey, r.mobileOtp, tail2);
    FieldOf(MobileKey, r.mobile, tail3);
    StripPrefixOf(ExpiresKey, tail4);
    ClosingNumberOf(r.expires);
  }

  /** What `JSON.parse` yields, as far as the route reads it: a record, or a
      primitive on which `.emailOtp` and `.mobileOtp` are undefined. */
  datatype Parsed = PRecord(record: OtpRecord) | PPrimitive

  /** `JSON.parse(text)` on the texts the `otp:` keys can hold: a record
      written by `Stringify` reads back as that record, and a reset code,
      six digits, reads as a number unless it starts with 0, which is a
      syntax error. `true` and `false` read as primitives too. Every other
      text is reported as a failure: that is exact for `null` (whose fields
      cannot be read) and for malformed text, but `JSON.parse` also accepts
      strings, negative and fractional numbers, arrays and objects of other
      shapes or spacing, which no flow stores under these keys. */
  function JsonParse(text: string): (p: Option<Parsed>)
    ensures p.Some? && p.value.PRecord? <==> ParseRecord(text).Some?
    ensures ParseRecord(text).Some? ==> p == Some(PRecord(ParseRecord(text).value))
    ensures p == Some(PPrimitive) <==> ParseRecord(text).None? && (text == "true" || text == "false" || IsJsonNat(text))
    ensures p.None? <==> ParseRecord(text).None? && text != "true" && text != "false" && !IsJsonNat(text)
  {
    if ParseRecord(text).Some? then Some(PRecord(ParseRecord(text).value))
    else if text == "true" || text == "false" || IsJsonNat(text) then Some(PPrimitive)
    else None
  }

  /** Parsing undoes writing: a stored record reads back as itself. */
  lemma ParseOfStringify(r: OtpRecord)
    ensures JsonParse(Stringify(r)) == Some(PRecord(r))
  {
    ParseStringify(r);
  }

  /** The escaped slash read inside a literal, up to its closing quote. */
  lemma ReadEscapedSlash(tail: string)
    ensures ReadString("\\/\"" + tail) == Some(("/", tail))
  {
    var u := "\\/\"" + tail;
    var v := u[1..];
    assert v[0] == '/' && v[1..] == "\"" + tail;
    assert Unescape(v) == Some(('/', "\"" + tail));
    var w := "\"" + tail;
    assert w[0] == '"' && w[1..] == tail;
    assert ReadString(w) == Some(([], tail));
    assert ['/'] + [] == "/";
  }

  /** The record `Stringify` writes for a slash carries it unescaped. */
  lemma StringifySlash(r: OtpRecord)
    requires r.emailOtp == "/"
    ensures Stringify(r)[|EmailKey|] == '/'
  {
    assert Escape("/") == "/" by {
      assert Escape("/") == EscapeChar('/') + Escape("/"[1..]);
    }
  }

  /** Writing does not undo parsing: `\/` is an escape `JSON.parse` reads
      as `/`, which `JSON.stringify` writes unescaped, so a record can be
      read from a text other than the one `Stringify` writes for it. */
  lemma ParseAcceptsOtherSpellings()
    ensures var r := OtpRecord("/", "", "", 0);
            && JsonParse(SlashEscapedText()) == Some(PRecord(r))
            && SlashEscapedText() != Stringify(r)
  {
    SlashEscapedParses();
    SlashEscapedDiffers();
  }

  /** The record with an empty mobile OTP, mobile and expiry 0 whose e-mail
      OTP is a slash, written with the slash escaped. */
  function SlashEscapedText(): string {
    EmailKey + ("\\/\"" + (MobileOtpKey + ("\"" + (MobileKey + ("\"" + (ExpiresKey + "0}"))))))
  }

  lemma SlashEscapedParses()
    ensures ParseRecord(SlashEscapedText()) == Some(OtpRecord("/", "", "", 0))
  {
    var tail3 := ExpiresKey + "0}";
    var tail2 := MobileKey + ("\"" + tail3);
    var tail1 := MobileOtpKey + ("\"" + tail2);
    var text := EmailKey + ("\\/\"" + tail1);
    assert text == SlashEscapedText();
    StripPrefixOf(EmailKey, "\\/\"" + tail1);
    ReadEscapedSlash(tail1);
    assert Field(text, EmailKey) == Some(("/", tail1));
    FieldOf(MobileOtpKey, "", tail2);
    FieldOf(MobileKey, "", tail3);
    StripPrefixOf(ExpiresKey, "0}");
    assert ClosingNumber("0}") == Some(0) by {
      assert "0}"[..1] == "0";
      assert IsJsonNat("0");
    }
  }

  lemma SlashEscapedDiffers()
    ensures SlashEscapedText() != Stringify(OtpRecord("/", "", "", 0))
  {
    var text := SlashEscapedText();
    assert text[|EmailKey|] == '\\';
    StringifySlash(OtpRecord("/", "", "", 0));
  }

  /** The two fields the registration route compares. */
  function EmailOtpField(p: Parsed): Option<string> {
    if p.PRecord? then Some(p.record.emailOtp) else None
  }

  function MobileOtpField(p: Parsed): Option<string> {
    if p.PRecord? then Some(p.record.mobileOtp) else None
  }
}

=== FILE: profiles.dfy ===
/** Profile discovery and the signed-in user's own profile: which profiles
    the discovery query admits, how a page of them is cut out, and how an
    update merges into the stored profile. The database query is modelled
    as a filter over the user collection in stored order; the field
    projection that hides passwords and contacts is not modelled. */
module Profiles {
  import opened Wrappers
  import opened Js
  import opened Store
  import opened Collections
  import Credentials

  // ---------------------------------------------------------------------------
  // Discovery
  // ---------------------------------------------------------------------------

  /** The gender a user is shown: "female" for a user whose gender reads
      "male" in any case, "male" for everyone else. */
  function TargetGender(gender: string): (t: string)
    ensures t == "female" || t == "male"
    ensures t == "female" <==> Lower(gender) == "male"
  {
    if Lower(gender) == "male" then "female" else "male"
  }

  /** The partner filters of a discovery request. Ages arrive as numbers;
      the list filters are empty when not given. */
  datatype Filters = Filters(
    ageFrom: Option<int>,
    ageTo: Option<int>,
    martialStatus: seq<string>,
    subCaste: seq<string>,
    employedIn: seq<string>,
    qualification: seq<string>,
    country: seq<string>)

  /** JavaScript truthiness of an optional number: present and not 0. */
  predicate Given(n: Option<int>) {
    n.Some? && n.value != 0
  }

  /** The ids discovery leaves out: everyone the user accepted, declined,
      hid, sent interest to or received interest from. */
  function Excluded(me: User): (ids: seq<Id>)
    ensures forall id :: id in ids <==>
              || id in me.interests.accepted || id in me.interests.declined || id in me.hideProfiles
              || id in me.interests.sent || id in me.interests.received
  {
    me.interests.accepted + me.interests.declined + me.hideProfiles + me.interests.sent + me.interests.received
  }

  /** An `$in` list filter: an empty list admits everything, otherwise the
      attribute must be present and listed. */
  predicate Listed(list: seq<string>, v: Option<string>) {
    |list| == 0 || (v.Some? && v.value in list)
  }

  /** The discovery query for `me`, whose shown gender is `target`. */
  predicate Shown(me: User, target: string, f: Filters, u: User) {
    && u.profile.gender.Some? && Lower(u.profile.gender.value) == target
    && u.id != me.id && u.id !in Excluded(me)
    && u.isHidden == Some(false)
    && (Given(f.ageFrom) ==> u.profile.age.Some? && u.profile.age.value >= f.ageFrom.value)
    && (Given(f.ageTo) ==> u.profile.age.Some? && u.profile.age.value <= f.ageTo.value)
    && Listed(f.martialStatus, u.profile.martialStatus)
    && Listed(f.subCaste, u.profile.subCaste)
    && Listed(f.employedIn, u.profile.employedIn)
    && Listed(f.qualification, u.profile.qualification)
    && Listed(f.country, u.profile.country)
  }

  /** `Math.ceil(total / limit)` as the reply reports it: a limit of 0 gives
      Infinity or NaN, both of which the JSON reply renders as null. */
  datatype Pages = Finite(n: int) | NotFinite

  function TotalPages(total: nat, limit: int): (p: Pages)
    ensures p.NotFinite? <==> limit == 0
    ensures limit > 0 ==> p.n >= 0 && p.n * limit >= total && (p.n == 0 || (p.n - 1) * limit < total)
    ensures limit < 0 ==> p.n * limit <= total < (p.n - 1) * limit
  {
    if limit == 0 then NotFinite
    else if limit > 0 then
      var q := total / limit;
      var r := total % limit;
      assert total == q * limit + r;
      if r == 0 then Finite(q)
      else
        assert (q + 1) * limit == q * limit + limit;
        Finite(q + 1)
    else
      var q := total / -limit;
      assert total == q * -limit + total % -limit;
      assert (-q - 1) * limit == q * -limit - limit;
      Finite(-q)
  }

  /** The pages a positive limit cuts: page `p` (counting from 1) holds
      something exactly when `p` is at most the reported page count. */
  lemma LastPage(total: nat, limit: int, p: int)
    requires limit > 0 && p >= 1
    ensures (p - 1) * limit < total <==> p <= TotalPages(total, limit).n
  {
    var n := TotalPages(total, limit).n;
    if p <= n {
      assert (p - 1) * limit <= (n - 1) * limit;
    } else {
      assert (p - 1) * limit >= n * limit;
    }
  }

  /** `.skip(skip).limit(limit)` on a non-negative skip: a limit of 0 takes
      everything left, a negative limit takes at most its magnitude (one
      batch). */
  function Window<T>(s: seq<T>, skip: nat, limit: int): (w: seq<T>)
    ensures skip >= |s| ==> w == []
    ensures skip < |s| && limit == 0 ==> w == s[skip..]
    ensures skip < |s| && limit != 0 ==>
              var count := if limit < 0 then -limit else limit;
              && |w| == (if skip + count <= |s| then count else |s| - skip)
              && forall k :: 0 <= k < |w| ==> w[k] == s[skip + k]
  {
    if skip >= |s| then []
    else if limit == 0 then s[skip..]
    else
      var count := if limit < 0 then -limit else limit;
      if skip + count <= |s| then s[skip..skip + count] else s[skip..]
  }

  /** What POST /fetch-profiles answers. */
  datatype Listing = Listing(resp: Response, profiles: seq<User>, totalProfiles: nat, totalPages: Pages,
                             page: int, limit: int)

  /** Page and limit with their defaults 1 and 10. */
  function PageOf(page: Option<int>): int { page.GetOr(1) }
  function LimitOf(limit: Option<int>): int { limit.GetOr(10) }

  /** The number of profiles to skip; the database refuses a negative one. */
  function Skip(page: Option<int>, limit: Option<int>): int {
    (PageOf(page) - 1) * LimitOf(limit)
  }

  /** The profiles `me` may discover, in stored order. */
  function Matches(users: seq<User>, me: User, f: Filters): (m: seq<User>)
    requires Truthy(me.profile.gender)
    ensures forall u :: u in m <==> u in users && Shown(me, TargetGender(me.profile.gender.value), f, u)
  {
    var target := TargetGender(me.profile.gender.value);
    Filter(users, (u: User) => Shown(me, target, f, u))
  }

  /** POST /fetch-profiles: 400 for a user without a gender, 500 when the
      skip comes out negative; otherwise the page of matching profiles with
      the total count of matches and the page count. */
  function FetchProfiles(users: seq<User>, me: User, page: Option<int>, limit: Option<int>, f: Filters): (r: Listing)
    ensures r.resp.status == 400 <==> !Truthy(me.profile.gender)
    ensures r.resp.status == 500 <==> Truthy(me.profile.gender) && Skip(page, limit) < 0
    ensures r.resp.status != 200 ==> r.profiles == []
    ensures r.resp.status == 200 ==>
              && r.totalProfiles == |Matches(users, me, f)|
              && r.totalPages == TotalPages(r.totalProfiles, LimitOf(limit))
              && r.profiles == Window(Matches(users, me, f), Skip(page, limit), LimitOf(limit))
              && r.page == PageOf(page) && r.limit == LimitOf(limit)
  {
    if !Truthy(me.profile.gender) then Listing(Response(400, "Current user gender not set"), [], 0, Finite(0), 0, 0)
    else if Skip(page, limit) < 0 then Listing(Response(500, "Server error"), [], 0, Finite(0), 0, 0)
    else
      var m := Matches(users, me, f);
      Listing(Response(200, "ok"), Window(m, Skip(page, limit), LimitOf(limit)), |m|,
              TotalPages(|m|, LimitOf(limit)), PageOf(page), LimitOf(limit))
  }

  /** Whatever the page, a listed profile is a stored user of the shown
      gender, neither the user themself nor anyone they have interacted
      with or hidden, not hidden by its owner, and within the inclusive age
      bounds that are given. */
  lemma FetchExcludes(users: seq<User>, me: User, page: Option<int>, limit: Option<int>, f: Filters, u: User)
    requires u in FetchProfiles(users, me, page, limit, f).profiles
    ensures u in users
    ensures Lower(u.profile.gender.value) == TargetGender(me.profile.gender.value)
    ensures u.id != me.id
    ensures u.id !in me.interests.sent && u.id !in me.interests.received
    ensures u.id !in me.interests.accepted && u.id !in me.interests.declined && u.id !in me.hideProfiles
    ensures u.isHidden == Some(false)
    ensures Given(f.ageFrom) ==> u.profile.age.Some? && f.ageFrom.value <= u.profile.age.value
    ensures Given(f.ageTo) ==> u.profile.age.Some? && u.profile.age.value <= f.ageTo.value
  {
    var r := FetchProfiles(users, me, page, limit, f);
    var m := Matches(users, me, f);
    WindowWithin(m, Skip(page, limit), LimitOf(limit), u);
    assert Shown(me, TargetGender(me.profile.gender.value), f, u);
  }

  /** Anything a window lists comes from the sequence it windows. */
  lemma WindowWithin<T>(s: seq<T>, skip: nat, limit: int, x: T)
    requires x in Window(s, skip, limit)
    ensures x in s
  {
    var w := Window(s, skip, limit);
    var k :| 0 <= k < |w| && w[k] == x;
    assert w[k] == s[skip + k];
  }

  /** A user fresh from registration is discovered by nobody: discovery
      asks for `isHidden` to be false, and registration leaves it unset. */
  lemma NewUserNotDiscovered(users: seq<User>, req: Credentials.Registration, newId: Id, imageUrls: seq<string>,
                             ageOf: string -> int, me: User, target: string, f: Filters)
    requires Credentials.Register(users, req, newId, imageUrls, ageOf).resp.status == 200
    ensures !Shown(me, target, f, Credentials.Register(users, req, newId, imageUrls, ageOf).state[|users|])
  {
  }

  /** With a positive limit every match is listed: the k-th one (from 0)
      is entry k mod limit of page k div limit + 1. */
  lemma FetchFindsEveryMatch(users: seq<User>, me: User, limit: int, f: Filters, k: nat)
    requires Truthy(me.profile.gender) && limit > 0 && k < |Matches(users, me, f)|
    ensures var r := FetchProfiles(users, me, Some(k / limit + 1), Some(limit), f);
            && r.resp.status == 200
            && k % limit < |r.profiles|
            && r.profiles[k % limit] == Matches(users, me, f)[k]
  {
    var m := Matches(users, me, f);
    var s := Skip(Some(k / limit + 1), Some(limit));
    PageStart(k, limit);
    var w := Window(m, s, limit);
    assert w[k % limit] == m[s + k % limit];
  }

  /** The page holding position `k` starts at `k` less its offset. */
  lemma PageStart(k: nat, limit: int)
    requires limit > 0
    ensures Skip(Some(k / limit + 1), Some(limit)) + k % limit == k
    ensures 0 <= k % limit < limit
  {
    assert Skip(Some(k / limit + 1), Some(limit)) == (k / limit) * limit;
  }

  /** Lower-casing leaves a string without upper-case ASCII letters as it is. */
  lemma LowerOfLower(s: string)
    requires forall i :: 0 <= i < |s| ==> !('A' <= s[i] <= 'Z')
    ensures Lower(s) == s
  {
  }

  /** The gender rule is mutual: when a user who reads as male is shown a
      profile, that profile's owner is shown male profiles, and the first
      user's gender matches it. */
  lemma MutualDiscovery(a: string, b: string)
    requires Lower(a) == "male" && Lower(b) == TargetGender(a)
    ensures TargetGender(b) == "male" && Lower(a) == TargetGender(b)
  {
    LowerOfLower("female");
    assert Lower(b) == "female";
  }

  // ---------------------------------------------------------------------------
  // Profile update
  // ---------------------------------------------------------------------------

  /** A present value replaces the stored one. */
  function Over<T>(stored: Option<T>, given: Option<T>): (v: Option<T>)
    ensures given.Some? ==> v == given
    ensures given.None? ==> v == stored
  {
    if given.Some? then given else stored
  }

  /** The `basic` object of an update: the discovery attributes it may set,
      the contact and credential fields, its images, and any other keys,
      kept as text. */
  datatype BasicPatch = BasicPatch(
    gender: Option<string>,
    age: Option<int>,
    martialStatus: Option<string>,
    subCaste: Option<string>,
    qualification: Option<string>,
    email: Option<string>,
    mobile: Option<string>,
    alternateMob: Option<string>,
    fullName: Option<string>,
    password: Option<string>,
    images: Option<seq<string>>,
    other: map<string, string>)

  /** The `basic` object of a body that has none. */
  const NoPatch := BasicPatch(None, None, None, None, None, None, None, None, None, None, None, map[])

  /** The `personal` object of an update; when present it replaces the
      stored personal section as a whole. */
  datatype PersonalPatch = PersonalPatch(employedIn: Option<string>, country: Option<string>)

  /** The request body of POST /my-profile. Besides the sections the form
      sends, the body may carry any other top-level key; the ones modelled
      are the interest ledger and the two moderation flags. */
  datatype UpdateBody = UpdateBody(
    basic: Option<BasicPatch>,
    personal: Option<PersonalPatch>,
    partner: Option<map<string, PartnerValue>>,
    interests: Option<Interests>,
    isVerified: Option<bool>,
    isCorrupted: Option<bool>)

  /** One partner-preference value of an array field: an array is kept, a
      string is split on "," with each piece trimmed, anything else becomes
      the empty array. */
  function AsArray(v: PartnerValue): (a: PartnerValue)
    ensures a.PArray?
    ensures v.PArray? ==> a == v
    ensures v.PString? ==> |a.items| == |Split(v.text, ',')|
    ensures v.PString? ==> forall k :: 0 <= k < |a.items| ==> a.items[k] == Trim(Split(v.text, ',')[k])
    ensures v.POther? ==> a.items == []
  {
    match v
    case PArray(_) => v
    case PString(s) => PArray(TrimAll(Split(s, ',')))
    case POther => PArray([])
  }

  /** The partner preferences with every array field normalised; the other
      keys are kept as given. */
  function NormalizePartner(p: map<string, PartnerValue>, arrayFields: set<string>): (q: map<string, PartnerValue>)
    ensures q.Keys == p.Keys
    ensures forall k :: k in q && k in arrayFields ==> q[k] == AsArray(p[k]) && q[k].PArray?
    ensures forall k :: k in q && k !in arrayFields ==> q[k] == p[k]
  {
    map k | k in p :: if k in arrayFields then AsArray(p[k]) else p[k]
  }

  /** Normalising normalised preferences changes nothing. */
  lemma NormalizePartnerIdempotent(p: map<string, PartnerValue>, arrayFields: set<string>)
    ensures NormalizePartner(NormalizePartner(p, arrayFields), arrayFields) == NormalizePartner(p, arrayFields)
  {
    var q := NormalizePartner(p, arrayFields);
    assert NormalizePartner(q, arrayFields) == q;
  }

  /** A comma-separated list whose pieces carry no surrounding spaces is
      recovered by joining the array it becomes. */
  lemma ListRoundTrip(s: string)
    requires forall k :: 0 <= k < |Split(s, ',')| ==> Trim(Split(s, ',')[k]) == Split(s, ',')[k]
    ensures Join(AsArray(PString(s)).items, ',') == s
  {
    var parts := Split(s, ',');
    assert TrimAll(parts) == parts;
    JoinSplit(s, ',');
  }

  /** The images after an update: a non-empty new list replaces the stored
      one, an empty or absent one keeps it. */
  function FinalImages(stored: seq<string>, given: Option<seq<string>>): (imgs: seq<string>)
    ensures given.Some? && |given.value| > 0 ==> imgs == given.value
    ensures given.None? || |given.value| == 0 ==> imgs == stored
  {
    if given.Some? && |given.value| > 0 then given.value else stored
  }

  /** The stored user after the intended update: `basic` merged over the
      stored basic section with the image rule, `personal` replacing the
      stored one when given, the partner preferences replaced by the
      normalised ones given (none given clears them), and the profile
      marked complete. The stored `basic.password` is kept: only the reset
      route writes it, hashed. */
  function Updated(u: User, body: UpdateBody, arrayFields: set<string>): User {
    var b := body.basic.GetOr(NoPatch);
    var pr := u.profile;
    var pr1 := pr.(gender := Over(pr.gender, b.gender), age := Over(pr.age, b.age),
                   martialStatus := Over(pr.martialStatus, b.martialStatus),
                   subCaste := Over(pr.subCaste, b.subCaste),
                   qualification := Over(pr.qualification, b.qualification));
    var pr2 := if body.personal.Some? then pr1.(employedIn := body.personal.value.employedIn,
                                                country := body.personal.value.country)
               else pr1;
    var bs := u.basic;
    var bs' := bs.(email := Over(bs.email, b.email), mobile := Over(bs.mobile, b.mobile),
                   alternateMob := Over(bs.alternateMob, b.alternateMob), fullName := Over(bs.fullName, b.fullName),
                   images := FinalImages(bs.images, b.images), other := bs.other + b.other);
    u.(profile := pr2, basic := bs',
       partner := NormalizePartner(body.partner.GetOr(map[]), arrayFields),
       hasCompleteProfile := Some(true))
  }

  /** POST /my-profile with the update restricted to the profile sections:
      404 for an unknown user; otherwise the `basic` fields given replace the
      stored ones (a non-empty image list replaces the images, other keys
      are added), a given `personal` section replaces the stored one, the
      partner preferences become the normalised ones given and the profile
      is marked complete, while the stored password, the interest ledger,
      the payments, the astrology requests, the hidden list, the registration
      fields and every other flag stay as stored: only `profile`, `basic`,
      `partner` and the completeness flag of the user change. */
  function UpdateProfile(users: seq<User>, currentId: Id, body: UpdateBody, arrayFields: set<string>): (r: Reply<seq<User>>)
    ensures r.resp.status == 404 <==> FindById(users, currentId).None?
    ensures r.resp.status == 404 ==> r.state == users
    ensures SameIds(users, r.state)
    ensures r.resp.status == 200 ==>
              var i := FindById(users, currentId).value;
              var u := users[i];
              var v := r.state[i];
              var b := body.basic.GetOr(NoPatch);
              && OthersUnchanged(users, r.state, i)
              && v.hasCompleteProfile == Some(true)
              && v == u.(profile := v.profile, basic := v.basic, partner := v.partner, hasCompleteProfile := v.hasCompleteProfile)
              && v.interests == u.interests && v.transactions == u.transactions
              && v.astrology == u.astrology && v.hideProfiles == u.hideProfiles
              && v.email == u.email && v.password == u.password && v.uniqueId == u.uniqueId
              && v.isHidden == u.isHidden && v.isVerified == u.isVerified && v.isCorrupted == u.isCorrupted
              && v.basic.password == u.basic.password
              && v.basic.images == FinalImages(u.basic.images, b.images)
              && (b.email.Some? ==> v.basic.email == b.email) && (b.email.None? ==> v.basic.email == u.basic.email)
              && (b.mobile.Some? ==> v.basic.mobile == b.mobile) && (b.mobile.None? ==> v.basic.mobile == u.basic.mobile)
              && (b.gender.Some? ==> v.profile.gender == b.gender) && (b.gender.None? ==> v.profile.gender == u.profile.gender)
              && (b.age.Some? ==> v.profile.age == b.age) && (b.age.None? ==> v.profile.age == u.profile.age)
              && (b.martialStatus.Some? ==> v.profile.martialStatus == b.martialStatus)
              && (b.martialStatus.None? ==> v.profile.martialStatus == u.profile.martialStatus)
              && (b.subCaste.Some? ==> v.profile.subCaste == b.subCaste)
              && (b.subCaste.None? ==> v.profile.subCaste == u.profile.subCaste)
              && (b.qualification.Some? ==> v.profile.qualification == b.qualification)
              && (b.qualification.None? ==> v.profile.qualification == u.profile.qualification)
              && (b.alternateMob.Some? ==> v.basic.alternateMob == b.alternateMob)
              && (b.alternateMob.None? ==> v.basic.alternateMob == u.basic.alternateMob)
              && (b.fullName.Some? ==> v.basic.fullName == b.fullName)
              && (b.fullName.None? ==> v.basic.fullName == u.basic.fullName)
              && v.basic.other.Keys == u.basic.other.Keys + b.other.Keys
              && (forall k :: k in b.other ==> v.basic.other[k] == b.other[k])
              && (forall k :: k in u.basic.other && k !in b.other ==> v.basic.other[k] == u.basic.other[k])
              && (body.personal.Some? ==>
                    v.profile.employedIn == body.personal.value.employedIn && v.profile.country == body.personal.value.country)
              && (body.personal.None? ==>
                    v.profile.employedIn == u.profile.employedIn && v.profile.country == u.profile.country)
              && v.partner == NormalizePartner(body.partner.GetOr(map[]), arrayFields)
              && v.partner.Keys == (if body.partner.Some? then body.partner.value.Keys else {})
  {
    match FindById(users, currentId)
    case None => Reply(Response(404, "User not found"), users)
    case Some(i) => Reply(Response(200, "ok"), users[i := Updated(users[i], body, arrayFields)])
  }

  /** POST /my-profile as written: the whole request body is spread into
      the update before the profile sections, so a top-level `interests`,
      `isVerified` or `isCorrupted` in the body is saved as well, and a
      `basic.password` in the body is merged like any other `basic` field
      and stored as plain text. */
  function UpdateProfileAsWritten(users: seq<User>, currentId: Id, body: UpdateBody, arrayFields: set<string>): (r: Reply<seq<User>>)
    ensures r.resp.status == 404 <==> FindById(users, currentId).None?
    ensures r.resp.status == 404 ==> r.state == users
    ensures r.resp.status == 200 ==>
              var i := FindById(users, currentId).value;
              var b := body.basic.GetOr(NoPatch);
              && OthersUnchanged(users, r.state, i)
              && r.state[i].interests == Over(Some(users[i].interests), body.interests).value
              && r.state[i].isVerified == Over(users[i].isVerified, body.isVerified)
              && r.state[i].isCorrupted == Over(users[i].isCorrupted, body.isCorrupted)
              && (b.password.Some? ==> r.state[i].basic.password == Some(Unhashed(b.password.value)))
              && (b.password.None? ==> r.state[i].basic.password == users[i].basic.password)
  {
    match FindById(users, currentId)
    case None => Reply(Response(404, "User not found"), users)
    case Some(i) =>
      var v := Updated(users[i], body, arrayFields);
      var b := body.basic.GetOr(NoPatch);
      var pw := if b.password.Some? then Some(Unhashed(b.password.value)) else v.basic.password;
      Reply(Response(200, "ok"),
            users[i := v.(interests := Over(Some(v.interests), body.interests).value,
                          isVerified := Over(v.isVerified, body.isVerified),
                          isCorrupted := Over(v.isCorrupted, body.isCorrupted),
                          basic := v.basic.(password := pw))])
  }

  /** As written, a password sent with a profile update replaces the
      stored one unhashed, so the reset route's hashed password is lost. */
  lemma PlainPasswordOverwritesReset(users: seq<User>, currentId: Id, body: UpdateBody, arrayFields: set<string>, pw: string)
    requires FindById(users, currentId).Some?
    requires body.basic.Some? && body.basic.value.password == Some(pw)
    ensures var i := FindById(users, currentId).value;
            var v := UpdateProfileAsWritten(users, currentId, body, arrayFields).state[i];
            && v.basic.password == Some(Unhashed(pw))
            && v.basic.password != Some(Hashed(pw))
  {
  }

  /** As written, a signed-in user can verify themself, clear a corrupted
      mark and grant themself any interest credit by adding those keys to a
      profile update. */
  lemma SelfServiceModeration(users: seq<User>, currentId: Id, body: UpdateBody, arrayFields: set<string>, credit: int)
    requires FindById(users, currentId).Some?
    requires body.isVerified == Some(true) && body.isCorrupted == Some(false)
    requires body.interests == Some(Interests([], [], [], [], [], Some(credit)))
    ensures var i := FindById(users, currentId).value;
            var v := UpdateProfileAsWritten(users, currentId, body, arrayFields).state[i];
            && IsSet(v.isVerified) && !IsSet(v.isCorrupted)
            && Remaining(v.interests) == credit
  {
  }

  /** The intended update leaves the ledger and the moderation flags to
      their own routes: whatever the body carries, the remaining credit and
      the verified and corrupted flags are those stored before. */
  lemma UpdateKeepsLedger(users: seq<User>, currentId: Id, body: UpdateBody, arrayFields: set<string>)
    requires FindById(users, currentId).Some?
    ensures var i := FindById(users, currentId).value;
            var v := UpdateProfile(users, currentId, body, arrayFields).state[i];
            && Remaining(v.interests) == Remaining(users[i].interests)
            && v.isVerified == users[i].isVerified && v.isCorrupted == users[i].isCorrupted
  {
  }

  /** What GET /my-profile answers. */
  datatype ProfileView = ProfileView(resp: Response, profile: Option<User>)

  /** GET /my-profile: the signed-in user's stored document, or 404. */
  function MyProfile(users: seq<User>, currentId: Id): (v: ProfileView)
    ensures v.resp.status == 404 <==> FindById(users, currentId).None?
    ensures v.profile.Some? <==> v.resp.status == 200
    ensures v.profile.Some? ==> v.profile.value in users && v.profile.value.id == currentId
  {
    match FindById(users, currentId)
    case None => ProfileView(Response(404, "User not found"), None)
    case Some(i) => ProfileView(Response(200, "ok"), Some(users[i]))
  }

  /** After an update the profile page shows a complete profile whose
      partner preferences are the normalised ones sent; a second identical
      update leaves the preferences as they are. */
  lemma UpdateThenRead(users: seq<User>, currentId: Id, body: UpdateBody, arrayFields: set<string>)
    requires FindById(users, currentId).Some?
    ensures var s := UpdateProfile(users, currentId, body, arrayFields).state;
            var v := MyProfile(s, currentId).profile;
            && v.Some? && v.value.hasCompleteProfile == Some(true)
            && v.value.partner == NormalizePartner(body.partner.GetOr(map[]), arrayFields)
  {
    var s := UpdateProfile(users, currentId, body, arrayFields).state;
    FindByIdSameIds(users, s, currentId);
  }
}

=== FILE: registration_otp.dfy ===
/** The registration OTP flow: one code for the email and one for the
    mobile, stored together as a JSON record under the same `otp:<email>` key
    the password-reset flow uses, and verified together. The generated codes
    are parameters; `delivered` says whether sending the email and WhatsApp
    messages succeeded. */
module RegistrationOtp {
  import opened Wrappers
  import opened Js
  import opened Store
  import opened Cache
  import opened Json
  import PasswordReset

  const RecordTtl := 300

  /** POST /send-otp. Both fields are required (400); an email or mobile a
      user already has as `basic.email` or `basic.mobile` gives 400; otherwise the record, expiring five minutes
      from `now`, is stored for five minutes. A failed delivery gives 500
      but the record stays stored. */
  function SendOtp(users: seq<User>, kv: Kv, email: Option<string>, mobile: Option<string>,
                   emailOtp: string, mobileOtp: string, delivered: bool, now: nat): (r: Reply<Kv>)
    ensures r.resp == Response(400, "Email and mobile are required") <==> !Truthy(email) || !Truthy(mobile)
    ensures r.resp == Response(400, "Mail Id already registered") <==>
              Truthy(email) && Truthy(mobile) && FindByBasicEmail(users, email).Some?
    ensures r.resp == Response(400, "Mobile number already registered") <==>
              Truthy(email) && Truthy(mobile) && FindByBasicEmail(users, email).None? && FindByBasicMobile(users, mobile).Some?
    ensures r.resp.status == 400 ==> r.state == kv
    ensures r.resp.status != 400 ==>
              && mobile.Some?
              && r.resp.status == (if delivered then 200 else 500)
              && (forall t :: now <= t < now + RecordTtl * 1000 ==>
                    Get(r.state, OtpKey(email), t) == Some(Stringify(OtpRecord(emailOtp, mobileOtp, mobile.value, now + 300_000))))
              && (forall t :: now + RecordTtl * 1000 <= t ==> Get(r.state, OtpKey(email), t).None?)
              && (forall k, t :: k != OtpKey(email) ==> Get(r.state, k, t) == Get(kv, k, t))
  {
    if !Truthy(email) || !Truthy(mobile) then Reply(Response(400, "Email and mobile are required"), kv)
    else if FindByBasicEmail(users, email).Some? then Reply(Response(400, "Mail Id already registered"), kv)
    else if FindByBasicMobile(users, mobile).Some? then Reply(Response(400, "Mobile number already registered"), kv)
    else
      var record := OtpRecord(emailOtp, mobileOtp, mobile.value, now + 5 * 60 * 1000);
      var kv' := SetEx(kv, OtpKey(email), RecordTtl, Stringify(record), now);
      if delivered then Reply(Response(200, "OTP sent to email and mobile"), kv')
      else Reply(Response(500, "Failed to send OTP"), kv')
  }

  /** POST /verify-otp-registration. No live value: 400. A value that is not
      JSON, or is `null`, makes the route fail with 500. Then the email code,
      then the mobile code, must equal the record's (a primitive value has
      neither, so only absent codes match it); a mismatch gives 400 and keeps
      the value. Success consumes the key. */
  function VerifyRegistration(kv: Kv, email: Option<string>, emailOtp: Option<string>, mobileOtp: Option<string>,
                              now: int): (r: Reply<Kv>)
    ensures var stored := Get(kv, OtpKey(email), now);
            && (r.resp == Response(400, "OTP not found or expired") <==> !Truthy(stored))
            && (r.resp.status == 500 <==> Truthy(stored) && JsonParse(stored.value).None?)
            && (r.resp.status == 200 <==>
                  && Truthy(stored) && JsonParse(stored.value).Some?
                  && EmailOtpField(JsonParse(stored.value).value) == emailOtp
                  && MobileOtpField(JsonParse(stored.value).value) == mobileOtp)
    ensures r.resp.status != 200 ==> r.state == kv
    ensures r.resp.status == 200 ==>
              && (forall t :: Get(r.state, OtpKey(email), t).None?)
              && (forall k, t :: k != OtpKey(email) ==> Get(r.state, k, t) == Get(kv, k, t))
  {
    var stored := Get(kv, OtpKey(email), now);
    if !Truthy(stored) then Reply(Response(400, "OTP not found or expired"), kv)
    else match JsonParse(stored.value)
      case None => Reply(Response(500, "Server error"), kv)
      case Some(record) =>
        if EmailOtpField(record) != emailOtp then Reply(Response(400, "Invalid email OTP"), kv)
        else if MobileOtpField(record) != mobileOtp then Reply(Response(400, "Invalid phone OTP"), kv)
        else Reply(Response(200, "Email and phone verified successfully!"), Del(kv, OtpKey(email)))
  }

  /** The record the send route stores reads back, within five minutes, with
      both of its codes: presenting them verifies the email and mobile and
      consumes the record. */
  lemma SendThenVerify(users: seq<User>, kv: Kv, email: Option<string>, mobile: Option<string>,
                       emailOtp: string, mobileOtp: string, delivered: bool, now: nat, later: int)
    requires SendOtp(users, kv, email, mobile, emailOtp, mobileOtp, delivered, now).resp.status != 400
    requires now <= later < now + RecordTtl * 1000
    ensures var kv1 := SendOtp(users, kv, email, mobile, emailOtp, mobileOtp, delivered, now).state;
            var r := VerifyRegistration(kv1, email, Some(emailOtp), Some(mobileOtp), later);
            && r.resp.status == 200
            && Get(r.state, OtpKey(email), later).None?
  {
    var record := OtpRecord(emailOtp, mobileOtp, mobile.value, now + 300_000);
    var kv1 := SendOtp(users, kv, email, mobile, emailOtp, mobileOtp, delivered, now).state;
    assert Get(kv1, OtpKey(email), later) == Some(Stringify(record));
    ParseStringify(record);
    assert Stringify(record)[0] == '{';
  }

  /** A wrong email code is refused before the mobile code is looked at, and
      the record survives for another attempt. */
  lemma WrongEmailCodeKeepsRecord(users: seq<User>, kv: Kv, email: Option<string>, mobile: Option<string>,
                                  emailOtp: string, mobileOtp: string, guess: Option<string>, phoneGuess: Option<string>,
                                  delivered: bool, now: nat, later: int)
    requires SendOtp(users, kv, email, mobile, emailOtp, mobileOtp, delivered, now).resp.status != 400
    requires now <= later < now + RecordTtl * 1000 && guess != Some(emailOtp)
    ensures var kv1 := SendOtp(users, kv, email, mobile, emailOtp, mobileOtp, delivered, now).state;
            VerifyRegistration(kv1, email, guess, phoneGuess, later) == Reply(Response(400, "Invalid email OTP"), kv1)
  {
    var record := OtpRecord(emailOtp, mobileOtp, mobile.value, now + 300_000);
    ParseStringify(record);
    assert Stringify(record)[0] == '{';
  }

  /** The two flows share the `otp:<email>` key. A pending password-reset
      code made of digits without a leading zero parses as a number, whose
      `emailOtp` and `mobileOtp` are undefined: a registration verification
      that sends neither code succeeds and consumes the reset code. */
  lemma ResetCodePassesRegistration(users: seq<User>, kv: Kv, email: Option<string>, otp: string, now: int, later: int)
    requires PasswordReset.RequestReset(users, kv, email, otp, now).resp.status == 200
    requires IsJsonNat(otp) && now <= later < now + PasswordReset.OtpTtl * 1000
    ensures var kv1 := PasswordReset.RequestReset(users, kv, email, otp, now).state;
            var r := VerifyRegistration(kv1, email, None, None, later);
            && r.resp.status == 200
            && PasswordReset.VerifyOtp(r.state, email, Some(otp), later).resp == Response(400, "OTP not found or expired")
  {
    var kv1 := PasswordReset.RequestReset(users, kv, email, otp, now).state;
    assert Get(kv1, OtpKey(email), later) == Some(otp);
    var r := VerifyRegistration(kv1, email, None, None, later);
    assert Get(r.state, OtpKey(email), later).None?;
  }

  /** A pending reset code with a leading zero is not valid JSON: the
      registration verification fails with 500 whatever it sends. */
  lemma LeadingZeroResetCodeBreaksRegistration(users: seq<User>, kv: Kv, email: Option<string>, otp: string,
                                                emailOtp: Option<string>, mobileOtp: Option<string>, now: int, later: int)
    requires PasswordReset.RequestReset(users, kv, email, otp, now).resp.status == 200
    requires |otp| == 6 && otp[0] == '0' && now <= later < now + PasswordReset.OtpTtl * 1000
    ensures var kv1 := PasswordReset.RequestReset(users, kv, email, otp, now).state;
            VerifyRegistration(kv1, email, emailOtp, mobileOtp, later).resp == Response(500, "Server error")
  {
    var kv1 := PasswordReset.RequestReset(users, kv, email, otp, now).state;
    assert Get(kv1, OtpKey(email), later) == Some(otp);
    assert StripPrefix(otp, EmailKey).None? by {
      assert otp[0] != EmailKey[0];
    }
    assert otp != "true" && otp != "false";
  }
}

=== FILE: reset_pwd.dfy ===
/** The password-reset flow: request a six-digit code by email, verify it
    (which leaves a ten-minute "verified" marker), then set the new password.
    The generated code is the parameter `otp`; sending the email and a
    failing store are outside the model.

    As written, the flow looks users up by `basic.email` and writes
    `basic.password`, while login reads the top-level `email` and
    `password`: a reset never changes what login accepts. The module models
    that flow and, next to it, the flow on the login fields. */
module PasswordReset {
  import opened Wrappers
  import opened Js
  import opened Store
  import opened Cache
  import Credentials

  const OtpTtl := 300
  const VerifiedTtl := 600

  /** The users collection together with the key-value store. */
  datatype World = World(users: seq<User>, kv: Kv)

  /** POST /request-reset as written. A falsy email gives 400, an email no
      user has as `basic.email` gives 404; otherwise the code is stored for five minutes under `otp:<email>`,
      replacing any earlier code. */
  function RequestReset(users: seq<User>, kv: Kv, email: Option<string>, otp: string, now: int): (r: Reply<Kv>)
    ensures r.resp.status == 400 <==> !Truthy(email)
    ensures r.resp.status == 404 <==> Truthy(email) && FindByBasicEmail(users, email).None?
    ensures r.resp.status == 200 <==> Truthy(email) && FindByBasicEmail(users, email).Some?
    ensures r.resp.status != 200 ==> r.state == kv
    ensures r.resp.status == 200 ==>
              && (forall t :: now <= t < now + OtpTtl * 1000 ==> Get(r.state, OtpKey(email), t) == Some(otp))
              && (forall t :: now + OtpTtl * 1000 <= t ==> Get(r.state, OtpKey(email), t).None?)
              && (forall k, t :: k != OtpKey(email) ==> Get(r.state, k, t) == Get(kv, k, t))
  {
    if !Truthy(email) then Reply(Response(400, "Email is required"), kv)
    else if FindByBasicEmail(users, email).None? then Reply(Response(404, "User not found"), kv)
    else Reply(Response(200, "OTP sent to your registered email"), SetEx(kv, OtpKey(email), OtpTtl, otp, now))
  }

  /** POST /request-reset looking the email up among login emails, as the
      rest of the flow needs for the new password to reach login. */
  function RequestLoginReset(users: seq<User>, kv: Kv, email: Option<string>, otp: string, now: int): (r: Reply<Kv>)
    ensures r.resp.status == 400 <==> !Truthy(email)
    ensures r.resp.status == 404 <==> Truthy(email) && FindByEmail(users, email).None?
    ensures r.resp.status == 200 <==> Truthy(email) && FindByEmail(users, email).Some?
    ensures r.resp.status != 200 ==> r.state == kv
    ensures r.resp.status == 200 ==>
              && (forall t :: now <= t < now + OtpTtl * 1000 ==> Get(r.state, OtpKey(email), t) == Some(otp))
              && (forall t :: now + OtpTtl * 1000 <= t ==> Get(r.state, OtpKey(email), t).None?)
              && (forall k, t :: k != OtpKey(email) ==> Get(r.state, k, t) == Get(kv, k, t))
  {
    if !Truthy(email) then Reply(Response(400, "Email is required"), kv)
    else if FindByEmail(users, email).None? then Reply(Response(404, "User not found"), kv)
    else Reply(Response(200, "OTP sent to your registered email"), SetEx(kv, OtpKey(email), OtpTtl, otp, now))
  }

  /** POST /verify-otp. A missing, expired or empty stored code gives 400 "OTP
      not found or expired"; a code other than the stored one gives 400
      "Invalid OTP" and keeps it; the right code is consumed and the
      `otp_verified:<email>` marker set for ten minutes. */
  function VerifyOtp(kv: Kv, email: Option<string>, otp: Option<string>, now: int): (r: Reply<Kv>)
    ensures var stored := Get(kv, OtpKey(email), now);
            && (r.resp == Response(400, "OTP not found or expired") <==> !Truthy(stored))
            && (r.resp == Response(400, "Invalid OTP") <==> Truthy(stored) && stored != otp)
            && (r.resp.status == 200 <==> Truthy(stored) && stored == otp)
    ensures r.resp.status != 200 ==> r.state == kv
    ensures r.resp.status == 200 ==>
              && (forall t :: Get(r.state, OtpKey(email), t).None?)
              && (forall t :: now <= t < now + VerifiedTtl * 1000 ==> Get(r.state, VerifiedKey(email), t) == Some("true"))
              && (forall t :: now + VerifiedTtl * 1000 <= t ==> Get(r.state, VerifiedKey(email), t).None?)
              && (forall k, t :: k != OtpKey(email) && k != VerifiedKey(email) ==> Get(r.state, k, t) == Get(kv, k, t))
  {
    var stored := Get(kv, OtpKey(email), now);
    if !Truthy(stored) then Reply(Response(400, "OTP not found or expired"), kv)
    else if stored != otp then Reply(Response(400, "Invalid OTP"), kv)
    else
      KeysDistinct(email, email);
      Reply(Response(200, "OTP verified successfully"),
            SetEx(Del(kv, OtpKey(email)), VerifiedKey(email), VerifiedTtl, "true", now))
  }

  /** POST /reset-password as written. Without a live marker: 400. Without a
      new password the hash call throws: 500, nothing changes. Otherwise the
      first user whose `basic.email` matches (if any) gets the new password's
      hash as `basic.password` and the marker is consumed; the answer is 200
      even when no user matched. */
  function ResetPassword(w: World, email: Option<string>, newPassword: Option<string>, now: int): (r: Reply<World>)
    ensures r.resp.status == 400 <==> !Truthy(Get(w.kv, VerifiedKey(email), now))
    ensures r.resp.status == 500 <==> Truthy(Get(w.kv, VerifiedKey(email), now)) && newPassword.None?
    ensures r.resp.status != 200 ==> r.state == w
    ensures r.resp.status == 200 ==>
              && newPassword.Some?
              && |r.state.users| == |w.users|
              && (forall k :: 0 <= k < |w.users| && Some(k) != FindByBasicEmail(w.users, email) ==> r.state.users[k] == w.users[k])
              && (FindByBasicEmail(w.users, email).Some? ==>
                    var i := FindByBasicEmail(w.users, email).value;
                    r.state.users[i] == w.users[i].(basic := w.users[i].basic.(password := Some(Hashed(newPassword.value)))))
              && (forall t :: Get(r.state.kv, VerifiedKey(email), t).None?)
              && (forall k, t :: k != VerifiedKey(email) ==> Get(r.state.kv, k, t) == Get(w.kv, k, t))
  {
    if !Truthy(Get(w.kv, VerifiedKey(email), now)) then Reply(Response(400, "OTP not verified or expired"), w)
    else if newPassword.None? then Reply(Response(500, "Server error"), w)
    else
      var users := match FindByBasicEmail(w.users, email)
                   case None => w.users
                   case Some(i) => w.users[i := w.users[i].(basic := w.users[i].basic.(password := Some(Hashed(newPassword.value))))];
      Reply(Response(200, "Password reset successful"), World(users, Del(w.kv, VerifiedKey(email))))
  }

  /** POST /reset-password writing the login password of the first user with
      that login email: the same answers, markers and frame as
      `ResetPassword`. */
  function ResetLoginPassword(w: World, email: Option<string>, newPassword: Option<string>, now: int): (r: Reply<World>)
    ensures r.resp.status == 400 <==> !Truthy(Get(w.kv, VerifiedKey(email), now))
    ensures r.resp.status == 500 <==> Truthy(Get(w.kv, VerifiedKey(email), now)) && newPassword.None?
    ensures r.resp.status != 200 ==> r.state == w
    ensures r.resp.status == 200 ==>
              && newPassword.Some?
              && |r.state.users| == |w.users|
              && (forall k :: 0 <= k < |w.users| && Some(k) != FindByEmail(w.users, email) ==> r.state.users[k] == w.users[k])
              && (FindByEmail(w.users, email).Some? ==>
                    var i := FindByEmail(w.users, email).value;
                    r.state.users[i] == w.users[i].(password := Hashed(newPassword.value)))
              && (forall t :: Get(r.state.kv, VerifiedKey(email), t).None?)
              && (forall k, t :: k != VerifiedKey(email) ==> Get(r.state.kv, k, t) == Get(w.kv, k, t))
  {
    if !Truthy(Get(w.kv, VerifiedKey(email), now)) then Reply(Response(400, "OTP not verified or expired"), w)
    else if newPassword.None? then Reply(Response(500, "Server error"), w)
    else
      var users := match FindByEmail(w.users, email)
                   case None => w.users
                   case Some(i) => w.users[i := w.users[i].(password := Hashed(newPassword.value))];
      Reply(Response(200, "Password reset successful"), World(users, Del(w.kv, VerifiedKey(email))))
  }

  /** The whole flow as written, for an email some user has as
      `basic.email`: requesting a code, verifying it within five minutes and
      resetting within ten minutes after that sets that user's
      `basic.password`, and the marker cannot be used a second time. */
  lemma ResetFlowSetsPassword(users: seq<User>, kv: Kv, email: string, otp: string, password: string,
                              t0: int, t1: int, t2: int)
    requires email != "" && otp != ""
    requires FindByBasicEmail(users, Some(email)).Some?
    requires t0 <= t1 < t0 + OtpTtl * 1000 && t1 <= t2 < t1 + VerifiedTtl * 1000
    ensures var r1 := RequestReset(users, kv, Some(email), otp, t0);
            var r2 := VerifyOtp(r1.state, Some(email), Some(otp), t1);
            var r3 := ResetPassword(World(users, r2.state), Some(email), Some(password), t2);
            var i := FindByBasicEmail(users, Some(email)).value;
            && r1.resp.status == 200 && r2.resp.status == 200 && r3.resp.status == 200
            && r3.state.users[i].basic.password == Some(Hashed(password))
            && ResetPassword(r3.state, Some(email), Some(password), t2).resp.status == 400
  {
    var r1 := RequestReset(users, kv, Some(email), otp, t0);
    assert Get(r1.state, OtpKey(Some(email)), t1) == Some(otp);
    var r2 := VerifyOtp(r1.state, Some(email), Some(otp), t1);
    assert Get(r2.state, VerifiedKey(Some(email)), t2) == Some("true");
  }

  /** A code is good for one verification: once accepted, presenting it
      again is answered as if no code existed. */
  lemma OtpSingleUse(kv: Kv, email: Option<string>, otp: Option<string>, now: int, later: int)
    requires VerifyOtp(kv, email, otp, now).resp.status == 200
    ensures VerifyOtp(VerifyOtp(kv, email, otp, now).state, email, otp, later).resp == Response(400, "OTP not found or expired")
  {
    var kv' := VerifyOtp(kv, email, otp, now).state;
    assert Get(kv', OtpKey(email), later).None?;
  }

  /** A code presented five minutes or more after it was requested has
      expired, right or wrong. */
  lemma OtpExpires(users: seq<User>, kv: Kv, email: Option<string>, otp: string, guess: Option<string>,
                   now: int, later: int)
    requires RequestReset(users, kv, email, otp, now).resp.status == 200
    requires later >= now + OtpTtl * 1000
    ensures VerifyOtp(RequestReset(users, kv, email, otp, now).state, email, guess, later).resp ==
              Response(400, "OTP not found or expired")
  {
    var kv' := RequestReset(users, kv, email, otp, now).state;
    assert Get(kv', OtpKey(email), later).None?;
  }

  /** Requesting a new code invalidates the previous one. */
  lemma NewCodeReplacesOld(users: seq<User>, kv: Kv, email: Option<string>, first: string, second: string,
                           t0: int, t1: int, t2: int)
    requires RequestReset(users, kv, email, first, t0).resp.status == 200
    requires second != "" && first != second && t1 <= t2 < t1 + OtpTtl * 1000
    ensures var kv1 := RequestReset(users, kv, email, first, t0).state;
            var kv2 := RequestReset(users, kv1, email, second, t1).state;
            && VerifyOtp(kv2, email, Some(first), t2).resp == Response(400, "Invalid OTP")
            && VerifyOtp(kv2, email, Some(second), t2).resp.status == 200
  {
    var kv1 := RequestReset(users, kv, email, first, t0).state;
    var kv2 := RequestReset(users, kv1, email, second, t1).state;
    assert Get(kv2, OtpKey(email), t2) == Some(second);
  }

  /** The as-written reset leaves every login answer as it was: it writes
      only `basic.password`, and login compares the top-level password. */
  lemma ResetMissesLogin(w: World, email: Option<string>, newPassword: Option<string>, now: int,
                         loginEmail: Option<string>, loginPassword: Option<string>)
    ensures var after := ResetPassword(w, email, newPassword, now).state.users;
            Credentials.Login(after, loginEmail, loginPassword).resp == Credentials.Login(w.users, loginEmail, loginPassword).resp
  {
    var after := ResetPassword(w, email, newPassword, now).state.users;
    assert Credentials.SameLogins(w.users, after);
    Credentials.LoginSeesOnlyCredentials(w.users, after, loginEmail, loginPassword);
  }

  /** A user created by registration has no `basic.email`, so the
      as-written request answers 404 for an email nobody had set there
      before, registration or not. */
  lemma RegistrantCannotRequestReset(users: seq<User>, req: Credentials.Registration, newId: Id, imageUrls: seq<string>,
                                     ageOf: string -> int, kv: Kv, email: Option<string>, otp: string, now: int)
    requires Truthy(email) && FindByBasicEmail(users, email).None?
    ensures var after := Credentials.Register(users, req, newId, imageUrls, ageOf).state;
            RequestReset(after, kv, email, otp, now).resp.status == 404
  {
  }

  /** The flow on the login fields: for a normalised login email, requesting
      a code, verifying it in time and resetting makes login with the new
      password succeed. */
  lemma LoginResetFlowReachesLogin(users: seq<User>, kv: Kv, email: string, otp: string, password: string,
                                   t0: int, t1: int, t2: int)
    requires email != "" && otp != "" && password != ""
    requires Credentials.Normalize(email) == email
    requires FindByEmail(users, Some(email)).Some?
    requires t0 <= t1 < t0 + OtpTtl * 1000 && t1 <= t2 < t1 + VerifiedTtl * 1000
    ensures var r1 := RequestLoginReset(users, kv, Some(email), otp, t0);
            var r2 := VerifyOtp(r1.state, Some(email), Some(otp), t1);
            var r3 := ResetLoginPassword(World(users, r2.state), Some(email), Some(password), t2);
            && r3.resp.status == 200
            && Credentials.Login(r3.state.users, Some(email), Some(password)).resp.status == 200
  {
    var r1 := RequestLoginReset(users, kv, Some(email), otp, t0);
    assert Get(r1.state, OtpKey(Some(email)), t1) == Some(otp);
    var r2 := VerifyOtp(r1.state, Some(email), Some(otp), t1);
    assert Get(r2.state, VerifiedKey(Some(email)), t2) == Some("true");
    var r3 := ResetLoginPassword(World(users, r2.state), Some(email), Some(password), t2);
    var i := FindByEmail(users, Some(email)).value;
    assert r3.state.users[i].password == Hashed(password);
    assert SameEmails(users, r3.state.users);
    FindByEmailSame(users, r3.state.users, Some(email));
  }
}

=== FILE: store.dfy ===
/** The persisted state the route handlers read and write: the user collection
    with its embedded interest lists, credit counter, transactions, astrology
    requests and visibility flags, plus the HTTP-level reply shape every
    handler returns. */
module Store {
  import opened Wrappers
  import opened Js
  import opened Collections

  /** A document id (`_id`), compared as its string form. */
  type Id = string

  /** A stored password. `Hashed(p)` abstracts the bcrypt hash of `p`:
      `bcrypt.compare(q, h)` is taken to hold exactly when `h == Hashed(q)`.
      `Unhashed(t)` is a plain text stored as it came, which no comparison
      accepts. */
  datatype Hash = Hashed(plain: string) | Unhashed(text: string)

  /** `interests`: who this user sent interest to, received it from, accepted,
      declined and whose contact they viewed, plus the purchased credit total.
      Missing lists are represented by the empty list; the total is optional,
      since registration does not set it. */
  datatype Interests = Interests(
    sent: seq<Id>,
    received: seq<Id>,
    accepted: seq<Id>,
    declined: seq<Id>,
    viewed: seq<Id>,
    totalNoOfInterest: Option<int>)

  /** One entry of `transactions`; every field is whatever the request body
      carried, possibly nothing. */
  datatype Transaction = Transaction(
    orderId: Option<string>,
    paymentId: Option<string>,
    amountPaid: Option<int>,
    noOfInterest: Option<int>,
    note: Option<string>)

  datatype AstroStatus = Pending | Completed

  /** The birth details of an astrology request, for the user and optionally
      for a partner (the `m`-prefixed fields). */
  datatype AstroRequest = AstroRequest(
    consultationMode: Option<string>,
    name: Option<string>,
    dob: Option<string>,
    place: Option<string>,
    gender: Option<string>,
    query: Option<string>,
    mName: Option<string>,
    mDob: Option<string>,
    mPlace: Option<string>,
    mGender: Option<string>)

  /** One entry of `astrology`, correlated with its delayed job by `uId`. */
  datatype AstroEntry = AstroEntry(
    uId: string,
    request: AstroRequest,
    status: AstroStatus,
    aiResponse: Option<string>)

  /** The attributes profile discovery filters on. */
  datatype Profile = Profile(
    gender: Option<string>,
    age: Option<int>,
    martialStatus: Option<string>,
    subCaste: Option<string>,
    qualification: Option<string>,
    employedIn: Option<string>,
    country: Option<string>)

  /** No discovery attribute set. */
  const NoProfile := Profile(None, None, None, None, None, None, None)

  /** A partner-preference value as a request body may carry it. */
  datatype PartnerValue = PArray(items: seq<string>) | PString(text: string) | POther

  /** The `basic` section's contact, credential and image fields. The
      password-reset, registration-code and middleware lookups, the contact
      details the interest routes reveal and the profile images all live
      here, while registration and login use the top-level fields of the
      same names; registration leaves this section empty. */
  datatype Basic = Basic(
    email: Option<string>,
    mobile: Option<string>,
    alternateMob: Option<string>,
    password: Option<Hash>,
    fullName: Option<string>,
    images: seq<string>,
    other: map<string, string>)

  /** The `basic` section of a user who never saved a profile. */
  const NoBasic := Basic(None, None, None, None, None, [], map[])

  /** A user document. The top-level `email`, `username`, `mobile`,
      `alternateMob`, `password`, `fullName`, `registered` (gender, age and
      the other attributes given at registration), `images` and `details`
      are what registration writes and login reads. `basic` and `profile`
      (the attributes discovery filters on, as the `basic` and `personal`
      sections hold them) are what the profile routes write and every other
      route reads. */
  datatype User = User(
    id: Id,
    email: string,
    username: string,
    mobile: Option<string>,
    alternateMob: Option<string>,
    password: Hash,
    fullName: Option<string>,
    registered: Profile,
    images: seq<string>,
    details: map<string, string>,
    basic: Basic,
    profile: Profile,
    partner: map<string, PartnerValue>,
    uniqueId: seq<CodeUnit>,
    interests: Interests,
    transactions: seq<Transaction>,
    astrology: seq<AstroEntry>,
    hideProfiles: seq<Id>,
    isHidden: Option<bool>,
    isCorrupted: Option<bool>,
    isVerified: Option<bool>,
    hasCompleteProfile: Option<bool>)

  /** JavaScript truthiness of an optional flag: only a present `true`. */
  predicate IsSet(flag: Option<bool>) {
    flag == Some(true)
  }

  /** The status code and message a handler answers with. */
  datatype Response = Response(status: int, msg: string)

  /** A handler's answer together with the state it leaves behind. */
  datatype Reply<S> = Reply(resp: Response, state: S)

  /** Interest credit still available: the purchased total minus one per sent
      interest and five per viewed contact, a missing total counting as 0.
      It is derived, never stored. */
  function Remaining(i: Interests): int {
    i.totalNoOfInterest.GetOr(0) - (|i.sent| + 5 * |i.viewed|)
  }

  /** `User.findById(id)`: the position of the first user with that id. */
  function FindById(users: seq<User>, id: Id): (r: Option<nat>)
    ensures r.Some? ==> r.value < |users| && users[r.value].id == id
    ensures r.Some? ==> forall k :: 0 <= k < r.value ==> users[k].id != id
    ensures r.None? <==> forall k :: 0 <= k < |users| ==> users[k].id != id
  {
    FirstIndex(users, (u: User) => u.id == id)
  }

  /** `User.findOne({ email })` for a present email value: the first user whose
      stored email equals it exactly. An absent value matches nobody, since
      every stored user has an email. */
  function FindByEmail(users: seq<User>, email: Option<string>): (r: Option<nat>)
    ensures r.Some? ==> r.value < |users| && email == Some(users[r.value].email)
    ensures r.Some? ==> forall k :: 0 <= k < r.value ==> email != Some(users[k].email)
    ensures r.None? <==> forall k :: 0 <= k < |users| ==> email != Some(users[k].email)
  {
    if email.None? then None
    else FirstIndex(users, (u: User) => u.email == email.value)
  }

  /** `User.findOne({ mobile })`: the first user whose stored mobile equals the
      present value; an absent value matches nobody. */
  function FindByMobile(users: seq<User>, mobile: Option<string>): (r: Option<nat>)
    ensures r.Some? ==> r.value < |users| && mobile.Some? && users[r.value].mobile == mobile
    ensures r.Some? ==> forall k :: 0 <= k < r.value ==> users[k].mobile != mobile
    ensures r.None? <==> (mobile.None? || forall k :: 0 <= k < |users| ==> users[k].mobile != mobile)
  {
    if mobile.None? then None
    else FirstIndex(users, (u: User) => u.mobile == mobile)
  }

  /** `User.findOne({ "basic.email": email })`: the first user whose `basic`
      section holds that email; an absent value matches nobody. */
  function FindByBasicEmail(users: seq<User>, email: Option<string>): (r: Option<nat>)
    ensures r.Some? ==> r.value < |users| && email.Some? && users[r.value].basic.email == email
    ensures r.Some? ==> forall k :: 0 <= k < r.value ==> users[k].basic.email != email
    ensures r.None? <==> (email.None? || forall k :: 0 <= k < |users| ==> users[k].basic.email != email)
  {
    if email.None? then None
    else FirstIndex(users, (u: User) => u.basic.email == email)
  }

  /** `User.findOne({ "basic.mobile": mobile })`, likewise. */
  function FindByBasicMobile(users: seq<User>, mobile: Option<string>): (r: Option<nat>)
    ensures r.Some? ==> r.value < |users| && mobile.Some? && users[r.value].basic.mobile == mobile
    ensures r.Some? ==> forall k :: 0 <= k < r.value ==> users[k].basic.mobile != mobile
    ensures r.None? <==> (mobile.None? || forall k :: 0 <= k < |users| ==> users[k].basic.mobile != mobile)
  {
    if mobile.None? then None
    else FirstIndex(users, (u: User) => u.basic.mobile == mobile)
  }

  /** An email lookup after appending a user: the earlier users take
      precedence, and the new user is found only when nobody before has the
      email. */
  lemma FindByEmailAppend(users: seq<User>, u: User, email: string)
    ensures FindByEmail(users + [u], Some(email)) ==
              if FindByEmail(users, Some(email)).Some? then FindByEmail(users, Some(email))
              else if u.email == email then Some(|users|) else None
  {
    var s := users + [u];
    assert forall k :: 0 <= k < |users| ==> s[k] == users[k];
    var before := FindByEmail(users, Some(email));
    var after := FindByEmail(s, Some(email));
    if before.Some? {
      assert s[before.value] == users[before.value];
      assert after.Some? && after.value <= before.value;
      assert after == before;
    } else if u.email == email {
      assert s[|users|] == u;
      assert after.Some?;
    }
  }

  /** Both collections hold the same ids at the same positions. */
  predicate SameIds(before: seq<User>, after: seq<User>) {
    |before| == |after| && forall k :: 0 <= k < |before| ==> after[k].id == before[k].id
  }

  /** Lookups by id are unaffected by updates that keep every id in place. */
  lemma {:induction false} FindByIdSameIds(before: seq<User>, after: seq<User>, id: Id)
    requires SameIds(before, after)
    ensures FindById(after, id) == FindById(before, id)
    decreases |before|
  {
    if |before| > 0 && before[0].id != id {
      assert SameIds(before[1..], after[1..]);
      FindByIdSameIds(before[1..], after[1..], id);
      assert FindById(before, id) == match FindById(before[1..], id) case None => None case Some(k) => Some(k + 1);
      assert FindById(after, id) == match FindById(after[1..], id) case None => None case Some(k) => Some(k + 1);
    }
  }

  /** Both collections hold the same `basic` emails at the same positions. */
  predicate SameBasicEmails(before: seq<User>, after: seq<User>) {
    |before| == |after| && forall k :: 0 <= k < |before| ==> after[k].basic.email == before[k].basic.email
  }

  /** Lookups by `basic` email are unaffected by updates that keep every
      such email in place. */
  lemma FindByBasicEmailSame(before: seq<User>, after: seq<User>, email: Option<string>)
    requires SameBasicEmails(before, after)
    ensures FindByBasicEmail(after, email) == FindByBasicEmail(before, email)
  {
  }

  /** Both collections hold the same top-level emails at the same positions. */
  predicate SameEmails(before: seq<User>, after: seq<User>) {
    |before| == |after| && forall k :: 0 <= k < |before| ==> after[k].email == before[k].email
  }

  /** Lookups by top-level email are unaffected by updates that keep every
      such email in place. */
  lemma FindByEmailSame(before: seq<User>, after: seq<User>, email: Option<string>)
    requires SameEmails(before, after)
    ensures FindByEmail(after, email) == FindByEmail(before, email)
  {
  }

  /** Every user except the ones at positions `i` and `j` is unchanged. */
  predicate OthersUnchanged2(before: seq<User>, after: seq<User>, i: nat, j: nat) {
    |before| == |after| && forall k :: 0 <= k < |before| && k != i && k != j ==> after[k] == before[k]
  }

  /** Every user except the one at position `i` is unchanged. */
  predicate OthersUnchanged(before: seq<User>, after: seq<User>, i: nat) {
    |before| == |after| && forall k :: 0 <= k < |before| && k != i ==> after[k] == before[k]
  }
}

=== FILE: transactions.dfy ===
/** Buying interest credits and the pure parts of the payment-gateway routes:
    the create-order payload and the reading of an order's payment status.
    The gateway calls themselves are outside the model. */
module Payments {
  import opened Wrappers
  import opened Js
  import opened Store

  /** POST /buy-interest. A missing user gives 404 and no change. A user
      without a credit total cannot be credited: the sum is not a number, the
      save fails and the answer is 500 with no change. Otherwise the credit
      total grows by `noOfInterest` and one transaction record is appended.
      There is no duplicate-order guard. */
  function BuyInterest(users: seq<User>, userId: Id, noOfInterest: int, orderId: Option<string>,
                       amount: Option<int>, note: Option<string>): (r: Reply<seq<User>>)
    ensures r.resp.status == 404 <==> FindById(users, userId).None?
    ensures r.resp.status == 500 <==>
              FindById(users, userId).Some? && users[FindById(users, userId).value].interests.totalNoOfInterest.None?
    ensures r.resp.status != 200 ==> r.state == users
    ensures SameIds(users, r.state)
    ensures r.resp.status == 200 ==>
              var i := FindById(users, userId).value;
              && users[i].interests.totalNoOfInterest.Some?
              && OthersUnchanged(users, r.state, i)
              && r.state[i].interests.totalNoOfInterest == Some(users[i].interests.totalNoOfInterest.value + noOfInterest)
              && r.state[i].transactions == users[i].transactions + [Transaction(orderId, None, amount, Some(noOfInterest), note)]
  {
    match FindById(users, userId)
    case None => Reply(Response(404, "User not found"), users)
    case Some(i) =>
      var u := users[i];
      match u.interests.totalNoOfInterest
      case None => Reply(Response(500, "Server error"), users)
      case Some(total) =>
        var u' := u.(interests := u.interests.(totalNoOfInterest := Some(total + noOfInterest)),
                     transactions := u.transactions + [Transaction(orderId, None, amount, Some(noOfInterest), note)]);
        Reply(Response(200, "profile"), users[i := u'])
  }

  /** Buying leaves every interest list alone, so the remaining credit rises by
      exactly the number bought. */
  lemma BuyInterestRaisesRemaining(users: seq<User>, userId: Id, n: int, orderId: Option<string>,
                                   amount: Option<int>, note: Option<string>)
    requires FindById(users, userId).Some? && users[FindById(users, userId).value].interests.totalNoOfInterest.Some?
    ensures var r := BuyInterest(users, userId, n, orderId, amount, note);
            var i := FindById(users, userId).value;
            && r.resp.status == 200
            && Remaining(r.state[i].interests) == Remaining(users[i].interests) + n
            && r.state[i].interests == users[i].interests.(totalNoOfInterest := Some(users[i].interests.totalNoOfInterest.value + n))
            && r.state[i] == users[i].(interests := r.state[i].interests, transactions := r.state[i].transactions)
  {
  }

  /** A freshly registered user has no credit total, so every purchase fails
      with 500 and leaves the user without credit. */
  lemma NoTotalNoPurchase(users: seq<User>, userId: Id, n: int, orderId: Option<string>,
                          amount: Option<int>, note: Option<string>)
    requires FindById(users, userId).Some?
    requires users[FindById(users, userId).value].interests == Interests([], [], [], [], [], None)
    ensures var r := BuyInterest(users, userId, n, orderId, amount, note);
            && r.resp == Response(500, "Server error")
            && Remaining(r.state[FindById(users, userId).value].interests) == 0
  {
  }

  /** Repeating a purchase with the same order id credits twice and records two
      transactions: the handler is not idempotent. */
  lemma BuyInterestTwiceCreditsTwice(users: seq<User>, userId: Id, n: int, orderId: Option<string>,
                                     amount: Option<int>, note: Option<string>)
    requires FindById(users, userId).Some? && users[FindById(users, userId).value].interests.totalNoOfInterest.Some?
    ensures var once := BuyInterest(users, userId, n, orderId, amount, note).state;
            var twice := BuyInterest(once, userId, n, orderId, amount, note).state;
            var i := FindById(users, userId).value;
            var t := Transaction(orderId, None, amount, Some(n), note);
            && twice[i].interests.totalNoOfInterest == Some(users[i].interests.totalNoOfInterest.value + 2 * n)
            && twice[i].transactions == users[i].transactions + [t, t]
  {
    var once := BuyInterest(users, userId, n, orderId, amount, note).state;
    FindByIdSameIds(users, once, userId);
  }

  /** The order the create-order route sends to the gateway. */
  datatype OrderPayload = OrderPayload(
    orderId: string,
    orderAmount: int,
    orderCurrency: string,
    orderNote: string,
    paymentModes: seq<string>,
    customerId: string,
    customerName: Option<string>,
    customerEmail: Option<string>,
    customerPhone: string)

  /** POST /create-order payload, with `nanoid()` given as `nanoId`. */
  function CreateOrderPayload(userName: Option<string>, userEmail: Option<string>, userPhone: Option<string>,
                              amount: int, nanoId: string): (p: OrderPayload)
    ensures |p.orderId| >= 6 && p.orderId[..6] == "order_" && p.orderId[6..] == nanoId
    ensures p.orderCurrency == "INR" && p.paymentModes == ["UPI_QR"] && p.orderAmount == amount
    ensures p.customerName == userName && p.customerEmail == userEmail
  {
    OrderPayload("order_" + nanoId, amount, "INR", "Matrimony subscription", ["UPI_QR"],
                 "user_" + Text(userPhone), userName, userEmail, "+91" + Text(userPhone))
  }

  /** The customer id and the customer phone carry the same phone text behind
      their prefixes, and a present phone is carried verbatim. */
  lemma CustomerIdMatchesPhone(userName: Option<string>, userEmail: Option<string>, userPhone: Option<string>,
                               amount: int, nanoId: string)
    ensures var p := CreateOrderPayload(userName, userEmail, userPhone, amount, nanoId);
            && |p.customerId| >= 5 && |p.customerPhone| >= 3
            && p.customerId[..5] == "user_" && p.customerPhone[..3] == "+91"
            && p.customerId[5..] == p.customerPhone[3..]
            && (userPhone.Some? ==> p.customerPhone[3..] == userPhone.value)
  {
  }

  /** A payment of an order as the gateway lists it. */
  datatype Payment = Payment(paymentStatus: Option<string>)

  /** GET /check-payment-status: the status of the last payment listed, or
      nothing when the list is empty. */
  function PaymentStatus(payments: seq<Payment>): (s: Option<string>)
    ensures payments == [] ==> s.None?
    ensures payments != [] ==> s == payments[|payments| - 1].paymentStatus
    ensures s.Some? ==> exists k :: 0 <= k < |payments| && payments[k].paymentStatus == s
  {
    if payments == [] then None else payments[|payments| - 1].paymentStatus
  }

  /** A newly listed payment determines the reported status, whatever came
      before it. */
  lemma LatestPaymentWins(payments: seq<Payment>, p: Payment)
    ensures PaymentStatus(payments + [p]) == p.paymentStatus
  {
  }

  /** The status of a listing split in two is that of the later part, unless
      the later part is empty. */
  lemma PaymentStatusAppend(earlier: seq<Payment>, later: seq<Payment>)
    ensures PaymentStatus(earlier + later) == if later == [] then PaymentStatus(earlier) else PaymentStatus(later)
  {
    if later == [] {
      assert earlier + later == earlier;
    }
  }

  /** Different `nanoid()` values give different order ids, whatever the
      customer details. */
  lemma OrderIdsDistinct(name1: Option<string>, email1: Option<string>, phone1: Option<string>, amount1: int, nano1: string,
                         name2: Option<string>, email2: Option<string>, phone2: Option<string>, amount2: int, nano2: string)
    requires nano1 != nano2
    ensures CreateOrderPayload(name1, email1, phone1, amount1, nano1).orderId !=
            CreateOrderPayload(name2, email2, phone2, amount2, nano2).orderId
  {
    var p1 := CreateOrderPayload(name1, email1, phone1, amount1, nano1);
    var p2 := CreateOrderPayload(name2, email2, phone2, amount2, nano2);
    assert p1.orderId[6..] == nano1 && p2.orderId[6..] == nano2;
  }
}

=== FILE: unique_id.dfy ===
/** The display id given to a new user: two letters and a three-digit number,
    "AA001", "AA002", …, "AA999", "AB001", …, computed from the number of
    users already stored. The id is a JavaScript string, so it is modelled as
    UTF-16 code units. */
module DisplayId {
  import opened Wrappers
  import opened Js

  const Block := 999
  const Letters := 26
  /** Counts below this get two letters in 'A'..'Z'. */
  const Capacity := 999 * 676

  /** The numeric part: the count modulo 999, plus one. */
  function NumberPart(count: nat): (n: nat)
    ensures 1 <= n <= 999
  {
    count % Block + 1
  }

  /** The numeric part as text, zero-padded to three digits. */
  function NumberText(count: nat): (s: string)
    ensures |s| == 3 && forall i :: 0 <= i < 3 ==> IsDigit(s[i])
  {
    var t := PadStart(NatToDecimal(NumberPart(count)), 3, '0');
    assert forall i :: 0 <= i < 3 ==> IsDigit(t[i]) by {
      var d := NatToDecimal(NumberPart(count));
      forall i | 0 <= i < 3 ensures IsDigit(t[i]) {
        if i < 3 - |d| { assert t[i] == '0'; } else { assert t[i] == t[3 - |d|..][i - (3 - |d|)] == d[i - (3 - |d|)]; }
      }
    }
    t
  }

  /** `generateUniqueId()` with `User.countDocuments()` given as `count`. */
  function GenerateUniqueId(count: nat): (id: seq<CodeUnit>)
    ensures |id| == 5
    ensures id[2..] == Units(NumberText(count))
    ensures count < Capacity ==> 65 <= id[0] <= 90 && 65 <= id[1] <= 90
  {
    var lettersIndex := count / Block;
    var first := FromCharCode(65 + lettersIndex / Letters);
    var second := FromCharCode(65 + lettersIndex % Letters);
    [first, second] + Units(NumberText(count))
  }

  /** Reads a display id back to the count it was generated from, for ids of
      two capital letters and three digits that are not "000". */
  function ParseUniqueId(id: seq<CodeUnit>): Option<nat> {
    if |id| != 5 || !(65 <= id[0] <= 90 && 65 <= id[1] <= 90) then None
    else if !(forall i :: 2 <= i < 5 ==> 48 <= id[i] <= 57) then None
    else
      var number := (id[2] - 48) * 100 + (id[3] - 48) * 10 + (id[4] - 48);
      if number == 0 then None
      else Some(((id[0] - 65) * Letters + (id[1] - 65)) * Block + number - 1)
  }

  /** A three-digit string's decimal value, digit by digit. */
  lemma DecimalValueOfThree(s: string)
    requires |s| == 3 && forall i :: 0 <= i < 3 ==> IsDigit(s[i])
    ensures DecimalValue(s) == DigitValue(s[0]) * 100 + DigitValue(s[1]) * 10 + DigitValue(s[2])
  {
    assert s[..2][..1] == s[..1];
    assert s[..1][..0] == [];
    assert DecimalValue(s[..1]) == DigitValue(s[0]);
    assert DecimalValue(s[..2]) == 10 * DigitValue(s[0]) + DigitValue(s[1]);
  }

  /** The three padded digits read back as the numeric part. */
  lemma NumberTextValue(count: nat)
    ensures var s := NumberText(count);
            DigitValue(s[0]) * 100 + DigitValue(s[1]) * 10 + DigitValue(s[2]) == NumberPart(count)
  {
    var n := NumberPart(count);
    var d := NatToDecimal(n);
    var s := NumberText(count);
    DecimalRoundTrip(n);
    DecimalLeadingZeros(3 - |d|, d);
    assert s == Repeat('0', 3 - |d|) + d;
    DecimalValueOfThree(s);
  }

  /** Below the capacity, parsing a generated id gives back the count. */
  lemma {:induction false} ParseGenerate(count: nat)
    requires count < Capacity
    ensures ParseUniqueId(GenerateUniqueId(count)) == Some(count)
  {
    var id := GenerateUniqueId(count);
    var s := NumberText(count);
    NumberTextValue(count);
    assert id[2] == s[0] as int && id[3] == s[1] as int && id[4] == s[2] as int;
    assert id[2] - 48 == DigitValue(s[0]) && id[3] - 48 == DigitValue(s[1]) && id[4] - 48 == DigitValue(s[2]);
    var li := count / Block;
    assert li < 676;
    assert id[0] == 65 + li / Letters && id[1] == 65 + li % Letters;
    assert (li / Letters) * Letters + li % Letters == li;
  }

  /** Below the capacity, distinct counts give distinct ids. */
  lemma GenerateInjective(a: nat, b: nat)
    requires a < Capacity && b < Capacity && a != b
    ensures GenerateUniqueId(a) != GenerateUniqueId(b)
  {
    ParseGenerate(a);
    ParseGenerate(b);
  }

  lemma NumberTextOne()
    ensures NumberText(0) == "001" && NumberText(999) == "001"
  {
    assert NatToDecimal(1) == "1";
    assert Repeat('0', 2) == "00" by {
      assert Repeat('0', 1) == "0";
    }
  }

  lemma NumberTextNines()
    ensures NumberText(998) == "999"
  {
    assert NumberPart(998) == 999;
    assert NatToDecimal(9) == "9";
    assert NatToDecimal(99) == "99";
    assert NatToDecimal(999) == "999";
    assert PadStart("999", 3, '0') == "999";
  }

  lemma IdFromParts(count: nat, text: string, full: string)
    requires count < 26 * Block && NumberText(count) == text
    requires |full| == 5 && full[2..] == text && full[0] == 'A' && full[1] as int == 65 + count / Block
    ensures GenerateUniqueId(count) == Units(full)
  {
    var id := GenerateUniqueId(count);
    assert forall i :: 2 <= i < 5 ==> id[i] == id[2..][i - 2] == text[i - 2] as int;
  }

  /** The first ids handed out. */
  lemma FirstId()
    ensures GenerateUniqueId(0) == Units("AA001")
  {
    NumberTextOne();
    var full := "AA001";
    assert full[2..] == "001";
    IdFromParts(0, "001", full);
  }

  /** The last id of the first letter block. */
  lemma LastIdOfFirstBlock()
    ensures GenerateUniqueId(998) == Units("AA999")
  {
    NumberTextNines();
    assert 998 / Block == 0;
    var full := "AA999";
    assert full[0] == 'A' && full[1] == 'A' && 'A' as int == 65;
    assert full[2..] == "999";
    IdFromParts(998, "999", full);
  }

  /** The 1000th user starts the second letter block. */
  lemma FirstIdOfSecondBlock()
    ensures GenerateUniqueId(999) == Units("AB001")
  {
    NumberTextOne();
    var full := "AB001";
    assert full[2..] == "001";
    IdFromParts(999, "001", full);
  }
}

=== FILE: wrappers.dfy ===
/** Optional values: the model's rendering of JavaScript's `undefined`/`null`
    next to a present value. */
module Wrappers {

  datatype Option<+T> = None | Some(value: T) {

    /** The value, or a default when absent (JavaScript's `x ?? d`). */
    function GetOr(default: T): T {
      match this
      case Some(v) => v
      case None => default
    }
  }
}
